=== FILE: README.md ===
# FLINT: threaded heap multiplication, pretty printing and quadratic-sieve sieving, in Dafny

This project is a Dafny model of four pieces of FLINT. Each piece comes with proofs about what it computes.

- **`fmpz_mpoly_mul_heap_threaded`** multiplies sparse multivariate polynomials.
  - The `len2 * len3` product pairs are cut into `4 * nthreads` divisions.
  - Each division is placed by a monomial search at the score `(d + 1)^2 * len2 * len3 / ndivs^2`.
  - Each division is computed by Johnson's heap kernel over a per-row window of columns.
  - The outputs are concatenated.
  - The entry point handles zero operands, checks degree overflow, chooses the exponent field width and orders the operands.
  - Proved: the result is the normalised product. It is sorted, it has no zero coefficients, every coefficient is the exact sum of the matching coefficient products, and every monomial with a nonzero sum is present.
  - The three-word small-coefficient accumulator is modelled word by word, and its signed reading is proved to equal the exact sum.
- **`mpoly_search_monomials`** is modelled by its contract, a strengthening of the one its test checks (the returned monomial must also be a product monomial), and by a brute-force search that meets it.
  - `e_ind[i]` counts the columns of row `i` whose product comes before `e`.
  - The score counts the pairs from `e` on.
  - No product monomial lies closer to `[lower, upper]`.
  - Proved: with ties broken towards the larger score, the boundaries of nested searches nest, which is what lets the divisions tile the pairs.
- **`_fmpz_mpoly_fprint_pretty`** is modelled as a token sequence that is then spelled out.
  - Proved: the printer emits exactly that spelling.
  - Proved: the tokens read back to the terms.
  - The text itself is not proved to determine the polynomial. Variable names that contain `*` can make two polynomials print alike, and `Pretty.NamesCanCollide` exhibits such a pair.
- **`qsieve_do_sieving`, `qsieve_do_sieving2` and `qsieve_evaluate_sieve`** are modelled as well.
  - Proved: every sieve byte is the fill plus, modulo 256, the weights of the primes that hit that position.
  - For `do_sieving2` this holds up to the last block boundary, with that boundary included, when every prime from `second_prime` on exceeds `BLOCK_SIZE`.
  - `evaluate_sieve` is modelled with its word-at-a-time skip.
  - Proved: its candidates are exactly the bytes that exceed the threshold among the bytes it examines.
  - Examined means: in a full word with a byte of 64 or more, or in the trailing partial word when the skip runs into it.
  - Proved: with a threshold of at least 63 and whole words, nothing is lost.

Modelling choices:

- **Monomials** are an abstract type `M` with an addition and an order `lt`.
  - `lt` is the order in which the kernel emits monomials. The search's comparison is this same order.
  - `Monomials.ValidOrder` requires `lt` to be a strict total order, preserved by adding a monomial. It also requires addition to be commutative.
  - Packed exponent words are left out. The entry point reads exponents through `deg(m, v)`.
- **Integers** are mathematical.
  - The 64-bit words of the accumulator are written out with explicit moduli.
  - The overflow tests of the entry point are written out in the same way.
  - So is the `unsigned char` wrap-around of sieve bytes.
- **Threads** are not modelled.
  - The worker loop runs as one worker claiming divisions by decrementing the shared counter.
  - Any interleaving of workers computes the same divisions, each over the same window.
- **`BLOCK_SIZE`** is a parameter. `qsieve.h` is not part of this model.
- **Heap.** The heap is a map from a monomial to its chain of rows. It merges equal monomials into one chain, so the model's `exp_next` counts distinct monomials. The C counts heap entries (see Left out).

## Model

| member | source | states |
|---|---|---|
| `Accumulator.FirstProduct` | fmpz_mpoly/mul_heap_threaded.c:104-111 | the first product of a chain, `smul_ppmm` sign-extended into `c[2]`, gives words congruent to the product modulo 2^192 |
| `Accumulator.AddProduct` | fmpz_mpoly/mul_heap_threaded.c:114-116 | `add_sssaaaaaa` plus the carry and the product's sign word adds the product to the words modulo 2^192 |
| `Accumulator.Signed` | fmpz_mpoly/mul_heap_threaded.c:178-180 | `fmpz_set_signed_uiuiui` reads the words as the signed 192-bit value congruent to them |
| `Accumulator.AddTerm` | fmpz_mpoly/mul_heap_threaded.c:303-337 | each product of a chain, whether first or later, keeps the words congruent to the running exact sum |
| `Accumulator.ReadBack` | fmpz_mpoly/mul_heap_threaded.c:388-390 | after fewer than 2^63 small products, the signed reading of the words is exactly their sum |
| `Accumulator.SmallProduct` | fmpz_mpoly/mul_heap_threaded.c:235-237 | two coefficients that fit a small fmpz multiply to a value within a signed double word |
| `HeapKernel.MulHeapPart` | fmpz_mpoly/mul_heap_threaded.c:204-406 | the kernel over the window `start`/`end` returns the normalised product of exactly the pairs inside the window, and it uses at most `len2` exponent slots |
| `HeapKernel.HeapRound` | fmpz_mpoly/mul_heap_threaded.c:279-395 | one pass of the main loop keeps the kernel invariant: heap, cursors and frontier agree, and the output is the product of the pairs consumed so far. The pairs left to consume strictly decrease |
| `HeapKernel.SeedHeap` | fmpz_mpoly/mul_heap_threaded.c:260-273 | every row with a nonempty window has its first pair in the chain of that pair's monomial. In the merged heap `exp_next` counts the distinct monomials and stays within `len2` |
| `HeapKernel.HeapInsert` | fmpz_mpoly/mul_heap_threaded.c:268-272 | insertion into the merged heap chains the row under its monomial and changes nothing else. It reports a new exponent slot exactly when the monomial was absent; the C array heap may instead add a second entry for a monomial it does not meet while sifting |
| `HeapKernel.SumChain` | fmpz_mpoly/mul_heap_threaded.c:302-365 | a popped chain sums to the sum of the products at the chain rows' current columns, on either coefficient path |
| `HeapKernel.SumChainSmall` | fmpz_mpoly/mul_heap_threaded.c:303-337 | the three-word path gives the exact sum of the chain's products |
| `HeapKernel.SumChainExact` | fmpz_mpoly/mul_heap_threaded.c:338-365 | the `fmpz_mul`/`fmpz_addmul` path gives the exact sum of the chain's products |
| `HeapKernel.Reinsert` | fmpz_mpoly/mul_heap_threaded.c:368-386 | every popped row advances one column, and exactly those still inside their window are back in the heap |
| `HeapKernel.ReinsertRow` | fmpz_mpoly/mul_heap_threaded.c:371-385 | one stored node advances and is reinserted under its new monomial exactly when its next column is inside the window |
| `HeapKernel.TopCoeff` | fmpz_mpoly/mul_heap_threaded.c:294-300 | the chain of the first monomial in the heap holds every window pair with that monomial, so its sum is the windowed coefficient |
| `HeapKernel.RoundOutput` | fmpz_mpoly/mul_heap_threaded.c:388-393 | appending the sum, or dropping it when it is zero, keeps the output sorted, zero free and exact |
| `HeapKernel.RoundCompleteness` | fmpz_mpoly/mul_heap_threaded.c:392-393 | after the round, every consumed pair whose monomial has a nonzero coefficient has that monomial listed |
| `HeapKernel.KernelDone` | fmpz_mpoly/mul_heap_threaded.c:278-279 | once the heap is empty, the output is the windowed product |
| `Products.FullWindow` | fmpz_mpoly/mul_heap_threaded.c:489-492 | start 0 and end `len3` in every row select exactly all `len2 * len3` pairs |
| `Products.ProductUnique` | fmpz_mpoly/mul_heap_threaded.c:738-773 | two normalised products of the same window are equal, so the product is determined by its definition |
| `Products.ProductCommutes` | fmpz_mpoly/mul_heap_threaded.c:738-750 | the full product of `B` by `A` is the full product of `A` by `B`, so taking the shorter operand first is harmless |
| `Monomials.SortedSameMonos` | fmpz_mpoly/mul_heap_threaded.c:609-642 | two strictly sorted lists with the same monomials list them in the same order |
| `Search.BruteSearch` | mpoly/test/t-search_monomials.c:97-172 | returns a product monomial with the right `e_ind` and score. No product monomial is closer to `[lower, upper]`; if the score is outside, no product monomial is inside |
| `Search.IndPrefix` | mpoly/test/t-search_monomials.c:100-111 | `j < e_ind[i]` holds exactly when the product of row `i` and column `j` comes before `e` |
| `Search.ScoreAntitone` | mpoly/test/t-search_monomials.c:101-131 | a later monomial has a score no larger. An equal score means equal boundaries |
| `Search.SearchNests` | mpoly/test/t-search_monomials.c:133-172 | with ties broken towards the larger score (as `SearchOk` demands), searches at a smaller target give boundaries at or beyond those of a larger one, row by row |
| `Search.TopSearch` | mpoly/test/t-search_monomials.c:133-172 | a search for the score `len2 * len3` returns the boundary 0 in every row |
| `Threaded.Targets` | fmpz_mpoly/mul_heap_threaded.c:549-553 | division `d` gets the target `(d + 1)^2 * len2 * len3 / ndivs^2` |
| `Threaded.CutsGrow` | fmpz_mpoly/mul_heap_threaded.c:551-553 | the targets grow with `d`, and the last one is `len2 * len3` |
| `Threaded.PlaceDivisions` | fmpz_mpoly/mul_heap_threaded.c:584-593 | each division's `exp`, `line` and score meet the search contract at its target |
| `Threaded.CutLines` | fmpz_mpoly/mul_heap_threaded.c:549-593 | the division boundaries nest, the last is 0 in every row, and each is the boundary of its monomial |
| `Threaded.ClaimDivisions` | fmpz_mpoly/mul_heap_threaded.c:462-509 | the worker claims divisions `ndivs - 1` down to 0. Each is the windowed product from `line[i]` to `line[i - 1]`, or to `len3` for division 0 |
| `Threaded.JoinAdjacent` | fmpz_mpoly/mul_heap_threaded.c:609-642 | a division's product concatenated after the product below its boundary is the product of the union of the two windows |
| `Threaded.SplitCoeff` | fmpz_mpoly/mul_heap_threaded.c:609-642 | the coefficient of a monomial over two adjacent windows is its coefficient in the one window that can hold it |
| `Threaded.Assemble` | fmpz_mpoly/mul_heap_threaded.c:609-642 | concatenating the division outputs from division `ndivs - 1` down to 0 gives the full product, and its length is the sum of the `len1` |
| `Threaded.MulHeapThreaded` | fmpz_mpoly/mul_heap_threaded.c:516-652 | the driver returns the normalised product of the two operands, for any number of threads |
| `Entry.MulHeapThreadedEntry` | fmpz_mpoly/mul_heap_threaded.c:654-785 | a zero operand gives the zero polynomial. Otherwise it is an exponent-overflow error exactly when some degree sum reaches 2^63; if not, the result is the product, with a field width that holds every exponent and is at least the operands' widths and 8 |
| `Entry.MulNonZero` | fmpz_mpoly/mul_heap_threaded.c:674-774 | for nonzero operands: overflow exactly when some degree sum reaches 2^63, else the product in a field wide enough for its exponents |
| `Entry.MaxDegree` | fmpz_mpoly/mul_heap_threaded.c:680-681 | the maximum degree of a variable is attained by some term and bounds all terms, and it is 0 for no terms |
| `Entry.MaxDegreeSum` | fmpz_mpoly/mul_heap_threaded.c:683-694 | the loop reports overflow exactly when some degree sum reaches 2^63, and otherwise returns the largest degree sum |
| `Entry.WordDegrees` | fmpz_mpoly/mul_heap_threaded.c:687-689 | the wrap-around and sign tests on the 64-bit sum fire exactly when the true sum reaches 2^63 |
| `Entry.CheckDegrees` | fmpz_mpoly/mul_heap_threaded.c:683-699 | overflow exactly when some degree sum reaches 2^63. Otherwise `max` bounds every sum and `bits` is its bit count |
| `Entry.BitCount` | fmpz_mpoly/mul_heap_threaded.c:697 | `FLINT_BIT_COUNT(max)` is the least `r` with `max < 2^r` |
| `Entry.ChooseExpBits` | fmpz_mpoly/mul_heap_threaded.c:701-706 | the field width is the least power of two, at least 8, above `bits`, widened to the operands' widths |
| `Entry.WordCount` | fmpz_mpoly/mul_heap_threaded.c:710 | `N` is the number of words that hold `n` fields of `exp_bits` bits, using C's truncating division |
| `Entry.Swapped` | fmpz_mpoly/mul_heap_threaded.c:738-762 | the shorter operand goes first; on equal lengths the aliased branch swaps and the other does not |
| `Entry.MulOrdered` | fmpz_mpoly/mul_heap_threaded.c:738-773 | either operand order gives the product of `P2` and `P3` |
| `Entry.MulWithin` | fmpz_mpoly/mul_heap_threaded.c:701-774 | the product, in a field wider than the degree bound's bit count and at least the operands' widths |
| `Entry.ProductFits` | fmpz_mpoly/mul_heap_threaded.c:696-706 | every exponent of the product stays below the sign bit of the chosen field |
| `Pretty.FprintPretty` | fmpz_mpoly/fprint_pretty.c:20-113 | the printed text is the spelling of the polynomial's tokens with the given or default names, and `0` for no terms |
| `Pretty.PrintTerms` | fmpz_mpoly/fprint_pretty.c:56-108 | the loop over terms prints the spelling of every term's tokens in order |
| `Pretty.PrintSign` | fmpz_mpoly/fprint_pretty.c:59-70 | `+` before a positive non-first term, `-` for -1, and the coefficient unless it is 1 or -1 |
| `Pretty.PrintFactors` | fmpz_mpoly/fprint_pretty.c:75-101 | the factor loop prints the tokens of the nonzero exponents, `*` between factors and after a written coefficient |
| `Pretty.PrintFactor` | fmpz_mpoly/fprint_pretty.c:77-100 | a nonzero exponent prints its factor, and a zero exponent prints nothing |
| `Pretty.DefaultNamesOk` | fmpz_mpoly/fprint_pretty.c:43-52 | the default names `x1, x2, ...` are nonempty and pairwise distinct |
| `Pretty.NatStringRoundTrip` | fmpz_mpoly/fprint_pretty.c:87 | the decimal exponent reads back to the exponent |
| `Pretty.CoeffRoundTrip` | fmpz_mpoly/fprint_pretty.c:59-70 | the sign and coefficient text of a term reads back to its coefficient |
| `Pretty.FactorsRoundTrip` | fmpz_mpoly/fprint_pretty.c:75-101 | the factors of a term read back to its exponent vector |
| `Pretty.TermRoundTrip` | fmpz_mpoly/fprint_pretty.c:57-107 | the tokens of one nonzero term read back to the term |
| `Pretty.TermsRoundTrip` | fmpz_mpoly/fprint_pretty.c:57-108 | the tokens of the terms from `i` on read back to those terms |
| `Pretty.PrettyRoundTrip` | fmpz_mpoly/fprint_pretty.c:20-113 | the printed token sequence of a polynomial with nonzero coefficients reads back to the polynomial |
| `Pretty.PlusExactly` | fmpz_mpoly/fprint_pretty.c:59-68 | a term's text starts with `+` exactly when the term is positive and not first, and with `-` when it is negative |
| `Pretty.UnitConstant` | fmpz_mpoly/fprint_pretty.c:103-107 | a constant term with coefficient 1 or -1 prints as `1`, `+1` or `-1` |
| `Pretty.FactorStars` | fmpz_mpoly/fprint_pretty.c:81-96 | `*` precedes every factor except a first factor after an unwritten coefficient |
| `Pretty.NamesCanCollide` | fmpz_mpoly/fprint_pretty.c:77-100 | with the names `a`, `a*b` and `b`, the polynomials `a*b` (in the first and third variables) and `a*b` (in the second variable) print the same text |
| `Sieve.SievePrime` | siqs/collect_relations.c:60-92 | one prime adds its weight at exactly the positions below `end` that are congruent to either root, and leaves the rest unchanged |
| `Sieve.SieveOnce` | siqs/collect_relations.c:60-93 | after prime `pind`, each byte is the fill plus the weights of the primes up to `pind` |
| `Sieve.DoSieving` | siqs/collect_relations.c:42-94 | every byte below `sieve_size` is the fill plus the weights of all primes that hit it. The sentinel byte is 255, and the padding keeps the fill |
| `Sieve.StartSieving2` | siqs/collect_relations.c:117-123 | the fill, and `posn1 = soln1`, `posn2 = soln2 - soln1` for every prime |
| `Sieve.SmallPrimeBlock` | siqs/collect_relations.c:129-163 | a small prime writes every hit up to `B` and none beyond it. `posn1` is then its first hit after `B`, on one root's progression, and `posn1 + posn2` is the next hit of the other root |
| `Sieve.LargePrimeBlock` | siqs/collect_relations.c:165-190 | a large prime writes at most one hit of each root up to `B`: its progression state moves on by at most two terms, and only the bytes at `posn1` and `posn1 + posn2` can change. `posn1`/`posn2` then hold its next hit and the gap after it, and when both hits fit the next hit is exactly `p` further on with the same gap |
| `Sieve.SieveBlock` | siqs/collect_relations.c:125-191 | after block `b` the sieve is the fill plus the weights written so far. Every small prime, and every large prime longer than a block, resumes beyond `b * BLOCK_SIZE`; primes not sieved keep their `posn1`/`posn2` |
| `Sieve.DoSieving2` | siqs/collect_relations.c:101-192 | when every large prime exceeds `BLOCK_SIZE`, each byte is the fill plus the weights of all hits at or below the last block boundary |
| `Sieve.SievesAgree` | siqs/collect_relations.c:42-192 | under that condition the two sieving routines agree on every position up to the last block boundary |
| `Sieve.EvaluateSieve` | siqs/collect_relations.c:387-419 | returns, in increasing order, exactly the examined bytes below `sieve_size` that exceed `sieve_bits` truncated to an `unsigned char`. Examined bytes are those of a full word with a byte of 64 or more, and those of the trailing partial word when the skip runs into it |
| `Sieve.SkipWords` | siqs/collect_relations.c:397-404 | the skip stops at the first word from `j` whose mask with `0xC0` in every byte is nonzero, passing only words with every byte below 64, and never beyond word `sieve_size / 8` |
| `Sieve.ScanWord` | siqs/collect_relations.c:406-416 | the byte loop adds, in increasing order, exactly the bytes of word `j` below `sieve_size` that exceed the threshold |
| `Sieve.SentinelStops` | siqs/collect_relations.c:57-58 | the 255 stored at `sieve_size` stops the skip inside the array |
| `Sieve.SkipLosesNothing` | siqs/collect_relations.c:397-416 | when `sieve_size` is a whole number of words and the threshold is at least 63, every byte above the threshold is examined |
| `Sieve.SkipLosesSmallThreshold` | siqs/collect_relations.c:397-404 | below a threshold of 63 a byte above it can go unexamined, because its word has no byte of 64 or more |
| `Sieve.PartialWordExamined` | siqs/collect_relations.c:394-416 | a byte of the trailing partial word is examined when the last full word has no byte of 64 or more |

## Left out

- Threads, the mutex and `flint_get_num_threads`: `nthreads` is a parameter, and one worker claims every division.
- Storage handling is left out, because it moves coefficients but does not change them. This covers:
  - the reuse of the output polynomial's storage, meaning the `alloc`/`k` swaps at lines 563-581 and the transfers at lines 618-641;
  - `TMP_ALLOC` and `_fmpz_mpoly_fit_length`.
- The aliasing temporary is left out: the model computes a fresh result. Only the effect of aliasing on operand order is kept.
- Exponent packing, masks and unpacking are left out: monomials are abstract. This covers:
  - `mpoly_monomial_add`, `masks_from_bits_ord` and `mpoly_unpack_monomials`;
  - the heap's array layout in `_mpoly_heap_insert` and `_mpoly_heap_pop`.
- `mpoly_search_monomials` is not part of this model.
  - The driver calls a brute-force search that meets the same contract.
  - The real search's choice among equally good monomials is not modelled. The model takes the largest score.
- The one-word kernel `_fmpz_mpoly_mul_heap_part1` (lines 30-194) runs the same algorithm as the N-word kernel. So `HeapKernel.MulHeapPart` stands for both.
  - Its keep-test for popped nodes differs: lines 120 and 132 test `x->j < len3 - 1`, where the other paths also keep column 0.
  - This makes no difference, because a node is reinserted only when `x->j + 1 < end[x->i]`.
- `flint_throw` is modelled as the `ExpOverflow` outcome.
- `Entry.CheckDegrees`: the `bits >= FLINT_BITS` test at line 698 is modelled but can never fire, because the degree sums are below 2^63 by then.
- `fmpz_mpoly_fprint_pretty` (lines 115-129) is left out.
  - It computes `N` and the ordering flags that `mpoly_get_monomial` uses.
  - Exponent vectors come already unpacked, as `degs`.
- The `FILE *` output is left out: `fputc`, `flint_fprintf` and the `EOF` result.
  - The model returns the printed string.
  - A write error stops the C loop early; the model does not stop.
- `fmpz_fprint` of a coefficient and the `%wd` of an exponent are spelled out in full: a coefficient as an optional `-` and its decimal digits, and an exponent as `^` and its decimal digits. The read-back works on `Coeff`/`Power` tokens rather than on those digit strings; only `NatStringRoundTrip` parses digits.
- `Pretty.PrettyRoundTrip` reads back the token sequence, not the text. Names that contain `*` or `^` can make the text ambiguous (`Pretty.NamesCanCollide`), so a text-level read-back would need restrictions on the names.
  - It is about terms with nonzero coefficients and one exponent per variable, which is what a normalised polynomial has.
  - The printer is not injective on other inputs. For example, a coefficient 0 prints as `0`.
- `qsieve_evaluate_candidate` and everything after it are left out: trial division, relations, the hash table and file output.
  - `Sieve.EvaluateSieve` returns the candidate positions instead of calling it.
- The skip at lines 397-404 has no bound check of its own.
  - `Sieve.EvaluateSieve` requires what keeps it inside the array: word `sieve_size / 8` has a byte of 64 or more whenever the skip can reach it.
  - `qsieve_do_sieving` guarantees this with its 255 sentinel (`Sieve.SentinelStops`).
  - `qsieve_do_sieving2` stores no sentinel. After it, the guarantee depends on `sieve_fill` and the hits near `sieve_size`, and neither is part of this model.
- Heap entries are merged: the model's heap keeps one chain per monomial.
  - `_mpoly_heap_insert` only chains onto an equal key it meets while sifting. Otherwise it adds a second entry for the same monomial.
  - The drain loops at lines 95 and 295 pop every entry with the first monomial, so the sums and the output are the same.
  - `exp_next` in the model counts monomials; in C it counts entries. Both stay within `len2`.
- `Entry.WordCount` stands alone.
  - It models the `N` of line 710.
  - `N` only sizes packed exponent vectors, which are not part of this model, so nothing else uses it.
- `qsieve_do_sieving2` computes `posn2 = soln2 - soln1` in unsigned words for every prime.
  - For the primes it never sieves, the roots may be unordered and the C difference wraps around.
  - `Sieve.StartSieving2` states the integer difference, which is never used for those primes.
- `Sieve.DoSieving2`: its contract only states the sieve's contents when every prime from `second_prime` on exceeds `BLOCK_SIZE`.
  - A larger prime writes at most two hits per block, so it may fall behind otherwise.
  - Only the block structure is stated for the general case.
  - Positions after the last block boundary are never sieved.
  - Position `b * BLOCK_SIZE` belongs to block `b`, because lines 155 and 175-180 compare with `<= B`.
- `qs_inf` is flattened into parameters: the factor base, `soln1`, `soln2`, `small_primes`, `second_prime`, `sieve_size`, `sieve_fill` and `sieve_bits`.
- Pointer arithmetic becomes indices, and the byte array is a sequence of values in `[0, 256)`.
- The `slong` products in the division targets at lines 552-553 and 570 are computed in unbounded integers.
  - In C, `(i + 1)^2 * len2 * len3` could overflow for huge operands. The model does not follow that overflow.

=== FILE: accumulator.dfy ===
/**
 * The three-word coefficient accumulator of the heap kernels.
 *
 * When every input coefficient is a small fmpz (absolute value at most
 * `CoeffMax`), each product fits in a signed double word, and a chain of
 * products is summed in three 64-bit words `c2:c1:c0` holding the two's
 * complement of the sum: the first product is sign-extended into `c2`, every
 * further product is added to the low two words with a carry, and its sign
 * extension plus the carry is added to `c2`.  The words are read back as a
 * signed 192-bit integer.
 */
module Accumulator {

  const W: int := 0x1_0000_0000_0000_0000
  const Half: int := 0x8000_0000_0000_0000
  const W2: int := 0x1_0000_0000_0000_0000_0000_0000_0000_0000
  const W3: int := 0x1_0000_0000_0000_0000_0000_0000_0000_0000_0000_0000_0000_0000
  const Half3: int := 0x8000_0000_0000_0000_0000_0000_0000_0000_0000_0000_0000_0000

  /** The largest absolute value of a coefficient stored without a pointer. */
  const CoeffMax: int := 0x3FFF_FFFF_FFFF_FFFF

  /** The largest absolute value of a product of two such coefficients. */
  const ProdMax: int := CoeffMax * CoeffMax

  /** Three machine words, most significant first. */
  datatype Words = Words(c2: int, c1: int, c0: int)

  predicate WordsOk(a: Words) {
    0 <= a.c2 < W && 0 <= a.c1 < W && 0 <= a.c0 < W
  }

  /** The words read as one unsigned 192-bit number. */
  function Value(a: Words): int {
    a.c2 * W2 + a.c1 * W + a.c0
  }

  /** `fmpz_set_signed_uiuiui`: the words read as a signed 192-bit number. */
  function Signed(a: Words): (r: int)
    requires WordsOk(a)
    ensures -Half3 <= r < Half3
    ensures (r - Value(a)) % W3 == 0
  {
    if Value(a) >= Half3 then Value(a) - W3 else Value(a)
  }

  predicate Small(c: int) {
    -CoeffMax <= c <= CoeffMax
  }

  /** `smul_ppmm`: the high and low words of a signed double-word product `x`. */
  function SMulHigh(x: int): int {
    (x % W2) / W
  }

  function SMulLow(x: int): int {
    (x % W2) % W
  }

  /** The words after the first product of a chain: the product, sign-extended. */
  function FirstProduct(x: int): (r: Words)
    requires -Half * W <= x < Half * W
    ensures WordsOk(r)
    ensures (Value(r) - x) % W3 == 0
  {
    var hi := SMulHigh(x);
    Words(if hi >= Half then W - 1 else 0, hi, SMulLow(x))
  }

  /**
   * `add_sssaaaaaa` of the product into the low two words, then the carry and
   * the sign word of the product added to the top word.
   */
  function AddProduct(a: Words, x: int): (r: Words)
    requires WordsOk(a)
    requires -Half * W <= x < Half * W
    ensures WordsOk(r)
    ensures (Value(r) - Value(a) - x) % W3 == 0
  {
    var p1, p0 := SMulHigh(x), SMulLow(x);
    var s := a.c1 * W + a.c0 + p1 * W + p0;
    var cy := s / W2;
    var low := s % W2;
    var top := (a.c2 + (if p1 < Half then cy else cy - 1)) % W;
    SplitProduct(x);
    AddProductValue(a, x, p1, p0, s, cy, low, top);
    Words(top, low / W, low % W)
  }

  /** The product words are the two's complement of `x`, and the top bit is its sign. */
  lemma SplitProduct(x: int)
    requires -Half * W <= x < Half * W
    ensures 0 <= SMulHigh(x) < W && 0 <= SMulLow(x) < W
    ensures SMulHigh(x) * W + SMulLow(x) == x % W2
    ensures SMulHigh(x) >= Half <==> x < 0
    ensures x % W2 == (if x < 0 then x + W2 else x)
  {
    var u := x % W2;
    if x < 0 {
      assert x + W2 >= 0;
      assert u == x + W2;
    } else {
      assert u == x;
    }
  }

  lemma AddProductValue(a: Words, x: int, p1: int, p0: int, s: int, cy: int, low: int, top: int)
    requires WordsOk(a)
    requires -Half * W <= x < Half * W
    requires 0 <= p1 < W && 0 <= p0 < W && p1 * W + p0 == x % W2
    requires p1 >= Half <==> x < 0
    requires x % W2 == (if x < 0 then x + W2 else x)
    requires s == a.c1 * W + a.c0 + p1 * W + p0
    requires cy == s / W2 && low == s % W2
    requires top == (a.c2 + (if p1 < Half then cy else cy - 1)) % W
    ensures 0 <= top < W && 0 <= low < W2
    ensures ((top * W2 + low) - Value(a) - x) % W3 == 0
  {
    var e := if p1 < Half then cy else cy - 1;
    var t := (a.c2 + e) / W;
    assert a.c2 + e == t * W + top;
    assert s == cy * W2 + low;
    // the sign word of the product removes W2 exactly when the product is negative
    assert x == p1 * W + p0 - (if p1 < Half then 0 else W2);
    assert top * W2 + low == (a.c2 + e) * W2 - t * W3 + low;
    assert (top * W2 + low) - Value(a) - x == -t * W3;
  }

  /** The signed reading of words congruent to a value in range is that value. */
  lemma SignedExact(a: Words, v: int)
    requires WordsOk(a)
    requires -Half3 <= v < Half3
    requires (Value(a) - v) % W3 == 0
    ensures Signed(a) == v
  {
    var r := Signed(a);
    assert (r - v) % W3 == 0;
    var q := (r - v) / W3;
    assert r - v == q * W3;
  }

  lemma MultipleSum(a: int, b: int)
    requires a % W3 == 0 && b % W3 == 0
    ensures (a + b) % W3 == 0
  {
    var p, q := a / W3, b / W3;
    assert a + b == (p + q) * W3;
  }

  /**
   * One product of a chain into the words: the first product starts them, any
   * other is added.  Words congruent to `exact` become congruent to `exact + x`.
   */
  function AddTerm(a: Words, first: bool, x: int, ghost exact: int): (r: Words)
    requires WordsOk(a)
    requires -ProdMax <= x <= ProdMax
    requires (Value(a) - exact) % W3 == 0
    requires first ==> exact == 0
    ensures WordsOk(r)
    ensures (Value(r) - (exact + x)) % W3 == 0
  {
    if first then FirstProduct(x)
    else
      var r := AddProduct(a, x);
      MultipleSum(Value(r) - Value(a) - x, Value(a) - exact);
      r
  }

  /** A sum of `n` products stays within `n` times the largest product. */
  lemma BoundStep(n: nat, s: int, x: int)
    requires -(n * ProdMax) <= s <= n * ProdMax
    requires -ProdMax <= x <= ProdMax
    ensures -((n + 1) * ProdMax) <= s + x <= (n + 1) * ProdMax
  {
    assert (n + 1) * ProdMax == n * ProdMax + ProdMax;
  }

  /** Fewer than 2^63 such products sum to a signed 192-bit number. */
  lemma SumFits(n: nat, s: int)
    requires n < Half
    requires -(n * ProdMax) <= s <= n * ProdMax
    ensures -Half3 <= s < Half3
  {
    assert n * ProdMax <= Half * ProdMax;
  }

  /** `fmpz_set_signed_uiuiui` after a chain of fewer than 2^63 products: the exact sum. */
  function ReadBack(c: Words, ghost exact: int, ghost n: nat): (r: int)
    requires WordsOk(c) && (Value(c) - exact) % W3 == 0
    requires n < Half && -(n * ProdMax) <= exact <= n * ProdMax
    ensures r == exact
  {
    SumFits(n, exact);
    SignedExact(c, exact);
    Signed(c)
  }

  /** Product of two small coefficients. */
  lemma SmallProduct(a: int, b: int)
    requires Small(a) && Small(b)
    ensures -ProdMax <= a * b <= ProdMax
  {
    var m := CoeffMax;
    var x := if a < 0 then -a else a;
    var y := if b < 0 then -b else b;
    BoundedProduct(x, y, m);
    assert a * b == x * y || a * b == -(x * y);
  }

  lemma BoundedProduct(x: int, y: int, m: int)
    requires 0 <= x <= m && 0 <= y <= m
    ensures 0 <= x * y <= m * m
  {
    assert x * y <= m * y;
    assert m * y <= m * m;
  }
}

=== FILE: entry.dfy ===
/**
 * The entry point `fmpz_mpoly_mul_heap_threaded`.
 *
 * It returns the zero polynomial when an operand is zero, rejects products
 * whose degree in some variable does not fit a signed word, chooses the
 * exponent field width `exp_bits` of the product and the number `N` of words
 * per exponent vector, and calls the threaded driver with the shorter operand
 * first.  Exponent vectors are abstract monomials; `deg(m, v)` reads the
 * exponent of variable `v`, and multiplying monomials adds exponents.
 */
module Entry {
  import opened Wrappers
  import opened Monomials
  import opened Products
  import opened Accumulator
  import opened Threaded

  /** The exponent of each variable in a monomial. */
  datatype Exponents<!M> = Exponents(deg: (M, nat) -> nat)

  /** Multiplying monomials adds their exponent vectors. */
  ghost predicate Additive<M(!new)>(o: MonoOrder<M>, x: Exponents<M>) {
    forall a, b, v {:trigger x.deg(o.add(a, b), v)} :: x.deg(o.add(a, b), v) == x.deg(a, v) + x.deg(b, v)
  }

  /** A polynomial: its terms and the field width of its packed exponents. */
  datatype MPoly<M> = MPoly(terms: seq<Term<M>>, bits: nat)

  datatype Outcome<M> = ExpOverflow | Done(poly: MPoly<M>)

  /** Terms in order without zero coefficients, every exponent of the `n` variables a machine word. */
  ghost predicate WellFormed<M>(o: MonoOrder<M>, x: Exponents<M>, n: nat, p: MPoly<M>) {
    && Normalised(o, p.terms)
    && |p.terms| < Half
    && forall k, v :: 0 <= k < |p.terms| && 0 <= v < n ==> x.deg(p.terms[k].mono, v) < W
  }

  // ---------------------------------------------------------------------------
  // Degrees and overflow

  /** `fmpz_mpoly_max_degrees`: the largest exponent of `v` over the terms, 0 for none. */
  function MaxDegree<M>(x: Exponents<M>, s: seq<Term<M>>, v: nat): (r: nat)
    ensures forall k :: 0 <= k < |s| ==> x.deg(s[k].mono, v) <= r
    ensures |s| == 0 ==> r == 0
    ensures |s| > 0 ==> exists k :: 0 <= k < |s| && x.deg(s[k].mono, v) == r
  {
    if |s| == 0 then 0
    else
      var m := MaxDegree(x, s[..|s| - 1], v);
      var d := x.deg(s[|s| - 1].mono, v);
      assert forall k :: 0 <= k < |s| - 1 ==> s[..|s| - 1][k] == s[k];
      if d > m then d else m
  }

  lemma MaxDegreeWord<M>(x: Exponents<M>, s: seq<Term<M>>, v: nat, n: nat)
    requires v < n
    requires forall k, v :: 0 <= k < |s| && 0 <= v < n ==> x.deg(s[k].mono, v) < W
    ensures MaxDegree(x, s, v) < W
  {
    if |s| > 0 {
      var k :| 0 <= k < |s| && x.deg(s[k].mono, v) == MaxDegree(x, s, v);
    }
  }

  /**
   * The overflow test on a wrapped word sum: it wrapped around (is below an
   * addend) or has its top bit set.
   */
  predicate Overflows(d2: nat, d3: nat) {
    var s := (d2 + d3) % W;
    s < d2 || s >= Half
  }

  /** For word-sized degrees the test fires exactly when the true sum needs the top bit. */
  lemma OverflowsExactly(d2: nat, d3: nat)
    requires d2 < W && d3 < W
    ensures Overflows(d2, d3) <==> d2 + d3 >= Half
    ensures !Overflows(d2, d3) ==> (d2 + d3) % W == d2 + d3
  {
    if d2 + d3 >= W {
      assert (d2 + d3) % W == d2 + d3 - W;
    } else {
      assert (d2 + d3) % W == d2 + d3;
    }
  }

  /** The degree of variable `v` in the product: the sum of the operands' degrees. */
  function DegreeSum<M>(x: Exponents<M>, P2: seq<Term<M>>, P3: seq<Term<M>>, v: nat): nat {
    MaxDegree(x, P2, v) + MaxDegree(x, P3, v)
  }

  /**
   * The loop over the variables: the largest degree sum, or `None` when some
   * variable's sum overflows.
   */
  method MaxDegreeSum<M>(x: Exponents<M>, n: nat, P2: seq<Term<M>>, P3: seq<Term<M>>) returns (r: Option<nat>)
    requires forall k, v :: 0 <= k < |P2| && 0 <= v < n ==> x.deg(P2[k].mono, v) < W
    requires forall k, v :: 0 <= k < |P3| && 0 <= v < n ==> x.deg(P3[k].mono, v) < W
    ensures r.None? <==> exists v :: 0 <= v < n && DegreeSum(x, P2, P3, v) >= Half
    ensures r.Some? ==> r.value < Half
    ensures r.Some? ==> forall v :: 0 <= v < n ==> DegreeSum(x, P2, P3, v) <= r.value
    ensures r.Some? && n > 0 ==> exists v :: 0 <= v < n && DegreeSum(x, P2, P3, v) == r.value
    ensures r.Some? && n == 0 ==> r.value == 0
  {
    var max: nat := 0;
    ghost var arg := 0;
    var i := 0;
    while i < n
      invariant 0 <= i <= n && max < Half
      invariant SumsWithin(x, P2, P3, i, max)
      invariant i > 0 ==> arg < i && DegreeSum(x, P2, P3, arg) == max
      invariant i == 0 ==> max == 0
    {
      var d := WordDegrees(x, n, P2, P3, i);
      var d2, d3 := d.0, d.1;
      var sum := (d2 + d3) % W;
      if sum < d2 || sum >= Half {
        assert DegreeSum(x, P2, P3, i) >= Half;
        return None;
      }
      ghost var max0 := max;
      if sum > max || i == 0 {
        max := sum;
        arg := i;
      }
      SumsWithinStep(x, P2, P3, i, max0, max);
      i := i + 1;
    }
    return Some(max);
  }

  /** Every degree sum of the first `i` variables is at most `max` and fits in a signed word. */
  ghost predicate SumsWithin<M>(x: Exponents<M>, P2: seq<Term<M>>, P3: seq<Term<M>>, i: nat, max: nat) {
    forall v :: 0 <= v < i ==> DegreeSum(x, P2, P3, v) <= max && DegreeSum(x, P2, P3, v) < Half
  }

  lemma SumsWithinStep<M>(x: Exponents<M>, P2: seq<Term<M>>, P3: seq<Term<M>>, i: nat, max: nat, max': nat)
    requires SumsWithin(x, P2, P3, i, max) && max <= max'
    requires DegreeSum(x, P2, P3, i) <= max' && DegreeSum(x, P2, P3, i) < Half
    ensures SumsWithin(x, P2, P3, i + 1, max')
  {
  }

  /** The two degrees of variable `v`, which overflow together exactly when their sum needs the top bit. */
  function WordDegrees<M>(x: Exponents<M>, n: nat, P2: seq<Term<M>>, P3: seq<Term<M>>, v: nat): (r: (nat, nat))
    requires v < n
    requires forall k, v :: 0 <= k < |P2| && 0 <= v < n ==> x.deg(P2[k].mono, v) < W
    requires forall k, v :: 0 <= k < |P3| && 0 <= v < n ==> x.deg(P3[k].mono, v) < W
    ensures r.0 + r.1 == DegreeSum(x, P2, P3, v)
    ensures Overflows(r.0, r.1) <==> r.0 + r.1 >= Half
    ensures !Overflows(r.0, r.1) ==> (r.0 + r.1) % W == r.0 + r.1
  {
    var d2, d3 := MaxDegree(x, P2, v), MaxDegree(x, P3, v);
    MaxDegreeWord(x, P2, v, n);
    MaxDegreeWord(x, P3, v, n);
    OverflowsExactly(d2, d3);
    (d2, d3)
  }

  // ---------------------------------------------------------------------------
  // Field width and word count

  function Pow2(k: nat): (r: nat)
    ensures r >= 1
  {
    if k == 0 then 1 else 2 * Pow2(k - 1)
  }

  lemma {:induction false} Pow2Grows(k: nat, k': nat)
    requires k <= k'
    ensures Pow2(k) <= Pow2(k')
    decreases k'
  {
    if k < k' {
      Pow2Grows(k, k' - 1);
    }
  }

  /** `FLINT_BIT_COUNT`: the number of bits of `x`, 0 for 0. */
  function BitCount(x: nat): (r: nat)
    ensures x < Pow2(r)
    ensures r > 0 ==> Pow2(r - 1) <= x
  {
    if x == 0 then 0 else 1 + BitCount(x / 2)
  }

  /** A value below 2^63 has at most 63 bits, so the `bits >= FLINT_BITS` test never fires. */
  lemma BitCountBelowWord(x: nat)
    requires x < Half
    ensures BitCount(x) < 64
  {
    Pow2Of63();
    var b := BitCount(x);
    if b >= 64 {
      Pow2Grows(63, b - 1);
    }
  }

  lemma {:induction false} Pow2Add(a: nat, b: nat)
    ensures Pow2(a + b) == Pow2(a) * Pow2(b)
    decreases b
  {
    if b > 0 {
      Pow2Add(a, b - 1);
    }
  }

  /** 2^63 is the sign bit of a word. */
  lemma Pow2Of63()
    ensures Pow2(63) == Half
  {
    assert Pow2(8) == 256;
    Pow2Add(8, 8);
    assert Pow2(16) == 0x1_0000;
    Pow2Add(16, 16);
    assert Pow2(32) == 0x1_0000_0000;
    Pow2Add(32, 16);
    assert Pow2(48) == 0x1_0000_0000_0000;
    Pow2Add(48, 15);
    assert Pow2(15) == 0x8000;
  }

  /**
   * The field width: the smallest power of two, at least 8, with room for
   * `bits` and a sign bit, widened to the operands' own widths.
   */
  method ChooseExpBits(bits: nat, bits2: nat, bits3: nat) returns (expBits: nat, ghost field: nat, ghost k: nat)
    ensures field == Pow2(k) && 3 <= k
    ensures bits < field && (field == 8 || field / 2 <= bits)
    ensures expBits >= field && expBits >= bits2 && expBits >= bits3
    ensures expBits == field || expBits == bits2 || expBits == bits3
  {
    expBits := 8;
    k := 3;
    while bits >= expBits
      invariant expBits == Pow2(k) && 3 <= k
      invariant expBits == 8 || expBits / 2 <= bits
      decreases bits - expBits
    {
      expBits := expBits * 2;
      k := k + 1;
    }
    field := expBits;
    if bits2 > expBits {
      expBits := bits2;
    }
    if bits3 > expBits {
      expBits := bits3;
    }
  }

  /** C division for a divisor `b > 0`: the quotient is truncated towards zero. */
  function CDiv(a: int, b: nat): int
    requires b > 0
  {
    if a >= 0 then a / b else -((-a) / b)
  }

  /** `N`: the number of 64-bit words holding `n` fields of `expBits` bits. */
  function WordCount(expBits: nat, n: nat): (N: nat)
    ensures expBits * n == 0 ==> N == 1
    ensures expBits * n > 0 ==> 64 * (N - 1) < expBits * n <= 64 * N
  {
    var q := CDiv(expBits * n - 1, 64);
    assert q >= 0;
    q + 1
  }

  /** The driver gets the shorter operand first; the tie goes the other way when the output is an input. */
  function Swapped(len2: nat, len3: nat, aliased: bool): (swap: bool)
    ensures swap ==> len3 <= len2
    ensures !swap ==> len2 <= len3
    ensures len2 != len3 ==> (swap <==> len3 < len2)
    ensures len2 == len3 ==> (swap <==> aliased)
  {
    if aliased then len2 >= len3 else len2 > len3
  }

  // ---------------------------------------------------------------------------
  // The entry point

  /**
   * Multiply `P2` by `P3` in `n` variables.  `bits1` is the field width the
   * output polynomial had; `aliased` says whether it is one of the inputs.
   */
  method MulHeapThreadedEntry<M(==, !new)>(o: MonoOrder<M>, x: Exponents<M>, n: nat,
                                          P2: MPoly<M>, P3: MPoly<M>, bits1: nat, aliased: bool, nthreads: nat)
    returns (r: Outcome<M>)
    requires ValidOrder(o) && Additive(o, x)
    requires WellFormed(o, x, n, P2) && WellFormed(o, x, n, P3)
    requires nthreads > 0
    ensures |P2.terms| == 0 || |P3.terms| == 0 ==> r == Done(MPoly([], bits1))
    ensures |P2.terms| > 0 && |P3.terms| > 0 ==>
              (r.ExpOverflow? <==>
                 exists v :: 0 <= v < n && DegreeSum(x, P2.terms, P3.terms, v) >= Half)
    ensures r.Done? && |P2.terms| > 0 && |P3.terms| > 0 ==>
              && IsProduct(o, P2.terms, P3.terms, FullWindow(|P2.terms|, |P3.terms|), r.poly.terms)
              && r.poly.bits >= P2.bits && r.poly.bits >= P3.bits && r.poly.bits >= 8
              && forall k, v :: 0 <= k < |r.poly.terms| && 0 <= v < n ==>
                   x.deg(r.poly.terms[k].mono, v) < Pow2(r.poly.bits - 1)
  {
    if |P2.terms| == 0 || |P3.terms| == 0 {
      return Done(MPoly([], bits1));
    }
    r := MulNonZero(o, x, n, P2, P3, aliased, nthreads);
  }

  method MulNonZero<M(==, !new)>(o: MonoOrder<M>, x: Exponents<M>, n: nat,
                                 P2: MPoly<M>, P3: MPoly<M>, aliased: bool, nthreads: nat)
    returns (r: Outcome<M>)
    requires ValidOrder(o) && Additive(o, x)
    requires WellFormed(o, x, n, P2) && WellFormed(o, x, n, P3)
    requires |P2.terms| > 0 && |P3.terms| > 0 && nthreads > 0
    ensures r.ExpOverflow? <==>
              exists v :: 0 <= v < n && DegreeSum(x, P2.terms, P3.terms, v) >= Half
    ensures r.Done? ==>
              && IsProduct(o, P2.terms, P3.terms, FullWindow(|P2.terms|, |P3.terms|), r.poly.terms)
              && r.poly.bits >= P2.bits && r.poly.bits >= P3.bits && r.poly.bits >= 8
              && forall k, v :: 0 <= k < |r.poly.terms| && 0 <= v < n ==>
                   x.deg(r.poly.terms[k].mono, v) < Pow2(r.poly.bits - 1)
  {
    var overflow, max, bits := CheckDegrees(x, n, P2.terms, P3.terms);
    if overflow {
      return ExpOverflow;
    }
    var poly := MulWithin(o, P2, P3, aliased, nthreads, bits);
    ProductFits(o, x, n, P2.terms, P3.terms, poly.terms, max, bits, poly.bits);
    return Done(poly);
  }

  /**
   * The degree bound of the product and its bit count; `overflow` when some
   * degree sum does not fit in a signed word.  The `bits >= FLINT_BITS` test
   * never fires once the sums fit.
   */
  method CheckDegrees<M>(x: Exponents<M>, n: nat, P2: seq<Term<M>>, P3: seq<Term<M>>)
    returns (overflow: bool, max: nat, bits: nat)
    requires forall k, v :: 0 <= k < |P2| && 0 <= v < n ==> x.deg(P2[k].mono, v) < W
    requires forall k, v :: 0 <= k < |P3| && 0 <= v < n ==> x.deg(P3[k].mono, v) < W
    ensures overflow <==> exists v :: 0 <= v < n && DegreeSum(x, P2, P3, v) >= Half
    ensures !overflow ==> (forall v :: 0 <= v < n ==> DegreeSum(x, P2, P3, v) <= max) && bits == BitCount(max)
  {
    var m := MaxDegreeSum(x, n, P2, P3);
    overflow := m.None?;
    max, bits := 0, 0;
    if !overflow {
      max := m.value;
      bits := BitCount(max);
      BitCountBelowWord(max);
      overflow := bits >= 64;
    }
  }

  /** Once the degree sums fit: choose a field wider than the degree bound, and multiply. */
  method MulWithin<M(==, !new)>(o: MonoOrder<M>, P2: MPoly<M>, P3: MPoly<M>, aliased: bool, nthreads: nat, bits: nat)
    returns (poly: MPoly<M>)
    requires ValidOrder(o)
    requires Sorted(o, P2.terms) && Sorted(o, P3.terms)
    requires 0 < |P2.terms| < Half && 0 < |P3.terms| < Half && nthreads > 0
    ensures IsProduct(o, P2.terms, P3.terms, FullWindow(|P2.terms|, |P3.terms|), poly.terms)
    ensures poly.bits > bits
    ensures poly.bits >= P2.bits && poly.bits >= P3.bits && poly.bits >= 8
  {
    var expBits, field, k := ChooseExpBits(bits, P2.bits, P3.bits);
    Pow2Grows(3, k);
    var out := MulOrdered(o, P2.terms, P3.terms, aliased, nthreads);
    poly := MPoly(out, expBits);
  }

  /** Call the driver with the shorter operand first; the product is the same either way. */
  method MulOrdered<M(==, !new)>(o: MonoOrder<M>, P2: seq<Term<M>>, P3: seq<Term<M>>, aliased: bool, nthreads: nat)
    returns (out: seq<Term<M>>)
    requires ValidOrder(o) && Sorted(o, P2) && Sorted(o, P3)
    requires 0 < |P2| < Half && 0 < |P3| < Half && nthreads > 0
    ensures IsProduct(o, P2, P3, FullWindow(|P2|, |P3|), out)
  {
    if Swapped(|P2|, |P3|, aliased) {
      out := MulHeapThreaded(o, P3, P2, nthreads);
      ProductCommutes(o, P3, P2, out);
    } else {
      out := MulHeapThreaded(o, P2, P3, nthreads);
    }
  }

  /** No exponent of the product reaches the sign bit of its field. */
  lemma ProductFits<M(!new)>(o: MonoOrder<M>, x: Exponents<M>, n: nat, P2: seq<Term<M>>, P3: seq<Term<M>>,
                             out: seq<Term<M>>, max: nat, bits: nat, expBits: nat)
    requires Additive(o, x)
    requires IsProduct(o, P2, P3, FullWindow(|P2|, |P3|), out)
    requires forall v :: 0 <= v < n ==> DegreeSum(x, P2, P3, v) <= max
    requires bits == BitCount(max)
    requires bits < expBits
    ensures forall t, v :: 0 <= t < |out| && 0 <= v < n ==> x.deg(out[t].mono, v) < Pow2(expBits - 1)
  {
    Pow2Grows(bits, expBits - 1);
    forall t, v | 0 <= t < |out| && 0 <= v < n
      ensures x.deg(out[t].mono, v) < Pow2(expBits - 1)
    {
      var i, j := ProductMonoHasPair(o, P2, P3, FullWindow(|P2|, |P3|), out, t);
      PairDegree(o, x, P2, P3, i, j, v);
    }
  }

  /** The degree of a product of two terms is at most the sum of the operands' degrees. */
  lemma PairDegree<M(!new)>(o: MonoOrder<M>, x: Exponents<M>, P2: seq<Term<M>>, P3: seq<Term<M>>, i: nat, j: nat, v: nat)
    requires Additive(o, x)
    requires i < |P2| && j < |P3|
    ensures x.deg(o.add(P2[i].mono, P3[j].mono), v) <= DegreeSum(x, P2, P3, v)
  {
    assert x.deg(o.add(P2[i].mono, P3[j].mono), v) == x.deg(P2[i].mono, v) + x.deg(P3[j].mono, v);
  }
}

=== FILE: heap_kernel.dfy ===
/**
 * The Johnson heap kernel `_fmpz_mpoly_mul_heap_part` (and its one-word
 * specialisation `_fmpz_mpoly_mul_heap_part1`, which runs the same algorithm
 * on packed one-word exponents).
 *
 * Row `i` of the first operand walks the columns `start[i] <= j < stop[i]` of
 * the second operand; its current column is `cur[i]`, and the row is in the
 * heap exactly while `cur[i] < stop[i]`.  The heap is a map from a monomial to
 * the chain of rows whose current product has that monomial, so equal
 * monomials always share one chain.  The array heap of `_mpoly_heap_insert`
 * only chains a new node onto an equal key it meets while sifting and may
 * otherwise hold a second entry for the same monomial; the drain loop pops
 * every entry with the first monomial either way.  In the model `exp_next`
 * therefore counts distinct monomials, where the C counts heap entries.
 * Each round takes the first monomial,
 * sums the products of its whole chain, advances those rows and reinserts the
 * ones still inside their windows, and appends the sum when it is nonzero.
 */
module HeapKernel {
  import opened Wrappers
  import opened Monomials
  import opened Products
  import opened Accumulator

  /** Along a row the product monomials strictly increase. */
  ghost predicate RowsIncreasing<M>(o: MonoOrder<M>, A: seq<Term<M>>, B: seq<Term<M>>) {
    forall i, j, j' :: 0 <= i < |A| && 0 <= j < j' < |B| ==> o.lt(Key(o, A, B, i, j), Key(o, A, B, i, j'))
  }

  lemma SortedRowsIncrease<M(!new)>(o: MonoOrder<M>, A: seq<Term<M>>, B: seq<Term<M>>)
    requires ValidOrder(o) && Sorted(o, B)
    ensures RowsIncreasing(o, A, B)
  {
    forall i, j, j' | 0 <= i < |A| && 0 <= j < j' < |B|
      ensures o.lt(Key(o, A, B, i, j), Key(o, A, B, i, j'))
    {
      ShiftPreservesOrder(o, A[i].mono, B[j].mono, B[j'].mono);
    }
  }

  // ---------------------------------------------------------------------------
  // Kernel state

  /** Row `i` has a node in the heap: its next column is inside its window. */
  predicate Live(w: Window, cur: seq<nat>, i: nat) {
    i < |cur| && i < |w.stop| && cur[i] < w.stop[i]
  }

  /** Cursors start at the first column of the window and never pass its end. */
  ghost predicate CursorsOk(w: Window, cur: seq<nat>, n: nat) {
    && |cur| == n && |w.start| == n && |w.stop| == n
    && forall i :: 0 <= i < n ==> w.start[i] <= cur[i] && (cur[i] <= w.stop[i] || cur[i] == w.start[i])
  }

  /**
   * The heap holds exactly the live rows outside `X`, each under the monomial
   * of its current product, and no key has an empty chain.
   */
  ghost predicate HeapOkExcept<M>(o: MonoOrder<M>, A: seq<Term<M>>, B: seq<Term<M>>, w: Window,
                                  cur: seq<nat>, heap: map<M, set<nat>>, X: set<nat>)
    requires WindowFits(w, |A|, |B|) && |cur| == |A|
  {
    && (forall k :: k in heap ==> heap[k] != {})
    && (forall k, r {:trigger r in heap[k]} :: k in heap && r in heap[k] ==>
          0 <= r < |A| && r !in X && Live(w, cur, r) && Key(o, A, B, r, cur[r]) == k)
    && (forall r {:trigger Live(w, cur, r)} :: 0 <= r < |A| && r !in X && Live(w, cur, r) ==>
          Key(o, A, B, r, cur[r]) in heap && r in heap[Key(o, A, B, r, cur[r])])
  }

  /** `m` comes no later than the frontier `f`; nothing does before the first round. */
  ghost predicate AtMost<M>(o: MonoOrder<M>, m: M, f: Option<M>) {
    f.Some? && Le(o, m, f.value)
  }

  /**
   * `f` is the last monomial taken off the heap: every consumed product comes
   * no later than it and every product still in the heap comes after it.
   */
  ghost predicate FrontierOk<M>(o: MonoOrder<M>, A: seq<Term<M>>, B: seq<Term<M>>, w: Window,
                                cur: seq<nat>, f: Option<M>)
    requires WindowFits(w, |A|, |B|) && |cur| == |A|
  {
    && (forall i, j {:trigger Key(o, A, B, i, j)} :: 0 <= i < |A| && w.start[i] <= j < cur[i] && j < |B| ==>
          AtMost(o, Key(o, A, B, i, j), f))
    && (forall i :: 0 <= i < |A| && Live(w, cur, i) ==> f.None? || o.lt(f.value, Key(o, A, B, i, cur[i])))
  }

  /**
   * The output so far is normalised, ends no later than `f`, carries the
   * windowed coefficients, and lists every consumed monomial whose windowed
   * coefficient is nonzero.
   */
  ghost predicate OutputOk<M>(o: MonoOrder<M>, A: seq<Term<M>>, B: seq<Term<M>>, w: Window,
                              cur: seq<nat>, f: Option<M>, out: seq<Term<M>>)
    requires WindowFits(w, |A|, |B|) && |cur| == |A|
  {
    && Normalised(o, out)
    && (forall k :: 0 <= k < |out| ==> AtMost(o, out[k].mono, f))
    && (forall k :: 0 <= k < |out| ==> out[k].coeff == WinCoeff(o, A, B, w, out[k].mono))
    && (forall i, j ::
          (0 <= i < |A| && w.start[i] <= j < cur[i] && j < |B| && WinCoeff(o, A, B, w, Key(o, A, B, i, j)) != 0)
          ==> Key(o, A, B, i, j) in Monos(out))
  }

  /** Products still to be consumed, summed over the first `n` rows. */
  ghost function Remaining(w: Window, cur: seq<nat>, n: nat): nat
    requires n <= |cur| && n <= |w.stop|
  {
    if n == 0 then 0
    else Remaining(w, cur, n - 1) + (if cur[n - 1] < w.stop[n - 1] then w.stop[n - 1] - cur[n - 1] else 0)
  }

  /** The cursors after every row of `chain` has consumed one product. */
  ghost function Advance(cur: seq<nat>, chain: set<nat>): (r: seq<nat>)
    ensures |r| == |cur|
    ensures forall i :: 0 <= i < |cur| ==> r[i] == if i in chain then cur[i] + 1 else cur[i]
  {
    if |cur| == 0 then []
    else
      var n := |cur| - 1;
      Advance(cur[..n], chain) + [if n in chain then cur[n] + 1 else cur[n]]
  }

  /** Sum of the current products of the rows in `S` among the first `n` rows. */
  ghost function PickSum<M>(A: seq<Term<M>>, B: seq<Term<M>>, cur: seq<nat>, S: set<nat>, n: nat): int
    requires n <= |A| && n <= |cur|
  {
    if n == 0 then 0
    else PickSum(A, B, cur, S, n - 1)
         + (if n - 1 in S && cur[n - 1] < |B| then Prod(A, B, n - 1, cur[n - 1]) else 0)
  }

  ghost function RangeFrom(lo: nat, hi: nat): (s: set<nat>)
    ensures forall r :: r in s <==> lo <= r < hi
    decreases hi - lo
  {
    if lo < hi then {lo} + RangeFrom(lo + 1, hi) else {}
  }

  /**
   * `_mpoly_heap_insert` on a heap that merges equal keys: put row `r` under
   * `key`, chaining it onto the key when present.  The flag says whether a new
   * exponent slot was used, which in the merged heap is exactly when the key
   * is new.
   */
  function HeapInsert<M(==, !new)>(heap: map<M, set<nat>>, key: M, r: nat): (res: (map<M, set<nat>>, bool))
    ensures res.0.Keys == heap.Keys + {key}
    ensures res.1 <==> key !in heap
    ensures r in res.0[key]
    ensures forall k, r' :: k in res.0 && r' in res.0[k] <==> (k in heap && r' in heap[k]) || (k == key && r' == r)
  {
    (heap[key := (if key in heap then heap[key] else {}) + {r}], key !in heap)
  }

  // ---------------------------------------------------------------------------
  // The kernel

  /** Everything the main loop of the kernel maintains. */
  ghost predicate KernelInv<M>(o: MonoOrder<M>, A: seq<Term<M>>, B: seq<Term<M>>, w: Window, cur: seq<nat>,
                               heap: map<M, set<nat>>, expNext: nat, peak: nat, f: Option<M>, out: seq<Term<M>>)
    requires WindowFits(w, |A|, |B|)
  {
    && CursorsOk(w, cur, |A|)
    && HeapOkExcept(o, A, B, w, cur, heap, {})
    && expNext == |heap.Keys| <= peak <= |A|
    && FrontierOk(o, A, B, w, cur, f)
    && OutputOk(o, A, B, w, cur, f, out)
  }

  /** `_fmpz_mpoly_fits_small`: every coefficient is stored without a pointer. */
  predicate FitsSmall<M>(s: seq<Term<M>>) {
    forall k :: 0 <= k < |s| ==> Small(s[k].coeff)
  }

  method MulHeapPart<M(==, !new)>(o: MonoOrder<M>, A: seq<Term<M>>, B: seq<Term<M>>, w: Window)
    returns (out: seq<Term<M>>, peak: nat)
    requires ValidOrder(o)
    requires |A| < Half
    requires Sorted(o, B)
    requires WindowFits(w, |A|, |B|)
    ensures IsProduct(o, A, B, w, out)
    ensures peak <= |A|
  {
    SortedRowsIncrease(o, A, B);
    // whether every product sum fits the three-word accumulator
    var small := FitsSmall(A) && FitsSmall(B);
    var cur := w.start;
    var heap, expNext;
    heap, expNext, peak := SeedHeap(o, A, B, w);

    ghost var f: Option<M> := None;
    out := [];
    while heap != map[]
      invariant KernelInv(o, A, B, w, cur, heap, expNext, peak, f, out)
      decreases Remaining(w, cur, |A|)
    {
      cur, heap, expNext, peak, out, f := HeapRound(o, A, B, w, small, cur, heap, expNext, peak, f, out);
    }
    KernelDone(o, A, B, w, cur, f, out);
  }

  /**
   * One pass of the main loop: pop the chain of the first monomial, sum its
   * products, advance and reinsert its rows, and append the sum if nonzero.
   */
  method HeapRound<M(==, !new)>(o: MonoOrder<M>, A: seq<Term<M>>, B: seq<Term<M>>, w: Window, small: bool,
                                cur0: seq<nat>, heap0: map<M, set<nat>>, expNext0: nat, peak0: nat,
                                ghost f0: Option<M>, out0: seq<Term<M>>)
    returns (cur: seq<nat>, heap: map<M, set<nat>>, expNext: nat, peak: nat, out: seq<Term<M>>, ghost f: Option<M>)
    requires StrictTotal(o) && RowsIncreasing(o, A, B)
    requires WindowFits(w, |A|, |B|)
    requires small ==> FitsSmall(A) && FitsSmall(B) && |A| < Half
    requires KernelInv(o, A, B, w, cur0, heap0, expNext0, peak0, f0, out0)
    requires heap0 != map[]
    ensures KernelInv(o, A, B, w, cur, heap, expNext, peak, f, out)
    ensures Remaining(w, cur, |A|) < Remaining(w, cur0, |A|)
  {
    ghost var first := FirstExists(o, heap0.Keys);
    var top :| top in heap0.Keys && forall k :: k in heap0.Keys ==> !o.lt(k, top);
    var chain := heap0[top];

    // pop the chain of the first monomial
    heap := heap0 - {top};
    assert heap.Keys == heap0.Keys - {top};
    expNext := expNext0 - 1;
    TakeChainKeepsHeap(o, A, B, w, cur0, heap0, top);

    ChainsWithin(o, A, B, w, cur0, heap0, top);
    var acc := SumChain(A, B, cur0, chain, small);
    TopCoeff(o, A, B, w, cur0, heap0, f0, top);
    cur, heap, expNext, peak := Reinsert(o, A, B, w, cur0, heap, chain, expNext, peak0);

    RoundFrontier(o, A, B, w, cur0, heap0, f0, top);
    RoundOutput(o, A, B, w, cur0, heap0, f0, top, out0, acc);
    RoundProgress(o, A, B, w, cur0, heap0, top);
    out := out0;
    if acc != 0 {
      out := out + [Term(acc, top)];
    }
    f := Some(top);
  }

  /** Put the first node of every nonempty row on the heap. */
  method SeedHeap<M(==, !new)>(o: MonoOrder<M>, A: seq<Term<M>>, B: seq<Term<M>>, w: Window)
    returns (heap: map<M, set<nat>>, expNext: nat, peak: nat)
    requires WindowFits(w, |A|, |B|)
    ensures HeapOkExcept(o, A, B, w, w.start, heap, {})
    ensures expNext == |heap.Keys| <= peak <= |A|
  {
    heap := map[];
    expNext := 0;
    peak := 0;
    var i := 0;
    while i < |A|
      invariant 0 <= i <= |A|
      invariant HeapOkExcept(o, A, B, w, w.start, heap, RangeFrom(i, |A|))
      invariant expNext == |heap.Keys| <= peak <= |A|
    {
      assert RangeFrom(i, |A|) - {i} == RangeFrom(i + 1, |A|);
      if w.start[i] < w.stop[i] {
        var key := o.add(A[i].mono, B[w.start[i]].mono);
        ghost var heap0 := heap;
        var inserted := HeapInsert(heap, key, i);
        heap := inserted.0;
        InsertKeepsHeap(o, A, B, w, w.start, w.start, heap0, RangeFrom(i, |A|), i);
        if inserted.1 {
          expNext := expNext + 1;
        }
        KeysBound(o, A, B, w, w.start, heap, RangeFrom(i + 1, |A|));
        if expNext > peak {
          peak := expNext;
        }
      } else {
        SkipKeepsHeap(o, A, B, w, w.start, w.start, heap, RangeFrom(i, |A|), i);
      }
      i := i + 1;
    }
    assert RangeFrom(|A|, |A|) == {};
  }

  /**
   * Sum the products of a popped chain, in any order: in three words when the
   * coefficients are small, exactly otherwise.
   */
  method SumChain<M>(A: seq<Term<M>>, B: seq<Term<M>>, cur: seq<nat>, chain: set<nat>, small: bool)
    returns (acc: int)
    requires |cur| == |A|
    requires forall r :: r in chain ==> r < |A| && cur[r] < |B|
    requires |chain| <= |A|
    requires small ==> FitsSmall(A) && FitsSmall(B) && |A| < Half
    ensures acc == PickSum(A, B, cur, chain, |A|)
  {
    if small {
      acc := SumChainSmall(A, B, cur, chain);
    } else {
      acc := SumChainExact(A, B, cur, chain);
    }
  }

  /** The multiprecision path: `fmpz_mul` for the first product, `fmpz_addmul` for the rest. */
  method SumChainExact<M>(A: seq<Term<M>>, B: seq<Term<M>>, cur: seq<nat>, chain: set<nat>) returns (acc: int)
    requires |cur| == |A|
    requires forall r :: r in chain ==> r < |A| && cur[r] < |B|
    ensures acc == PickSum(A, B, cur, chain, |A|)
  {
    acc := 0;
    var todo := chain;
    assert chain - todo == {};
    PickSumEmpty(A, B, cur, |A|);
    while todo != {}
      invariant todo <= chain
      invariant acc == PickSum(A, B, cur, chain - todo, |A|)
      decreases |todo|
    {
      var r :| r in todo;
      acc := acc + A[r].coeff * B[cur[r]].coeff;
      PickSumAdd(A, B, cur, chain - todo, r, |A|);
      assert (chain - todo) + {r} == chain - (todo - {r});
      todo := todo - {r};
    }
    assert chain - {} == chain;
  }

  /**
   * The small path: the first product sign-extended into three words, every
   * further one added with carry, and the words read back as a signed number.
   */
  method SumChainSmall<M>(A: seq<Term<M>>, B: seq<Term<M>>, cur: seq<nat>, chain: set<nat>) returns (acc: int)
    requires |cur| == |A| < Half
    requires forall r :: r in chain ==> r < |A| && cur[r] < |B|
    requires |chain| <= |A|
    requires FitsSmall(A) && FitsSmall(B)
    ensures acc == PickSum(A, B, cur, chain, |A|)
  {
    var c := Words(0, 0, 0);
    var first := true;
    var todo := chain;
    ghost var exact := 0;
    ghost var n := 0;
    assert chain - todo == {};
    PickSumEmpty(A, B, cur, |A|);
    while todo != {}
      invariant todo <= chain && n == |chain| - |todo|
      invariant exact == PickSum(A, B, cur, chain - todo, |A|)
      invariant first ==> exact == 0
      invariant WordsOk(c) && (Value(c) - exact) % W3 == 0
      invariant -n * ProdMax <= exact <= n * ProdMax
      decreases |todo|
    {
      var r :| r in todo;
      c, exact := SmallStep(A, B, cur, chain, todo, r, c, first, exact, n);
      first := false;
      n := n + 1;
      todo := todo - {r};
    }
    assert chain - {} == chain;
    acc := ReadBack(c, exact, n);
  }

  /** One product of the chain added into the words. */
  method SmallStep<M>(A: seq<Term<M>>, B: seq<Term<M>>, cur: seq<nat>, chain: set<nat>, todo: set<nat>, r: nat,
                      c: Words, first: bool, ghost exact: int, ghost n: nat)
    returns (c': Words, ghost exact': int)
    requires |cur| == |A| && forall r :: r in chain ==> r < |A| && cur[r] < |B|
    requires FitsSmall(A) && FitsSmall(B)
    requires r in todo && todo <= chain
    requires exact == PickSum(A, B, cur, chain - todo, |A|)
    requires first ==> exact == 0
    requires WordsOk(c) && (Value(c) - exact) % W3 == 0
    requires -(n * ProdMax) <= exact <= n * ProdMax
    ensures exact' == PickSum(A, B, cur, chain - (todo - {r}), |A|)
    ensures WordsOk(c') && (Value(c') - exact') % W3 == 0
    ensures -((n + 1) * ProdMax) <= exact' <= (n + 1) * ProdMax
  {
    SmallProduct(A[r].coeff, B[cur[r]].coeff);
    var x := A[r].coeff * B[cur[r]].coeff;
    c' := AddTerm(c, first, x, exact);
    PickSumAdd(A, B, cur, chain - todo, r, |A|);
    assert (chain - todo) + {r} == chain - (todo - {r});
    BoundStep(n, exact, x);
    exact' := exact + x;
  }

  /**
   * Advance every row of a popped chain by one column and put back on the
   * heap those still inside their windows.
   */
  method Reinsert<M(==, !new)>(o: MonoOrder<M>, A: seq<Term<M>>, B: seq<Term<M>>, w: Window,
                               cur0: seq<nat>, heap0: map<M, set<nat>>, chain: set<nat>,
                               expNext0: nat, peak0: nat)
    returns (cur: seq<nat>, heap: map<M, set<nat>>, expNext: nat, peak: nat)
    requires WindowFits(w, |A|, |B|) && |cur0| == |A|
    requires HeapOkExcept(o, A, B, w, cur0, heap0, chain)
    requires forall r :: r in chain ==> r < |A| && Live(w, cur0, r)
    requires expNext0 == |heap0.Keys| <= peak0 <= |A|
    ensures cur == Advance(cur0, chain)
    ensures HeapOkExcept(o, A, B, w, cur, heap, {})
    ensures expNext == |heap.Keys| <= peak <= |A|
  {
    cur, heap, expNext, peak := cur0, heap0, expNext0, peak0;
    var todo := chain;
    while todo != {}
      invariant todo <= chain
      invariant |cur| == |A|
      invariant forall i :: 0 <= i < |A| ==> cur[i] == if i in chain && i !in todo then cur0[i] + 1 else cur0[i]
      invariant HeapOkExcept(o, A, B, w, cur, heap, todo)
      invariant expNext == |heap.Keys| <= peak <= |A|
      decreases |todo|
    {
      var r :| r in todo;
      cur, heap, expNext, peak := ReinsertRow(o, A, B, w, cur, heap, todo, r, expNext, peak);
      todo := todo - {r};
    }
    assert cur == Advance(cur0, chain);
  }

  /** Advance one popped row and put it back if it is still inside its window. */
  method ReinsertRow<M(==, !new)>(o: MonoOrder<M>, A: seq<Term<M>>, B: seq<Term<M>>, w: Window,
                                  cur0: seq<nat>, heap0: map<M, set<nat>>, todo: set<nat>, r: nat,
                                  expNext0: nat, peak0: nat)
    returns (cur: seq<nat>, heap: map<M, set<nat>>, expNext: nat, peak: nat)
    requires WindowFits(w, |A|, |B|) && |cur0| == |A|
    requires HeapOkExcept(o, A, B, w, cur0, heap0, todo)
    requires r in todo && r < |A| && Live(w, cur0, r)
    requires expNext0 == |heap0.Keys| <= peak0 <= |A|
    ensures cur == cur0[r := cur0[r] + 1]
    ensures HeapOkExcept(o, A, B, w, cur, heap, todo - {r})
    ensures expNext == |heap.Keys| <= peak <= |A|
  {
    var j := cur0[r];
    cur := cur0[r := j + 1];
    // a popped node is stored unless it sits in the last column (column 0 is
    // always stored), and it is pushed again only while inside its window
    var keep := j < |B| - 1 || j == 0;
    if keep && j + 1 < w.stop[r] {
      heap, expNext, peak := PushRow(o, A, B, w, cur0, cur, heap0, todo, r, expNext0, peak0);
    } else {
      heap, expNext, peak := heap0, expNext0, peak0;
      SkipKeepsHeap(o, A, B, w, cur0, cur, heap, todo, r);
    }
  }

  /** Insert the next node of row `r`, counting a new chain and the peak heap size. */
  method PushRow<M(==, !new)>(o: MonoOrder<M>, A: seq<Term<M>>, B: seq<Term<M>>, w: Window,
                              cur0: seq<nat>, cur: seq<nat>, heap0: map<M, set<nat>>, todo: set<nat>, r: nat,
                              expNext0: nat, peak0: nat)
    returns (heap: map<M, set<nat>>, expNext: nat, peak: nat)
    requires WindowFits(w, |A|, |B|) && |cur0| == |A|
    requires HeapOkExcept(o, A, B, w, cur0, heap0, todo)
    requires r in todo && r < |A| && cur == cur0[r := cur0[r] + 1] && Live(w, cur, r)
    requires expNext0 == |heap0.Keys| <= peak0 <= |A|
    ensures HeapOkExcept(o, A, B, w, cur, heap, todo - {r})
    ensures expNext == |heap.Keys| <= peak <= |A|
  {
    var key := Key(o, A, B, r, cur[r]);
    var inserted := HeapInsert(heap0, key, r);
    heap, expNext, peak := inserted.0, expNext0, peak0;
    InsertKeepsHeap(o, A, B, w, cur0, cur, heap0, todo, r);
    if inserted.1 {
      expNext := expNext + 1;
    }
    KeysBound(o, A, B, w, cur, heap, todo - {r});
    if expNext > peak {
      peak := expNext;
    }
  }

  // ---------------------------------------------------------------------------
  // Heap maintenance

  /** Inserting a live row under its current monomial takes it out of the exceptions. */
  lemma InsertKeepsHeap<M(!new)>(o: MonoOrder<M>, A: seq<Term<M>>, B: seq<Term<M>>, w: Window,
                                 cur: seq<nat>, cur': seq<nat>, heap: map<M, set<nat>>, X: set<nat>, r: nat)
    requires WindowFits(w, |A|, |B|) && |cur| == |A| && r < |A| && r in X
    requires HeapOkExcept(o, A, B, w, cur, heap, X)
    requires |cur'| == |A| && forall i :: 0 <= i < |A| && i != r ==> cur'[i] == cur[i]
    requires Live(w, cur', r)
    ensures HeapOkExcept(o, A, B, w, cur', HeapInsert(heap, Key(o, A, B, r, cur'[r]), r).0, X - {r})
  {
    var heap' := HeapInsert(heap, Key(o, A, B, r, cur'[r]), r).0;
    forall r' | 0 <= r' < |A| && r' !in X - {r} && Live(w, cur', r')
      ensures Key(o, A, B, r', cur'[r']) in heap' && r' in heap'[Key(o, A, B, r', cur'[r'])]
    {
      if r' != r {
        assert Live(w, cur, r');
      }
    }
  }

  /** A row that leaves its window is simply dropped. */
  lemma SkipKeepsHeap<M(!new)>(o: MonoOrder<M>, A: seq<Term<M>>, B: seq<Term<M>>, w: Window,
                               cur: seq<nat>, cur': seq<nat>, heap: map<M, set<nat>>, X: set<nat>, r: nat)
    requires WindowFits(w, |A|, |B|) && |cur| == |A| && r < |A| && r in X
    requires HeapOkExcept(o, A, B, w, cur, heap, X)
    requires |cur'| == |A| && forall i :: 0 <= i < |A| && i != r ==> cur'[i] == cur[i]
    requires !Live(w, cur', r)
    ensures HeapOkExcept(o, A, B, w, cur', heap, X - {r})
  {
    forall r' | 0 <= r' < |A| && r' !in X - {r} && Live(w, cur', r')
      ensures Key(o, A, B, r', cur'[r']) in heap && r' in heap[Key(o, A, B, r', cur'[r'])]
    {
      assert Live(w, cur, r');
    }
  }

  /** Popping the first chain leaves the heap of the other live rows. */
  lemma TakeChainKeepsHeap<M(!new)>(o: MonoOrder<M>, A: seq<Term<M>>, B: seq<Term<M>>, w: Window,
                                    cur: seq<nat>, heap: map<M, set<nat>>, top: M)
    requires WindowFits(w, |A|, |B|) && |cur| == |A|
    requires HeapOkExcept(o, A, B, w, cur, heap, {})
    requires top in heap
    ensures HeapOkExcept(o, A, B, w, cur, heap - {top}, heap[top])
  {
  }

  /** Distinct keys never outnumber the rows: `exp_next <= len2`. */
  lemma KeysBound<M(!new)>(o: MonoOrder<M>, A: seq<Term<M>>, B: seq<Term<M>>, w: Window,
                           cur: seq<nat>, heap: map<M, set<nat>>, X: set<nat>)
    requires WindowFits(w, |A|, |B|) && |cur| == |A|
    requires HeapOkExcept(o, A, B, w, cur, heap, X)
    ensures |heap.Keys| <= |A|
  {
    ChainsBound(heap, RangeFrom(0, |A|));
    RangeCard(0, |A|);
  }

  /** A chain holds distinct rows, so no more than there are rows. */
  lemma ChainsWithin<M(!new)>(o: MonoOrder<M>, A: seq<Term<M>>, B: seq<Term<M>>, w: Window,
                              cur: seq<nat>, heap: map<M, set<nat>>, k: M)
    requires WindowFits(w, |A|, |B|) && |cur| == |A|
    requires HeapOkExcept(o, A, B, w, cur, heap, {})
    requires k in heap
    ensures |heap[k]| <= |A|
  {
    assert heap[k] <= RangeFrom(0, |A|);
    RangeCard(0, |A|);
    SubsetCard(heap[k], RangeFrom(0, |A|));
  }

  lemma {:induction false} SubsetCard(s: set<nat>, t: set<nat>)
    requires s <= t
    ensures |s| <= |t|
    decreases |s|
  {
    if s != {} {
      var x :| x in s;
      SubsetCard(s - {x}, t - {x});
    }
  }

  /** A map whose chains are nonempty, disjoint and drawn from `R` has at most `|R|` keys. */
  lemma {:induction false} ChainsBound<M>(heap: map<M, set<nat>>, R: set<nat>)
    requires forall k :: k in heap ==> heap[k] != {} && heap[k] <= R
    requires forall k1, k2, r :: k1 in heap && k2 in heap && r in heap[k1] && r in heap[k2] ==> k1 == k2
    ensures |heap.Keys| <= |R|
    decreases |heap.Keys|
  {
    if heap.Keys != {} {
      var k :| k in heap.Keys;
      var r :| r in heap[k];
      var rest := heap - {k};
      assert rest.Keys == heap.Keys - {k};
      ChainsBound(rest, R - {r});
    }
  }

  lemma {:induction false} RangeCard(lo: nat, hi: nat)
    ensures |RangeFrom(lo, hi)| == if lo <= hi then hi - lo else 0
    decreases hi - lo
  {
    if lo < hi {
      RangeCard(lo + 1, hi);
      assert RangeFrom(lo, hi) == {lo} + RangeFrom(lo + 1, hi);
    } else {
      assert RangeFrom(lo, hi) == {};
    }
  }

  // ---------------------------------------------------------------------------
  // One round

  lemma {:induction false} PickSumEmpty<M>(A: seq<Term<M>>, B: seq<Term<M>>, cur: seq<nat>, n: nat)
    requires n <= |A| && n <= |cur|
    ensures PickSum(A, B, cur, {}, n) == 0
    decreases n
  {
    if n > 0 {
      PickSumEmpty(A, B, cur, n - 1);
    }
  }

  lemma {:induction false} PickSumAdd<M>(A: seq<Term<M>>, B: seq<Term<M>>, cur: seq<nat>, S: set<nat>, r: nat, n: nat)
    requires n <= |A| && n <= |cur| && r !in S
    ensures PickSum(A, B, cur, S + {r}, n) ==
            PickSum(A, B, cur, S, n) + (if r < n && cur[r] < |B| then Prod(A, B, r, cur[r]) else 0)
    decreases n
  {
    if n > 0 {
      PickSumAdd(A, B, cur, S, r, n - 1);
    }
  }

  // Single instances of the state invariants, to keep the proofs below small.

  lemma ChainMember<M(!new)>(o: MonoOrder<M>, A: seq<Term<M>>, B: seq<Term<M>>, w: Window,
                             cur: seq<nat>, heap: map<M, set<nat>>, X: set<nat>, k: M, r: nat)
    requires WindowFits(w, |A|, |B|) && |cur| == |A|
    requires HeapOkExcept(o, A, B, w, cur, heap, X)
    requires k in heap && r in heap[k]
    ensures r < |A| && r !in X && Live(w, cur, r) && Key(o, A, B, r, cur[r]) == k
  {
  }

  lemma LiveRowListed<M(!new)>(o: MonoOrder<M>, A: seq<Term<M>>, B: seq<Term<M>>, w: Window,
                               cur: seq<nat>, heap: map<M, set<nat>>, X: set<nat>, r: nat)
    requires WindowFits(w, |A|, |B|) && |cur| == |A|
    requires HeapOkExcept(o, A, B, w, cur, heap, X)
    requires r < |A| && r !in X && Live(w, cur, r)
    ensures Key(o, A, B, r, cur[r]) in heap && r in heap[Key(o, A, B, r, cur[r])]
  {
  }

  lemma ConsumedAtMost<M(!new)>(o: MonoOrder<M>, A: seq<Term<M>>, B: seq<Term<M>>, w: Window,
                                cur: seq<nat>, f: Option<M>, i: nat, j: nat)
    requires WindowFits(w, |A|, |B|) && |cur| == |A|
    requires FrontierOk(o, A, B, w, cur, f)
    requires i < |A| && w.start[i] <= j < cur[i] && j < |B|
    ensures AtMost(o, Key(o, A, B, i, j), f)
  {
  }

  lemma HeadAfter<M(!new)>(o: MonoOrder<M>, A: seq<Term<M>>, B: seq<Term<M>>, w: Window,
                           cur: seq<nat>, f: Option<M>, i: nat)
    requires WindowFits(w, |A|, |B|) && |cur| == |A|
    requires FrontierOk(o, A, B, w, cur, f)
    requires i < |A| && Live(w, cur, i)
    ensures f.None? || o.lt(f.value, Key(o, A, B, i, cur[i]))
  {
  }

  /** The frontier comes before the first monomial of a nonempty heap. */
  lemma FrontierBeforeTop<M(!new)>(o: MonoOrder<M>, A: seq<Term<M>>, B: seq<Term<M>>, w: Window,
                                   cur: seq<nat>, heap: map<M, set<nat>>, f: Option<M>, top: M)
    requires WindowFits(w, |A|, |B|) && |cur| == |A|
    requires HeapOkExcept(o, A, B, w, cur, heap, {}) && FrontierOk(o, A, B, w, cur, f)
    requires top in heap
    ensures f.None? || o.lt(f.value, top)
  {
    var r :| r in heap[top];
    ChainMember(o, A, B, w, cur, heap, {}, top, r);
    HeadAfter(o, A, B, w, cur, f, r);
  }

  /**
   * Inside the window, the products with the first monomial are exactly the
   * current products of its chain.
   */
  lemma TopPair<M(!new)>(o: MonoOrder<M>, A: seq<Term<M>>, B: seq<Term<M>>, w: Window,
                         cur: seq<nat>, heap: map<M, set<nat>>, f: Option<M>, top: M, i: nat, j: nat)
    requires StrictTotal(o) && RowsIncreasing(o, A, B)
    requires WindowFits(w, |A|, |B|) && CursorsOk(w, cur, |A|)
    requires HeapOkExcept(o, A, B, w, cur, heap, {}) && FrontierOk(o, A, B, w, cur, f)
    requires top in heap && forall k :: k in heap ==> !o.lt(k, top)
    requires i < |A| && j < |B|
    ensures Key(o, A, B, i, j) == top && w.start[i] <= j < w.stop[i] ==> i in heap[top] && j == cur[i]
    ensures i in heap[top] ==> w.start[i] <= cur[i] < w.stop[i] && Key(o, A, B, i, cur[i]) == top
  {
    FrontierBeforeTop(o, A, B, w, cur, heap, f, top);
    if i in heap[top] {
      ChainMember(o, A, B, w, cur, heap, {}, top, i);
    }
    if j < cur[i] && w.start[i] <= j {
      ConsumedAtMost(o, A, B, w, cur, f, i, j);
    } else if cur[i] <= j < w.stop[i] {
      LiveRowListed(o, A, B, w, cur, heap, {}, i);
      if cur[i] < j {
        assert o.lt(Key(o, A, B, i, cur[i]), Key(o, A, B, i, j));
      }
    }
  }

  lemma {:induction false} TopCoeffRows<M(!new)>(o: MonoOrder<M>, A: seq<Term<M>>, B: seq<Term<M>>, w: Window,
                                                 cur: seq<nat>, heap: map<M, set<nat>>, f: Option<M>, top: M, n: nat)
    requires StrictTotal(o) && RowsIncreasing(o, A, B)
    requires WindowFits(w, |A|, |B|) && CursorsOk(w, cur, |A|)
    requires HeapOkExcept(o, A, B, w, cur, heap, {}) && FrontierOk(o, A, B, w, cur, f)
    requires top in heap && forall k :: k in heap ==> !o.lt(k, top)
    requires n <= |A|
    ensures WinCoeffRows(o, A, B, w, top, n) == PickSum(A, B, cur, heap[top], n)
    decreases n
  {
    if n > 0 {
      TopCoeffRows(o, A, B, w, cur, heap, f, top, n - 1);
      var i := n - 1;
      forall j | 0 <= j < |B| {
        TopPair(o, A, B, w, cur, heap, f, top, i, j);
      }
      if i in heap[top] {
        TopPair(o, A, B, w, cur, heap, f, top, i, 0);
        RowCongruence(o, A, B, i, w.start[i], w.stop[i], cur[i], cur[i] + 1, top, |B|);
        RowSingle(o, A, B, i, cur[i], top, |B|);
      } else {
        RowCongruence(o, A, B, i, w.start[i], w.stop[i], |B|, |B|, top, |B|);
        RowEmptyBelow(o, A, B, i, |B|, |B|, top, |B|);
      }
    }
  }

  /** The windowed coefficient of the first monomial is the sum over its chain. */
  lemma TopCoeff<M(!new)>(o: MonoOrder<M>, A: seq<Term<M>>, B: seq<Term<M>>, w: Window,
                          cur: seq<nat>, heap: map<M, set<nat>>, f: Option<M>, top: M)
    requires StrictTotal(o) && RowsIncreasing(o, A, B)
    requires WindowFits(w, |A|, |B|) && CursorsOk(w, cur, |A|)
    requires HeapOkExcept(o, A, B, w, cur, heap, {}) && FrontierOk(o, A, B, w, cur, f)
    requires top in heap && forall k :: k in heap ==> !o.lt(k, top)
    ensures WinCoeff(o, A, B, w, top) == PickSum(A, B, cur, heap[top], |A|)
  {
    TopCoeffRows(o, A, B, w, cur, heap, f, top, |A|);
  }

  /** A pair consumed by the round has a monomial no later than the first monomial. */
  lemma ConsumedAtMostTop<M(!new)>(o: MonoOrder<M>, A: seq<Term<M>>, B: seq<Term<M>>, w: Window,
                                   cur: seq<nat>, heap: map<M, set<nat>>, f: Option<M>, top: M, i: nat, j: nat)
    requires StrictTotal(o)
    requires WindowFits(w, |A|, |B|) && CursorsOk(w, cur, |A|)
    requires HeapOkExcept(o, A, B, w, cur, heap, {}) && FrontierOk(o, A, B, w, cur, f)
    requires top in heap
    requires i < |A| && w.start[i] <= j < Advance(cur, heap[top])[i] && j < |B|
    ensures Le(o, Key(o, A, B, i, j), top)
    ensures j == cur[i] ==> Key(o, A, B, i, j) == top
  {
    FrontierBeforeTop(o, A, B, w, cur, heap, f, top);
    if j < cur[i] {
      ConsumedAtMost(o, A, B, w, cur, f, i, j);
    } else {
      ChainMember(o, A, B, w, cur, heap, {}, top, i);
    }
  }

  /** A row's new head comes after the first monomial. */
  lemma NewHeadAfterTop<M(!new)>(o: MonoOrder<M>, A: seq<Term<M>>, B: seq<Term<M>>, w: Window,
                                 cur: seq<nat>, heap: map<M, set<nat>>, top: M, i: nat)
    requires StrictTotal(o) && RowsIncreasing(o, A, B)
    requires WindowFits(w, |A|, |B|) && CursorsOk(w, cur, |A|)
    requires HeapOkExcept(o, A, B, w, cur, heap, {})
    requires top in heap && forall k :: k in heap ==> !o.lt(k, top)
    requires i < |A| && Live(w, Advance(cur, heap[top]), i)
    ensures o.lt(top, Key(o, A, B, i, Advance(cur, heap[top])[i]))
  {
    if i in heap[top] {
      ChainMember(o, A, B, w, cur, heap, {}, top, i);
      assert o.lt(Key(o, A, B, i, cur[i]), Key(o, A, B, i, cur[i] + 1));
    } else {
      LiveRowListed(o, A, B, w, cur, heap, {}, i);
    }
  }

  /** After the round the first monomial becomes the frontier. */
  lemma RoundFrontier<M(!new)>(o: MonoOrder<M>, A: seq<Term<M>>, B: seq<Term<M>>, w: Window,
                               cur: seq<nat>, heap: map<M, set<nat>>, f: Option<M>, top: M)
    requires StrictTotal(o) && RowsIncreasing(o, A, B)
    requires WindowFits(w, |A|, |B|) && CursorsOk(w, cur, |A|)
    requires HeapOkExcept(o, A, B, w, cur, heap, {}) && FrontierOk(o, A, B, w, cur, f)
    requires top in heap && forall k :: k in heap ==> !o.lt(k, top)
    ensures CursorsOk(w, Advance(cur, heap[top]), |A|)
    ensures FrontierOk(o, A, B, w, Advance(cur, heap[top]), Some(top))
  {
    var cur' := Advance(cur, heap[top]);
    forall i | 0 <= i < |A| && i in heap[top]
      ensures cur[i] < w.stop[i]
    {
      ChainMember(o, A, B, w, cur, heap, {}, top, i);
    }
    forall i, j | 0 <= i < |A| && w.start[i] <= j < cur'[i] && j < |B|
      ensures Le(o, Key(o, A, B, i, j), top)
    {
      ConsumedAtMostTop(o, A, B, w, cur, heap, f, top, i, j);
    }
    forall i | 0 <= i < |A| && Live(w, cur', i)
      ensures o.lt(top, Key(o, A, B, i, cur'[i]))
    {
      NewHeadAfterTop(o, A, B, w, cur, heap, top, i);
    }
  }

  /** The round appends the first monomial exactly when its sum is nonzero. */
  lemma RoundOutput<M(!new)>(o: MonoOrder<M>, A: seq<Term<M>>, B: seq<Term<M>>, w: Window,
                             cur: seq<nat>, heap: map<M, set<nat>>, f: Option<M>, top: M,
                             out: seq<Term<M>>, acc: int)
    requires StrictTotal(o)
    requires WindowFits(w, |A|, |B|) && CursorsOk(w, cur, |A|)
    requires HeapOkExcept(o, A, B, w, cur, heap, {}) && FrontierOk(o, A, B, w, cur, f)
    requires OutputOk(o, A, B, w, cur, f, out)
    requires top in heap
    requires acc == WinCoeff(o, A, B, w, top)
    ensures OutputOk(o, A, B, w, Advance(cur, heap[top]), Some(top), if acc != 0 then out + [Term(acc, top)] else out)
  {
    FrontierBeforeTop(o, A, B, w, cur, heap, f, top);
    AppendKeepsOutput(o, out, f, top, acc);
    RoundCompleteness(o, A, B, w, cur, heap, f, top, out, acc);
    AppendKeepsCoeffs(o, A, B, w, out, top, acc);
  }

  /** Appending the window coefficient of `top` keeps every listed coefficient exact. */
  lemma AppendKeepsCoeffs<M(!new)>(o: MonoOrder<M>, A: seq<Term<M>>, B: seq<Term<M>>, w: Window,
                                   out: seq<Term<M>>, top: M, acc: int)
    requires WindowFits(w, |A|, |B|)
    requires forall k :: 0 <= k < |out| ==> out[k].coeff == WinCoeff(o, A, B, w, out[k].mono)
    requires acc == WinCoeff(o, A, B, w, top)
    ensures var out' := if acc != 0 then out + [Term(acc, top)] else out;
      forall k :: 0 <= k < |out'| ==> out'[k].coeff == WinCoeff(o, A, B, w, out'[k].mono)
  {
    var out' := if acc != 0 then out + [Term(acc, top)] else out;
    forall k | 0 <= k < |out'|
      ensures out'[k].coeff == WinCoeff(o, A, B, w, out'[k].mono)
    {
      if k < |out| {
        assert out'[k] == out[k];
      }
    }
  }

  lemma RoundCompleteness<M(!new)>(o: MonoOrder<M>, A: seq<Term<M>>, B: seq<Term<M>>, w: Window,
                                   cur: seq<nat>, heap: map<M, set<nat>>, f: Option<M>, top: M,
                                   out: seq<Term<M>>, acc: int)
    requires StrictTotal(o)
    requires WindowFits(w, |A|, |B|) && CursorsOk(w, cur, |A|)
    requires HeapOkExcept(o, A, B, w, cur, heap, {}) && FrontierOk(o, A, B, w, cur, f)
    requires OutputOk(o, A, B, w, cur, f, out)
    requires top in heap
    requires acc == WinCoeff(o, A, B, w, top)
    ensures var out' := if acc != 0 then out + [Term(acc, top)] else out;
      forall i, j :: (0 <= i < |A| && w.start[i] <= j < Advance(cur, heap[top])[i] && j < |B|
                      && WinCoeff(o, A, B, w, Key(o, A, B, i, j)) != 0) ==> Key(o, A, B, i, j) in Monos(out')
  {
    FrontierBeforeTop(o, A, B, w, cur, heap, f, top);
    AppendKeepsOutput(o, out, f, top, acc);
    var out' := if acc != 0 then out + [Term(acc, top)] else out;
    forall i, j | (0 <= i < |A| && w.start[i] <= j < Advance(cur, heap[top])[i] && j < |B|
                   && WinCoeff(o, A, B, w, Key(o, A, B, i, j)) != 0)
      ensures Key(o, A, B, i, j) in Monos(out')
    {
      ConsumedAtMostTop(o, A, B, w, cur, heap, f, top, i, j);
      if j < cur[i] {
        ConsumedListed(o, A, B, w, cur, f, out, i, j);
      }
    }
  }

  lemma ConsumedListed<M(!new)>(o: MonoOrder<M>, A: seq<Term<M>>, B: seq<Term<M>>, w: Window,
                                cur: seq<nat>, f: Option<M>, out: seq<Term<M>>, i: nat, j: nat)
    requires WindowFits(w, |A|, |B|) && |cur| == |A|
    requires OutputOk(o, A, B, w, cur, f, out)
    requires i < |A| && w.start[i] <= j < cur[i] && j < |B| && WinCoeff(o, A, B, w, Key(o, A, B, i, j)) != 0
    ensures Key(o, A, B, i, j) in Monos(out)
  {
  }

  /** Appending a term after the frontier keeps the list normalised and keeps what it listed. */
  lemma AppendKeepsOutput<M(!new)>(o: MonoOrder<M>, out: seq<Term<M>>, f: Option<M>, top: M, acc: int)
    requires StrictTotal(o)
    requires Normalised(o, out)
    requires forall k :: 0 <= k < |out| ==> AtMost(o, out[k].mono, f)
    requires f.None? || o.lt(f.value, top)
    ensures var out' := if acc != 0 then out + [Term(acc, top)] else out;
      && Normalised(o, out')
      && (forall k :: 0 <= k < |out'| ==> Le(o, out'[k].mono, top))
      && (forall m :: m in Monos(out) ==> m in Monos(out'))
      && (acc != 0 ==> top in Monos(out'))
      && (forall k :: 0 <= k < |out'| ==> out'[k] in out || out'[k] == Term(acc, top))
  {
    var out' := if acc != 0 then out + [Term(acc, top)] else out;
    forall m | m in Monos(out) ensures m in Monos(out') {
      var k :| 0 <= k < |out| && Monos(out)[k] == m;
      assert out'[k] == out[k];
    }
    if acc != 0 {
      assert out'[|out|].mono == top;
    }
  }

  lemma {:induction false} RemainingShrinks(w: Window, cur: seq<nat>, cur': seq<nat>, n: nat, r: nat)
    requires n <= |cur| == |cur'| && n <= |w.stop|
    requires forall i :: 0 <= i < n ==> cur[i] <= cur'[i]
    ensures Remaining(w, cur', n) <= Remaining(w, cur, n)
    ensures r < n && cur[r] < cur'[r] && cur[r] < w.stop[r] ==> Remaining(w, cur', n) < Remaining(w, cur, n)
    decreases n
  {
    if n > 0 {
      RemainingShrinks(w, cur, cur', n - 1, r);
    }
  }

  /** Each round consumes at least one product. */
  lemma RoundProgress<M(!new)>(o: MonoOrder<M>, A: seq<Term<M>>, B: seq<Term<M>>, w: Window,
                               cur: seq<nat>, heap: map<M, set<nat>>, top: M)
    requires WindowFits(w, |A|, |B|) && CursorsOk(w, cur, |A|)
    requires HeapOkExcept(o, A, B, w, cur, heap, {})
    requires top in heap
    ensures Remaining(w, Advance(cur, heap[top]), |A|) < Remaining(w, cur, |A|)
  {
    var r :| r in heap[top];
    assert r < |A|;
    assert Live(w, cur, r);
    var cur' := Advance(cur, heap[top]);
    assert cur'[r] == cur[r] + 1;
    assert forall i :: 0 <= i < |A| ==> cur[i] <= cur'[i];
    RemainingShrinks(w, cur, cur', |A|, r);
  }

  /** With the heap empty every window product has been consumed. */
  lemma KernelDone<M(!new)>(o: MonoOrder<M>, A: seq<Term<M>>, B: seq<Term<M>>, w: Window,
                            cur: seq<nat>, f: Option<M>, out: seq<Term<M>>)
    requires WindowFits(w, |A|, |B|) && CursorsOk(w, cur, |A|)
    requires HeapOkExcept(o, A, B, w, cur, map[], {})
    requires OutputOk(o, A, B, w, cur, f, out)
    ensures IsProduct(o, A, B, w, out)
  {
    forall i, j | 0 <= i < |A| && 0 <= j < |B| && InWindow(w, i, j)
      ensures j < cur[i]
    {
      assert !Live(w, cur, i);
    }
  }
}

=== FILE: monomials.dfy ===
/**
 * Monomials and term lists.
 *
 * A monomial is an abstract value `M`.  The packed exponent words, the
 * ordering masks and the word-wise comparison of the library are summarised by
 * a `MonoOrder`: `add` multiplies two monomials (it adds their exponent
 * vectors) and `lt(a, b)` says that `a` comes strictly before `b` in the order
 * in which the heap emits terms.  The library's orderings (lexicographic,
 * degree-lexicographic, degree-reverse-lexicographic) all give such an order:
 * a strict total order that is preserved by multiplication.
 */
module Monomials {

  datatype MonoOrder<!M> = MonoOrder(add: (M, M) -> M, lt: (M, M) -> bool)

  /** A term: a coefficient and a monomial. */
  datatype Term<M> = Term(coeff: int, mono: M)

  ghost predicate StrictTotal<M(!new)>(o: MonoOrder<M>) {
    && (forall a :: !o.lt(a, a))
    && (forall a, b, c :: o.lt(a, b) && o.lt(b, c) ==> o.lt(a, c))
    && (forall a, b :: a != b ==> o.lt(a, b) || o.lt(b, a))
  }

  /** Multiplying by a common monomial preserves the order. */
  ghost predicate Compatible<M(!new)>(o: MonoOrder<M>) {
    forall a, b, c {:trigger o.lt(o.add(c, a), o.add(c, b))} ::
      o.lt(a, b) ==> o.lt(o.add(c, a), o.add(c, b))
  }

  ghost predicate Commutative<M(!new)>(o: MonoOrder<M>) {
    forall a, b {:trigger o.add(a, b)} :: o.add(a, b) == o.add(b, a)
  }

  /** What the library's monomial comparison and addition guarantee. */
  ghost predicate ValidOrder<M(!new)>(o: MonoOrder<M>) {
    StrictTotal(o) && Compatible(o) && Commutative(o)
  }

  /** `a` comes before `b` or is `b`. */
  ghost predicate Le<M>(o: MonoOrder<M>, a: M, b: M) {
    a == b || o.lt(a, b)
  }

  /** Monomials strictly increasing in emission order: no monomial twice. */
  ghost predicate Sorted<M>(o: MonoOrder<M>, s: seq<Term<M>>) {
    forall k, k' :: 0 <= k < k' < |s| ==> o.lt(s[k].mono, s[k'].mono)
  }

  ghost predicate NonZero<M>(s: seq<Term<M>>) {
    forall k :: 0 <= k < |s| ==> s[k].coeff != 0
  }

  /** The representation invariant of a polynomial: sorted and zero free. */
  ghost predicate Normalised<M>(o: MonoOrder<M>, s: seq<Term<M>>) {
    Sorted(o, s) && NonZero(s)
  }

  function Monos<M>(s: seq<Term<M>>): (r: seq<M>)
    ensures |r| == |s|
    ensures forall k :: 0 <= k < |s| ==> r[k] == s[k].mono
  {
    if |s| == 0 then [] else [s[0].mono] + Monos(s[1..])
  }

  /** Both operands' monomials stay sorted after multiplying a common factor. */
  lemma ShiftPreservesOrder<M(!new)>(o: MonoOrder<M>, c: M, a: M, b: M)
    requires ValidOrder(o)
    requires o.lt(a, b)
    ensures o.lt(o.add(c, a), o.add(c, b))
    ensures o.lt(o.add(a, c), o.add(b, c))
  {
    assert o.add(a, c) == o.add(c, a);
    assert o.add(b, c) == o.add(c, b);
  }

  lemma LtAsym<M(!new)>(o: MonoOrder<M>, a: M, b: M)
    requires StrictTotal(o)
    requires o.lt(a, b)
    ensures !o.lt(b, a) && a != b
  {
  }

  lemma FirstMonoListed<M>(t: seq<Term<M>>)
    ensures |t| > 0 ==> t[0].mono in Monos(t)
  {
  }

  /** In a sorted list the first monomial comes no later than any other. */
  lemma SortedFirstLe<M(!new)>(o: MonoOrder<M>, s: seq<Term<M>>, k: nat)
    requires Sorted(o, s)
    requires k < |s|
    ensures Le(o, s[0].mono, s[k].mono)
  {
  }

  /** Two strictly sorted term lists with the same monomials list them identically. */
  lemma {:induction false} SortedSameMonos<M(!new)>(o: MonoOrder<M>, s: seq<Term<M>>, t: seq<Term<M>>)
    requires StrictTotal(o)
    requires Sorted(o, s) && Sorted(o, t)
    requires forall m :: m in Monos(s) <==> m in Monos(t)
    ensures Monos(s) == Monos(t)
    decreases |s| + |t|
  {
    FirstMonoListed(s);
    FirstMonoListed(t);
    if |s| > 0 && |t| > 0 {
      SameFirstMono(o, s, t);
      SameTailMonos(o, s, t);
      SortedSameMonos(o, s[1..], t[1..]);
      assert Monos(s) == [s[0].mono] + Monos(s[1..]);
      assert Monos(t) == [t[0].mono] + Monos(t[1..]);
    }
  }

  /** Sorted lists with the same monomials start with the same one. */
  lemma SameFirstMono<M(!new)>(o: MonoOrder<M>, s: seq<Term<M>>, t: seq<Term<M>>)
    requires StrictTotal(o)
    requires Sorted(o, s) && Sorted(o, t) && |s| > 0 && |t| > 0
    requires forall m :: m in Monos(s) <==> m in Monos(t)
    ensures s[0].mono == t[0].mono
  {
    FirstMonoListed(s);
    FirstMonoListed(t);
    var kx :| 0 <= kx < |t| && t[kx].mono == s[0].mono;
    var ky :| 0 <= ky < |s| && s[ky].mono == t[0].mono;
    SortedFirstLe(o, s, ky);
    SortedFirstLe(o, t, kx);
  }

  /** Once the common first monomial is dropped, the tails have the same monomials. */
  lemma SameTailMonos<M(!new)>(o: MonoOrder<M>, s: seq<Term<M>>, t: seq<Term<M>>)
    requires StrictTotal(o)
    requires Sorted(o, s) && Sorted(o, t) && |s| > 0 && |t| > 0 && s[0].mono == t[0].mono
    requires forall m :: m in Monos(s) <==> m in Monos(t)
    ensures forall m :: m in Monos(s[1..]) <==> m in Monos(t[1..])
  {
    forall m
      ensures m in Monos(s[1..]) <==> m in Monos(t[1..])
    {
      MonoOfTail(o, s, m);
      MonoOfTail(o, t, m);
    }
  }

  /** A monomial occurs in the tail of a sorted list iff it occurs and is not the head. */
  lemma MonoOfTail<M(!new)>(o: MonoOrder<M>, s: seq<Term<M>>, m: M)
    requires StrictTotal(o)
    requires Sorted(o, s) && |s| > 0
    ensures m in Monos(s[1..]) <==> m in Monos(s) && m != s[0].mono
  {
    if m in Monos(s[1..]) {
      var k :| 0 <= k < |s| - 1 && s[1..][k].mono == m;
      assert s[k + 1].mono == m;
    }
    if m in Monos(s) && m != s[0].mono {
      var k :| 0 <= k < |s| && s[k].mono == m;
      assert s[1..][k - 1].mono == m;
    }
  }

  /** A finite nonempty set of monomials has a first element. */
  lemma {:induction false} FirstExists<M(!new)>(o: MonoOrder<M>, s: set<M>) returns (m: M)
    requires StrictTotal(o)
    requires s != {}
    ensures m in s
    ensures forall x :: x in s ==> !o.lt(x, m)
    decreases |s|
  {
    var x :| x in s;
    if s == {x} {
      m := x;
    } else {
      var rest := FirstExists(o, s - {x});
      if o.lt(x, rest) {
        m := x;
        forall y | y in s
          ensures !o.lt(y, m)
        {
          if y != x {
            assert !o.lt(y, rest);
          }
        }
      } else {
        m := rest;
      }
    }
  }
}

=== FILE: pretty.dfy ===
/**
 * `_fmpz_mpoly_fprint_pretty`: the text of a polynomial.
 *
 * Terms are rendered one after the other.  A positive coefficient after the
 * first term is preceded by `+`; a coefficient of 1 is not written, -1 is
 * written as a bare `-`, any other coefficient in full with its own sign.
 * Then come the variables with non-zero exponent, `name` for exponent 1 and
 * `name^d` above, joined by `*`; there is no `*` before the first variable
 * when the coefficient was not written.  A constant term with coefficient
 * +-1 is written `1`, and the empty polynomial is `0`.
 *
 * The text is described as the spelling of a token sequence; the tokens read
 * back to the polynomial, so the rendering loses nothing.
 */
module Pretty {
  import opened Wrappers

  /** A term with its exponent vector already unpacked, one exponent per variable. */
  datatype PTerm = PTerm(coeff: int, degs: seq<nat>)

  datatype Token = Plus | Minus | Coeff(c: int) | Star | Var(j: nat) | Power(d: nat) | One

  // ---------------------------------------------------------------------------
  // Decimal numbers

  predicate IsDigit(ch: char) {
    '0' <= ch <= '9'
  }

  function Digit(d: nat): (ch: char)
    requires d < 10
    ensures IsDigit(ch) && DigitValue(ch) == d
  {
    (('0' as int) + d) as char
  }

  function DigitValue(ch: char): nat {
    if IsDigit(ch) then (ch as int) - ('0' as int) else 0
  }

  /** The decimal digits of `n`, without leading zeros. */
  function NatString(n: nat): (s: string)
    ensures |s| > 0 && forall k :: 0 <= k < |s| ==> IsDigit(s[k])
    ensures s[0] == '0' <==> n == 0
    ensures n < 10 <==> |s| == 1
  {
    if n < 10 then [Digit(n)] else NatString(n / 10) + [Digit(n % 10)]
  }

  /** The number a string of decimal digits denotes. */
  function ParseNat(s: string): nat {
    if |s| == 0 then 0 else 10 * ParseNat(s[..|s| - 1]) + DigitValue(s[|s| - 1])
  }

  lemma {:induction false} NatStringRoundTrip(n: nat)
    ensures ParseNat(NatString(n)) == n
  {
    if n >= 10 {
      NatStringRoundTrip(n / 10);
      var s := NatString(n);
      assert s[..|s| - 1] == NatString(n / 10);
    }
  }

  /** `fmpz_fprint`: a minus sign for negative numbers, then the digits. */
  function IntString(c: int): (s: string)
    ensures |s| > 0 && (s[0] == '-' <==> c < 0)
  {
    if c < 0 then "-" + NatString(-c) else NatString(c)
  }

  // ---------------------------------------------------------------------------
  // Variable names

  /** The names used when none are given: `x1`, `x2`, ... */
  function DefaultNames(nvars: nat): (names: seq<string>)
    ensures |names| == nvars
  {
    seq(nvars, (j: int) requires 0 <= j => "x" + NatString(j + 1))
  }

  /** Names that can be printed: each non-empty and not starting with `+`. */
  predicate NamesOk(names: seq<string>) {
    forall j :: 0 <= j < |names| ==> |names[j]| > 0 && names[j][0] != '+'
  }

  lemma DefaultNamesOk(nvars: nat)
    ensures NamesOk(DefaultNames(nvars))
    ensures forall j, k :: 0 <= j < k < nvars ==> DefaultNames(nvars)[j] != DefaultNames(nvars)[k]
  {
    var names := DefaultNames(nvars);
    forall j, k | 0 <= j < k < nvars
      ensures names[j] != names[k]
    {
      NatStringRoundTrip(j + 1);
      NatStringRoundTrip(k + 1);
      assert names[j][1..] == NatString(j + 1);
      assert names[k][1..] == NatString(k + 1);
    }
  }

  /** The names given, or the default ones. */
  function NamesUsed(x: Option<seq<string>>, nvars: nat): seq<string> {
    if x.None? then DefaultNames(nvars) else x.value
  }

  // ---------------------------------------------------------------------------
  // Tokens of a term

  predicate Unit(c: int) {
    c == 1 || c == -1
  }

  predicate AllZero(degs: seq<nat>) {
    forall j :: 0 <= j < |degs| ==> degs[j] == 0
  }

  /** The sign and the coefficient of term `i`. */
  function SignTokens(i: nat, c: int): seq<Token> {
    (if c > 0 && i != 0 then [Plus] else [])
    + (if c == -1 then [Minus] else [])
    + (if !Unit(c) then [Coeff(c)] else [])
  }

  /**
   * The factors for the variables from `k` on; `first` says no factor has been
   * written yet, `unit` that the coefficient was not written.
   */
  function FactorTokens(degs: seq<nat>, k: nat, first: bool, unit: bool): (r: seq<Token>)
    requires k <= |degs|
    ensures |r| > 0 ==> if !first || !unit then r[0] == Star else r[0].Var? && k <= r[0].j < |degs|
    decreases |degs| - k
  {
    if k == |degs| then []
    else if degs[k] == 0 then FactorTokens(degs, k + 1, first, unit)
    else FactorHead(degs, k, first, unit) + FactorTokens(degs, k + 1, false, unit)
  }

  /** The factor for variable `k`: `*` unless it may be left out, the name, and `^d` above 1. */
  function FactorHead(degs: seq<nat>, k: nat, first: bool, unit: bool): (r: seq<Token>)
    requires k < |degs|
    ensures |r| > 0 && r[0] == if !first || !unit then Star else Var(k)
  {
    var named := if degs[k] > 1 then [Var(k), Power(degs[k])] else [Var(k)];
    if !first || !unit then [Star] + named else named
  }

  function TermTokens(i: nat, t: PTerm): seq<Token> {
    SignTokens(i, t.coeff)
    + FactorTokens(t.degs, 0, true, Unit(t.coeff))
    + (if AllZero(t.degs) && Unit(t.coeff) then [One] else [])
  }

  /** The tokens of the terms from `i` on. */
  function TokensFrom(terms: seq<PTerm>, i: nat): seq<Token>
    requires i <= |terms|
    decreases |terms| - i
  {
    if i == |terms| then [] else TermTokens(i, terms[i]) + TokensFrom(terms, i + 1)
  }

  /** The tokens of a polynomial: `0` when it has no terms. */
  function Tokens(terms: seq<PTerm>): seq<Token> {
    if |terms| == 0 then [Coeff(0)] else TokensFrom(terms, 0)
  }

  // ---------------------------------------------------------------------------
  // Spelling

  /** The text of a token; the printer only meets variables that have a name. */
  function Spelling(names: seq<string>, t: Token): string {
    match t
    case Plus => "+"
    case Minus => "-"
    case Coeff(c) => IntString(c)
    case Star => "*"
    case Var(j) => if j < |names| then names[j] else ""
    case Power(d) => "^" + NatString(d)
    case One => "1"
  }

  function Spell(names: seq<string>, ts: seq<Token>): string {
    if |ts| == 0 then "" else Spell(names, ts[..|ts| - 1]) + Spelling(names, ts[|ts| - 1])
  }

  lemma SpellSnoc(names: seq<string>, ts: seq<Token>, t: Token)
    ensures Spell(names, ts + [t]) == Spell(names, ts) + Spelling(names, t)
  {
    assert (ts + [t])[..|ts|] == ts;
  }

  lemma {:induction false} SpellAppend(names: seq<string>, a: seq<Token>, b: seq<Token>)
    ensures Spell(names, a + b) == Spell(names, a) + Spell(names, b)
    decreases |b|
  {
    if |b| > 0 {
      var b' := b[..|b| - 1];
      assert a + b == (a + b') + [b[|b| - 1]];
      SpellAppend(names, a, b');
      SpellSnoc(names, a + b', b[|b| - 1]);
    } else {
      assert a + b == a;
    }
  }

  // ---------------------------------------------------------------------------
  // The printer

  /**
   * The loop of `_fmpz_mpoly_fprint_pretty`, with every write succeeding.  The
   * polynomial has `n` exponent fields of which `deg` (0 or 1) holds the total
   * degree, so it has `n - deg` variables.
   */
  method FprintPretty(terms: seq<PTerm>, x: Option<seq<string>>, n: nat, deg: nat) returns (s: string)
    requires deg <= n
    requires forall k :: 0 <= k < |terms| ==> |terms[k].degs| == n - deg
    requires x.Some? ==> |x.value| >= n - deg
    ensures |terms| == 0 ==> s == "0"
    ensures s == Spell(NamesUsed(x, n - deg), Tokens(terms))
  {
    var nvars := n - deg;
    var names := NamesUsed(x, nvars);
    if |terms| == 0 {
      assert NatString(0) == "0";
      assert Spell(names, [Coeff(0)]) == Spell(names, []) + IntString(0);
      return "0";
    }
    s := PrintTerms(names, terms);
  }

  /** The outer loop over the terms of a non-empty polynomial. */
  method PrintTerms(names: seq<string>, terms: seq<PTerm>) returns (s: string)
    requires forall k :: 0 <= k < |terms| ==> |terms[k].degs| <= |names|
    ensures s == Spell(names, TokensFrom(terms, 0))
  {
    s := "";
    ghost var done: seq<Token> := [];
    var i := 0;
    while i < |terms|
      invariant 0 <= i <= |terms|
      invariant done + TokensFrom(terms, i) == TokensFrom(terms, 0)
      invariant s == Spell(names, done)
    {
      var piece := PrintTerm(names, i, terms[i]);
      TermStep(terms, i, done);
      SpellAppend(names, done, TermTokens(i, terms[i]));
      s := s + piece;
      done := done + TermTokens(i, terms[i]);
      i := i + 1;
    }
    assert done == TokensFrom(terms, 0);
  }

  /** One pass of the outer loop: the sign and coefficient, the factors, then the `1` of a constant. */
  method PrintTerm(names: seq<string>, i: nat, t: PTerm) returns (piece: string)
    requires |t.degs| <= |names|
    ensures piece == Spell(names, TermTokens(i, t))
  {
    var unit := t.coeff == 1 || t.coeff == -1;
    ghost var done: seq<Token>;
    piece, done := PrintSign(names, i, t.coeff);
    piece, done := PrintFactors(names, t.degs, unit, piece, done);
    if AllZero(t.degs) && unit {
      piece, done := Emit(names, piece, done, One);
    }
    assert done == TermTokens(i, t);
  }

  /** `+` before a positive coefficient after the first term, then the coefficient unless it is +-1. */
  method PrintSign(names: seq<string>, i: nat, c: int) returns (piece: string, ghost done: seq<Token>)
    ensures piece == Spell(names, done) && done == SignTokens(i, c)
    ensures piece == Spell(names, SignTokens(i, c))
  {
    piece := "";
    done := [];
    if c > 0 && i != 0 {
      piece, done := Emit(names, piece, done, Plus);
    }
    if c == -1 {
      piece, done := Emit(names, piece, done, Minus);
    }
    if c != 1 && c != -1 {
      piece, done := Emit(names, piece, done, Coeff(c));
    }
  }

  /** The inner loop over the variables of a term. */
  method PrintFactors(names: seq<string>, degs: seq<nat>, unit: bool, piece0: string, ghost done0: seq<Token>)
    returns (piece: string, ghost done: seq<Token>)
    requires |degs| <= |names|
    requires piece0 == Spell(names, done0)
    ensures piece == Spell(names, done) && done == done0 + FactorTokens(degs, 0, true, unit)
    ensures piece == piece0 + Spell(names, FactorTokens(degs, 0, true, unit))
  {
    piece, done := piece0, done0;
    var first := true;
    var j := 0;
    while j < |degs|
      invariant 0 <= j <= |degs|
      invariant done + FactorTokens(degs, j, first, unit) == done0 + FactorTokens(degs, 0, true, unit)
      invariant piece == Spell(names, done)
    {
      FactorStep(degs, j, first, unit, done);
      piece, done := PrintFactor(names, degs, j, first, unit, piece, done);
      first := first && degs[j] == 0;
      j := j + 1;
    }
    assert done + [] == done;
    SpellAppend(names, done0, FactorTokens(degs, 0, true, unit));
  }

  /**
   * One pass of the inner loop: for a non-zero exponent, a `*` unless this is
   * the first factor after an unwritten coefficient, then the variable.
   */
  method PrintFactor(names: seq<string>, degs: seq<nat>, j: nat, first: bool, unit: bool,
                     piece0: string, ghost done0: seq<Token>)
    returns (piece: string, ghost done: seq<Token>)
    requires j < |degs| <= |names|
    requires piece0 == Spell(names, done0)
    ensures piece == Spell(names, done)
    ensures done == done0 + (if degs[j] > 0 then FactorHead(degs, j, first, unit) else [])
    ensures degs[j] == 0 ==> piece == piece0
    ensures degs[j] > 0 ==> piece == piece0 + Spell(names, FactorHead(degs, j, first, unit))
  {
    piece, done := piece0, done0;
    if degs[j] == 0 {
      return;
    }
    ghost var star: seq<Token> := if !first || !unit then [Star] else [];
    if !first || !unit {
      piece, done := Emit(names, piece, done, Star);
    }
    assert done == done0 + star;
    ghost var mid := done;
    piece, done := PrintPower(names, degs, j, piece, done);
    assert done0 + star + (done[|mid|..]) == done0 + (star + done[|mid|..]);
    SpellAppend(names, done0, FactorHead(degs, j, first, unit));
  }

  /** `name^d` for an exponent `d` above 1, `name` for exponent 1. */
  method PrintPower(names: seq<string>, degs: seq<nat>, j: nat, piece0: string, ghost done0: seq<Token>)
    returns (piece: string, ghost done: seq<Token>)
    requires j < |degs| <= |names| && degs[j] > 0
    requires piece0 == Spell(names, done0)
    ensures piece == Spell(names, done)
    ensures done == done0 + (if degs[j] > 1 then [Var(j), Power(degs[j])] else [Var(j)])
  {
    piece, done := Emit(names, piece0, done0, Var(j));
    if degs[j] > 1 {
      piece, done := Emit(names, piece, done, Power(degs[j]));
      assert done == done0 + [Var(j), Power(degs[j])];
    }
  }

  /** A write: the text of one token is appended. */
  method Emit(names: seq<string>, piece0: string, ghost done0: seq<Token>, t: Token)
    returns (piece: string, ghost done: seq<Token>)
    requires piece0 == Spell(names, done0)
    ensures piece == Spell(names, done) && done == done0 + [t]
  {
    SpellSnoc(names, done0, t);
    piece, done := piece0 + Spelling(names, t), done0 + [t];
  }

  /** Writing term `i` moves its tokens from the tokens to come to the tokens written. */
  lemma TermStep(terms: seq<PTerm>, i: nat, before: seq<Token>)
    requires i < |terms|
    ensures before + TokensFrom(terms, i) == (before + TermTokens(i, terms[i])) + TokensFrom(terms, i + 1)
  {
    var h := TermTokens(i, terms[i]);
    var f := TokensFrom(terms, i + 1);
    assert before + (h + f) == (before + h) + f;
  }

  /** Writing the factor of variable `j` moves it from the tokens to come to the tokens written. */
  lemma FactorStep(degs: seq<nat>, j: nat, first: bool, unit: bool, before: seq<Token>)
    requires j < |degs|
    ensures before + FactorTokens(degs, j, first, unit)
            == (before + (if degs[j] > 0 then FactorHead(degs, j, first, unit) else []))
               + FactorTokens(degs, j + 1, first && degs[j] == 0, unit)
  {
    if degs[j] > 0 {
      var h := FactorHead(degs, j, first, unit);
      var f := FactorTokens(degs, j + 1, false, unit);
      assert before + (h + f) == (before + h) + f;
    } else {
      assert before + [] == before;
    }
  }

  // ---------------------------------------------------------------------------
  // Reading the tokens back

  /** The next token starts a factor. */
  predicate FactorNext(ts: seq<Token>) {
    |ts| > 0 && (ts[0] == Star || ts[0].Var?)
  }

  /** Reads factors into the exponent vector `acc` while the next token starts one. */
  function ParseFactors(ts: seq<Token>, acc: seq<nat>): (r: Option<(seq<nat>, seq<Token>)>)
    ensures r.Some? ==> |r.value.0| == |acc| && |r.value.1| <= |ts|
    decreases |ts|
  {
    if !FactorNext(ts) then Some((acc, ts))
    else
      var u := if ts[0] == Star then ts[1..] else ts;
      if |u| == 0 || !u[0].Var? || u[0].j >= |acc| then None
      else
        var v := u[1..];
        var d := if |v| > 0 && v[0].Power? then v[0].d else 1;
        var w := if |v| > 0 && v[0].Power? then v[1..] else v;
        ParseFactors(w, acc[u[0].j := d])
  }

  /** Reads an optional `+`, then a `-` for -1, a written coefficient, or nothing for 1. */
  function ParseCoeff(ts: seq<Token>): (int, seq<Token>) {
    var a := if |ts| > 0 && ts[0] == Plus then ts[1..] else ts;
    if |a| > 0 && a[0] == Minus then (-1, a[1..])
    else if |a| > 0 && a[0].Coeff? then (a[0].c, a[1..])
    else (1, a)
  }

  /** Reads one term: the coefficient, the factors, an optional `1`. */
  function ParseTerm(ts: seq<Token>, nvars: nat): (r: Option<(PTerm, seq<Token>)>)
    ensures r.Some? ==> |r.value.1| < |ts|
  {
    var (c, b) := ParseCoeff(ts);
    match ParseFactors(b, Repeat<nat>(0, nvars))
    case None => None
    case Some(p) =>
      var f := if |p.1| > 0 && p.1[0] == One then p.1[1..] else p.1;
      if |f| >= |ts| then None else Some((PTerm(c, p.0), f))
  }

  function ParseTerms(ts: seq<Token>, nvars: nat): Option<seq<PTerm>>
    decreases |ts|
  {
    if |ts| == 0 then Some([])
    else
      match ParseTerm(ts, nvars)
      case None => None
      case Some(p) =>
        match ParseTerms(p.1, nvars)
        case None => None
        case Some(rest) => Some([p.0] + rest)
  }

  /** The polynomial a token sequence denotes. */
  function Parse(ts: seq<Token>, nvars: nat): Option<seq<PTerm>> {
    if ts == [Coeff(0)] then Some([]) else ParseTerms(ts, nvars)
  }

  /** Where a term may end: nothing follows, or a `1` or the start of another term. */
  predicate Boundary(ts: seq<Token>) {
    |ts| == 0 || ts[0] == One || ts[0] == Plus || ts[0] == Minus || ts[0].Coeff?
  }

  /** Every term after the first starts with `+`, `-` or its coefficient. */
  predicate TermStart(ts: seq<Token>) {
    |ts| == 0 || ts[0] == Plus || ts[0] == Minus || ts[0].Coeff?
  }

  /** Reading the factor of variable `k` records its exponent. */
  lemma ParseHead(degs: seq<nat>, k: nat, first: bool, unit: bool, more: seq<Token>, acc: seq<nat>)
    requires k < |degs| && k < |acc| && degs[k] > 0
    requires |more| == 0 || !more[0].Power?
    ensures ParseFactors(FactorHead(degs, k, first, unit) + more, acc) == ParseFactors(more, acc[k := degs[k]])
  {
    var ts := FactorHead(degs, k, first, unit) + more;
    var named := NamedFactor(degs, k, more);
    if !first || !unit {
      assert ts == [Star] + named;
      assert ts[1..] == named;
    } else {
      assert ts == named;
    }
  }

  /** The variable and its exponent, then `more`. */
  function NamedFactor(degs: seq<nat>, k: nat, more: seq<Token>): (r: seq<Token>)
    requires k < |degs| && degs[k] > 0
    requires |more| == 0 || !more[0].Power?
    ensures |r| > 0 && r[0] == Var(k)
    ensures degs[k] > 1 ==> |r| > 1 && r[1] == Power(degs[k]) && r[2..] == more
    ensures degs[k] == 1 ==> r[1..] == more
  {
    if degs[k] > 1 then [Var(k), Power(degs[k])] + more else [Var(k)] + more
  }

  lemma {:induction false} FactorsRoundTrip(degs: seq<nat>, k: nat, first: bool, unit: bool,
                                            acc: seq<nat>, rest: seq<Token>)
    requires k <= |degs| && |acc| == |degs|
    requires forall j :: 0 <= j < k ==> acc[j] == degs[j]
    requires forall j :: k <= j < |degs| ==> acc[j] == 0
    requires Boundary(rest)
    ensures ParseFactors(FactorTokens(degs, k, first, unit) + rest, acc) == Some((degs, rest))
    decreases |degs| - k
  {
    if k == |degs| {
      assert acc == degs;
      assert [] + rest == rest;
    } else if degs[k] == 0 {
      FactorsRoundTrip(degs, k + 1, first, unit, acc, rest);
    } else {
      var more := FactorTokens(degs, k + 1, false, unit) + rest;
      HeadThenMore(degs, k, first, unit, rest);
      ParseHead(degs, k, first, unit, more, acc);
      FactorsRoundTrip(degs, k + 1, false, unit, acc[k := degs[k]], rest);
    }
  }

  /** The factor of a present variable `k`, then the later factors, then `rest`, which starts no exponent. */
  lemma HeadThenMore(degs: seq<nat>, k: nat, first: bool, unit: bool, rest: seq<Token>)
    requires k < |degs| && degs[k] > 0 && Boundary(rest)
    ensures var more := FactorTokens(degs, k + 1, false, unit) + rest;
            && FactorTokens(degs, k, first, unit) + rest == FactorHead(degs, k, first, unit) + more
            && (|more| == 0 || !more[0].Power?)
  {
    var h := FactorHead(degs, k, first, unit);
    var tail := FactorTokens(degs, k + 1, false, unit);
    assert (h + tail) + rest == h + (tail + rest);
    if |tail| == 0 {
      assert tail + rest == rest;
    }
  }

  /** The sign and coefficient tokens read back to the coefficient. */
  lemma CoeffRoundTrip(i: nat, c: int, more: seq<Token>)
    requires c != 0
    requires Unit(c) && !(c == -1) ==> |more| > 0 && (more[0] == Star || more[0].Var? || more[0] == One)
    ensures ParseCoeff(SignTokens(i, c) + more) == (c, more)
  {
    var ts := SignTokens(i, c) + more;
    if c > 0 && i != 0 {
      if c == 1 {
        assert ts == [Plus] + more;
      } else {
        assert ts == [Plus] + ([Coeff(c)] + more);
      }
    } else if c == -1 {
      assert ts == [Minus] + more;
    } else if c != 1 {
      assert ts == [Coeff(c)] + more;
    } else {
      assert ts == more;
    }
  }

  /** A non-zero exponent at or after `k` gives a factor. */
  lemma {:induction false} NonZeroFactor(degs: seq<nat>, k: nat, j: nat, first: bool, unit: bool)
    requires k <= j < |degs| && degs[j] != 0
    ensures FactorTokens(degs, k, first, unit) != []
    decreases j - k
  {
    if degs[k] == 0 {
      NonZeroFactor(degs, k + 1, j, first, unit);
    }
  }

  /** What the tokens of a term start with. */
  lemma TermHead(i: nat, t: PTerm)
    ensures var ts := TermTokens(i, t);
            && |ts| > 0
            && (ts[0] == Plus <==> i != 0 && t.coeff > 0)
            && (t.coeff == -1 ==> ts[0] == Minus)
            && (t.coeff < -1 || t.coeff == 0 || (t.coeff > 1 && i == 0) ==> ts[0] == Coeff(t.coeff))
            && (t.coeff == 1 && i == 0 ==> ts[0] == One || (ts[0].Var? && ts[0].j < |t.degs|))
  {
    var c := t.coeff;
    var unit := Unit(c);
    var sign := SignTokens(i, c);
    var factors := FactorTokens(t.degs, 0, true, unit);
    var one: seq<Token> := if AllZero(t.degs) && unit then [One] else [];
    var ts := TermTokens(i, t);
    assert ts == sign + (factors + one);
    if !AllZero(t.degs) {
      var j :| 0 <= j < |t.degs| && t.degs[j] != 0;
      NonZeroFactor(t.degs, 0, j, true, unit);
    }
    if sign == [] {
      assert ts == factors + one;
      if factors == [] {
        assert ts == one;
      }
    } else {
      assert ts[0] == sign[0];
    }
  }

  lemma TermRoundTrip(i: nat, t: PTerm, rest: seq<Token>)
    requires t.coeff != 0
    requires TermStart(rest)
    ensures ParseTerm(TermTokens(i, t) + rest, |t.degs|) == Some((t, rest))
  {
    var c := t.coeff;
    var unit := Unit(c);
    var one: seq<Token> := if AllZero(t.degs) && unit then [One] else [];
    var factors := FactorTokens(t.degs, 0, true, unit);
    var ts := TermTokens(i, t) + rest;
    var more := factors + (one + rest);
    assert ts == SignTokens(i, c) + more;
    if unit && !AllZero(t.degs) {
      var j :| 0 <= j < |t.degs| && t.degs[j] != 0;
      NonZeroFactor(t.degs, 0, j, true, unit);
    }
    if factors == [] {
      assert more == one + rest;
    }
    CoeffRoundTrip(i, c, more);
    FactorsRoundTrip(t.degs, 0, true, unit, Repeat<nat>(0, |t.degs|), one + rest);
    TermHead(i, t);
    ParseTermSteps(ts, |t.degs|, c, more, t.degs, one, rest);
  }

  /** A term read from its coefficient, its factors and an optional `1`. */
  lemma ParseTermSteps(ts: seq<Token>, nvars: nat, c: int, more: seq<Token>, degs: seq<nat>,
                       one: seq<Token>, rest: seq<Token>)
    requires ParseCoeff(ts) == (c, more)
    requires ParseFactors(more, Repeat<nat>(0, nvars)) == Some((degs, one + rest))
    requires (one == [] || one == [One]) && TermStart(rest) && |ts| > |rest|
    ensures ParseTerm(ts, nvars) == Some((PTerm(c, degs), rest))
  {
    if one == [] {
      assert one + rest == rest;
    } else {
      assert (one + rest)[1..] == rest;
    }
  }

  /** Every term has one exponent per variable and a non-zero coefficient. */
  predicate Printable(terms: seq<PTerm>, nvars: nat) {
    forall k :: 0 <= k < |terms| ==> |terms[k].degs| == nvars && terms[k].coeff != 0
  }

  /** The tokens from term `i` on read back to the terms from `i` on. */
  predicate ReadsBack(terms: seq<PTerm>, i: nat, nvars: nat)
    requires i <= |terms|
  {
    ParseTerms(TokensFrom(terms, i), nvars) == Some(terms[i..])
  }

  lemma {:induction false} TermsRoundTrip(terms: seq<PTerm>, i: nat, nvars: nat)
    requires i <= |terms|
    requires Printable(terms, nvars)
    ensures ReadsBack(terms, i, nvars)
    decreases |terms| - i
  {
    if i < |terms| {
      TermsRoundTrip(terms, i + 1, nvars);
      TermsStep(terms, i, nvars);
    } else {
      TermsEnd(terms, nvars);
    }
  }

  /** Nothing is left to read after the last term. */
  lemma TermsEnd(terms: seq<PTerm>, nvars: nat)
    ensures ReadsBack(terms, |terms|, nvars)
  {
    assert terms[|terms|..] == [];
  }

  /** One more printed term in front of terms that read back. */
  lemma TermsStep(terms: seq<PTerm>, i: nat, nvars: nat)
    requires i < |terms|
    requires |terms[i].degs| == nvars && terms[i].coeff != 0
    requires ReadsBack(terms, i + 1, nvars)
    ensures ReadsBack(terms, i, nvars)
  {
    var t, rest := terms[i], TokensFrom(terms, i + 1);
    LaterStart(terms, i + 1);
    TermRoundTrip(i, t, rest);
    TokensCons(terms, i);
    ParseTermsCons(TokensFrom(terms, i), nvars, t, rest, terms[i + 1..]);
    SuffixCons(terms, i);
  }

  /** The tokens from term `i` on are those of term `i`, then those of the rest. */
  lemma TokensCons(terms: seq<PTerm>, i: nat)
    requires i < |terms|
    ensures TokensFrom(terms, i) == TermTokens(i, terms[i]) + TokensFrom(terms, i + 1)
    ensures |TokensFrom(terms, i)| > 0
  {
    TermHead(i, terms[i]);
  }

  lemma SuffixCons<T>(s: seq<T>, i: nat)
    requires i < |s|
    ensures s[i..] == [s[i]] + s[i + 1..]
  {
  }

  /** The tokens of every term after the first start with a sign or a coefficient. */
  lemma LaterStart(terms: seq<PTerm>, j: nat)
    requires 0 < j <= |terms|
    ensures TermStart(TokensFrom(terms, j))
  {
    if j < |terms| {
      assert TokensFrom(terms, j) == TermTokens(j, terms[j]) + TokensFrom(terms, j + 1);
      TermHead(j, terms[j]);
    }
  }

  /** A term followed by tokens that read as more terms reads as all of them. */
  lemma ParseTermsCons(ts: seq<Token>, nvars: nat, t: PTerm, rest: seq<Token>, more: seq<PTerm>)
    requires |ts| > 0
    requires ParseTerm(ts, nvars) == Some((t, rest))
    requires ParseTerms(rest, nvars) == Some(more)
    ensures ParseTerms(ts, nvars) == Some([t] + more)
  {
  }

  /** The printed tokens of a polynomial without zero coefficients read back to it. */
  lemma PrettyRoundTrip(terms: seq<PTerm>, nvars: nat)
    requires Printable(terms, nvars)
    ensures Parse(Tokens(terms), nvars) == Some(terms)
  {
    if |terms| > 0 {
      var ts := Tokens(terms);
      var head := TermTokens(0, terms[0]);
      assert ts == head + TokensFrom(terms, 1);
      TermHead(0, terms[0]);
      assert ts[0] == head[0];
      TermsRoundTrip(terms, 0, nvars);
    }
  }

  /**
   * The read-back is of the tokens, not of the text: names that contain `*`
   * let two polynomials print alike.
   */
  lemma NamesCanCollide()
    ensures var names := ["a", "a*b", "b"];
            var p := [PTerm(1, [1, 0, 1])];
            var q := [PTerm(1, [0, 1, 0])];
            && NamesOk(names) && Printable(p, 3) && Printable(q, 3) && p != q
            && Spell(names, Tokens(p)) == Spell(names, Tokens(q)) == "a*b"
  {
    var names := ["a", "a*b", "b"];
    var p := [PTerm(1, [1, 0, 1])];
    var q := [PTerm(1, [0, 1, 0])];
    CollideTokens();
    CollideSpell();
    CollideNamesOk();
    assert p[0].degs[0] != q[0].degs[0];
  }

  /** The names `a`, `a*b` and `b` are printable. */
  lemma CollideNamesOk()
    ensures NamesOk(["a", "a*b", "b"])
  {
    var names := ["a", "a*b", "b"];
    assert names[0][0] == 'a' && names[1][0] == 'a' && names[2][0] == 'b';
  }

  /** `a`, `*`, `b` and the single name `a*b` spell the same. */
  lemma CollideSpell()
    ensures Spell(["a", "a*b", "b"], [Var(0), Star, Var(2)]) == "a*b"
    ensures Spell(["a", "a*b", "b"], [Var(1)]) == "a*b"
  {
    var names := ["a", "a*b", "b"];
    assert Spell(names, []) == "";
    assert [Var(0), Star, Var(2)][..2] == [Var(0), Star];
    assert [Var(0), Star][..1] == [Var(0)];
    assert [Var(0)][..0] == [] && [Var(1)][..0] == [];
    assert Spell(names, [Var(0)]) == "a";
    assert Spell(names, [Var(0), Star]) == "a" + "*";
    assert Spell(names, [Var(0), Star, Var(2)]) == "a" + "*" + "b";
  }

  /** The tokens of `x1*x3` and of `x2`, each with coefficient 1. */
  lemma CollideTokens()
    ensures Tokens([PTerm(1, [1, 0, 1])]) == [Var(0), Star, Var(2)]
    ensures Tokens([PTerm(1, [0, 1, 0])]) == [Var(1)]
  {
    var dp: seq<nat> := [1, 0, 1];
    var dq: seq<nat> := [0, 1, 0];
    assert FactorTokens(dp, 2, false, true) == [Star, Var(2)];
    assert FactorTokens(dp, 0, true, true) == [Var(0)] + [Star, Var(2)];
    assert FactorTokens(dq, 0, true, true) == [Var(1)];
    assert dp[0] != 0 && dq[1] != 0;
    assert TokensFrom([PTerm(1, dp)], 1) == [];
    assert TokensFrom([PTerm(1, dq)], 1) == [];
  }

  // ---------------------------------------------------------------------------
  // Properties of the text

  /** The text of a sequence of tokens starts with the text of its first token. */
  lemma SpellHead(names: seq<string>, ts: seq<Token>)
    requires |ts| > 0
    ensures Spell(names, ts) == Spelling(names, ts[0]) + Spell(names, ts[1..])
  {
    var x, rest := ts[0], ts[1..];
    assert ts == [x] + rest;
    SpellSingle(names, x);
    SpellAppend(names, [x], rest);
  }

  lemma SpellSingle(names: seq<string>, t: Token)
    ensures Spell(names, [t]) == Spelling(names, t)
  {
    assert [t][..0] == [];
  }

  /** A `+` starts a term's text exactly when it is not the first term and its coefficient is positive. */
  lemma PlusExactly(names: seq<string>, i: nat, t: PTerm)
    requires NamesOk(names) && |t.degs| <= |names|
    ensures var s := Spell(names, TermTokens(i, t));
            |s| > 0 && (s[0] == '+' <==> i != 0 && t.coeff > 0) && (t.coeff < 0 ==> s[0] == '-')
  {
    var ts := TermTokens(i, t);
    TermHead(i, t);
    SpellHead(names, ts);
    var first := Spelling(names, ts[0]);
    assert |first| > 0 && (first[0] == '+' <==> ts[0] == Plus);
  }

  /** A constant term with coefficient +-1 is its sign followed by `1`. */
  lemma UnitConstant(names: seq<string>, i: nat, t: PTerm)
    requires Unit(t.coeff) && AllZero(t.degs) && |t.degs| <= |names|
    ensures Spell(names, TermTokens(i, t))
            == (if t.coeff == 1 && i != 0 then "+" else "") + (if t.coeff == -1 then "-" else "") + "1"
  {
    ZeroFactors(t.degs, 0, true, true);
    var s := SignTokens(i, t.coeff);
    assert TermTokens(i, t) == s + [One];
    SpellSnoc(names, s, One);
    if t.coeff == 1 && i != 0 {
      assert s == [] + [Plus];
      SpellSnoc(names, [], Plus);
    } else if t.coeff == -1 {
      assert s == [] + [Minus];
      SpellSnoc(names, [], Minus);
    } else {
      assert s == [];
    }
  }

  lemma {:induction false} ZeroFactors(degs: seq<nat>, k: nat, first: bool, unit: bool)
    requires k <= |degs| && AllZero(degs)
    ensures FactorTokens(degs, k, first, unit) == []
    decreases |degs| - k
  {
    if k < |degs| {
      ZeroFactors(degs, k + 1, first, unit);
    }
  }

  /** Every variable named in `ts` is at least `lo` and below `hi`. */
  predicate VarsWithin(ts: seq<Token>, lo: nat, hi: nat) {
    forall p :: 0 <= p < |ts| && ts[p].Var? ==> lo <= ts[p].j < hi
  }

  /** The factors from `k` on name only variables from `k` on. */
  lemma {:induction false} FactorVarsFrom(degs: seq<nat>, k: nat, first: bool, unit: bool)
    requires k <= |degs|
    ensures VarsWithin(FactorTokens(degs, k, first, unit), k, |degs|)
    decreases |degs| - k
  {
    if k < |degs| {
      var f := first && degs[k] == 0;
      FactorVarsFrom(degs, k + 1, f, unit);
      var tail := FactorTokens(degs, k + 1, f, unit);
      if degs[k] > 0 {
        var h := FactorHead(degs, k, first, unit);
        HeadVars(degs, k, first, unit);
        VarsAppend(h, tail, k, |degs|);
      }
    }
  }

  lemma VarsAppend(h: seq<Token>, tail: seq<Token>, lo: nat, hi: nat)
    requires VarsWithin(h, lo, hi) && VarsWithin(tail, lo, hi)
    ensures VarsWithin(h + tail, lo, hi)
  {
    var ts := h + tail;
    forall p | 0 <= p < |ts| && ts[p].Var?
      ensures lo <= ts[p].j < hi
    {
      if p >= |h| {
        assert ts[p] == tail[p - |h|];
      }
    }
  }

  /** The only variable in the factor of variable `k` is `k`. */
  lemma HeadVars(degs: seq<nat>, k: nat, first: bool, unit: bool)
    requires k < |degs|
    ensures var h := FactorHead(degs, k, first, unit);
            Var(k) in h && forall p :: 0 <= p < |h| && h[p].Var? ==> h[p] == Var(k)
  {
  }

  /** For each variable from `k` on, `ts` names it exactly when its exponent is non-zero. */
  predicate ListsNonZero(ts: seq<Token>, degs: seq<nat>, k: nat) {
    forall j :: k <= j < |degs| ==> (Var(j) in ts <==> degs[j] > 0)
  }

  /** A variable appears among the factors exactly when its exponent is non-zero. */
  lemma {:induction false} FactorVars(degs: seq<nat>, k: nat, first: bool, unit: bool)
    requires k <= |degs|
    ensures ListsNonZero(FactorTokens(degs, k, first, unit), degs, k)
    decreases |degs| - k
  {
    if k < |degs| {
      var f := first && degs[k] == 0;
      FactorVars(degs, k + 1, f, unit);
      FactorVarsFrom(degs, k + 1, f, unit);
      var tail := FactorTokens(degs, k + 1, f, unit);
      VarAbsent(tail, k, k + 1, |degs|);
      if degs[k] > 0 {
        HeadVars(degs, k, first, unit);
        ListsAppend(FactorHead(degs, k, first, unit), tail, degs, k);
      }
    }
  }

  /** Variable `k`'s factor in front of the factors of the later variables. */
  lemma ListsAppend(h: seq<Token>, tail: seq<Token>, degs: seq<nat>, k: nat)
    requires k < |degs| && degs[k] > 0
    requires Var(k) in h && forall p :: 0 <= p < |h| && h[p].Var? ==> h[p] == Var(k)
    requires Var(k) !in tail && ListsNonZero(tail, degs, k + 1)
    ensures ListsNonZero(h + tail, degs, k)
  {
    forall j | k <= j < |degs|
      ensures Var(j) in h + tail <==> degs[j] > 0
    {
      assert Var(j) in h + tail <==> Var(j) in h || Var(j) in tail;
    }
  }

  lemma VarAbsent(ts: seq<Token>, j: nat, lo: nat, hi: nat)
    requires VarsWithin(ts, lo, hi) && j < lo
    ensures Var(j) !in ts
  {
  }

  /** Each variable in `ts` is preceded by `*`, except a leading one when `bare` holds. */
  predicate StarsBefore(ts: seq<Token>, bare: bool) {
    forall p :: 0 <= p < |ts| && ts[p].Var? ==> ((p > 0 && ts[p - 1] == Star) <==> !(bare && p == 0))
  }

  /**
   * Each variable is preceded by `*`, except the first factor of a term whose
   * coefficient was not written.
   */
  lemma {:induction false} FactorStars(degs: seq<nat>, k: nat, first: bool, unit: bool)
    requires k <= |degs|
    ensures StarsBefore(FactorTokens(degs, k, first, unit), first && unit)
    decreases |degs| - k
  {
    var ts := FactorTokens(degs, k, first, unit);
    if k < |degs| {
      if degs[k] == 0 {
        FactorStars(degs, k + 1, first, unit);
        assert ts == FactorTokens(degs, k + 1, first, unit);
      } else {
        FactorStars(degs, k + 1, false, unit);
        var tail := FactorTokens(degs, k + 1, false, unit);
        var h := FactorHead(degs, k, first, unit);
        var star: seq<Token> := if !first || !unit then [Star] else [];
        var named: seq<Token> := if degs[k] > 1 then [Var(k), Power(degs[k])] else [Var(k)];
        assert h == star + named;
        assert ts == h + tail;
        forall p | 0 <= p < |ts| && ts[p].Var?
          ensures (p > 0 && ts[p - 1] == Star) <==> !(first && unit && p == 0)
        {
          if p < |h| {
            assert ts[p] == h[p];
            assert p == |star|;
            if p > 0 {
              assert ts[p - 1] == h[0] == Star;
            }
          } else {
            var q := p - |h|;
            assert ts[p] == tail[q];
            if q > 0 {
              assert ts[p - 1] == tail[q - 1];
            }
          }
        }
      }
    }
  }
}

=== FILE: products.dfy ===
/**
 * The reference meaning of a windowed product.
 *
 * Row `i` of the first operand `A` may only be combined with the columns
 * `start[i] <= j < stop[i]` of the second operand `B`.  The coefficient of a
 * monomial `m` in the windowed product is the sum of `A[i].coeff * B[j].coeff`
 * over exactly the window pairs whose monomial sum is `m`; the normalised
 * product lists every monomial whose coefficient is nonzero, once, in emission
 * order.  The full product is the window that covers every pair.
 */
module Products {
  import opened Wrappers
  import opened Monomials

  /** Per-row column windows, the `start`/`end` index arrays of the kernel. */
  datatype Window = Window(start: seq<nat>, stop: seq<nat>)

  ghost predicate WindowFits(w: Window, len2: nat, len3: nat) {
    && |w.start| == len2
    && |w.stop| == len2
    && forall i :: 0 <= i < len2 ==> w.stop[i] <= len3
  }

  predicate InWindow(w: Window, i: nat, j: nat) {
    i < |w.start| && i < |w.stop| && w.start[i] <= j < w.stop[i]
  }

  /** Every row meets every column. */
  function FullWindow(len2: nat, len3: nat): (w: Window)
    ensures WindowFits(w, len2, len3)
    ensures forall i: nat, j: nat :: i < len2 && j < len3 <==> InWindow(w, i, j)
  {
    Window(Repeat(0, len2), Repeat(len3, len2))
  }

  /** The monomial of the product of term `i` of `A` and term `j` of `B`. */
  function Key<M>(o: MonoOrder<M>, A: seq<Term<M>>, B: seq<Term<M>>, i: nat, j: nat): M
    requires i < |A| && j < |B|
  {
    o.add(A[i].mono, B[j].mono)
  }

  function Prod<M>(A: seq<Term<M>>, B: seq<Term<M>>, i: nat, j: nat): int
    requires i < |A| && j < |B|
  {
    A[i].coeff * B[j].coeff
  }

  /** Sum over the columns `j < J` of row `i` with `lo <= j < hi` whose monomial is `m`. */
  ghost function RowCoeff<M>(o: MonoOrder<M>, A: seq<Term<M>>, B: seq<Term<M>>,
                             i: nat, lo: nat, hi: nat, m: M, J: nat): int
    requires i < |A| && J <= |B|
    decreases J
  {
    if J == 0 then 0
    else RowCoeff(o, A, B, i, lo, hi, m, J - 1)
         + (if lo <= J - 1 < hi && Key(o, A, B, i, J - 1) == m then Prod(A, B, i, J - 1) else 0)
  }

  /** Sum of the row sums of the first `n` rows of the window. */
  ghost function WinCoeffRows<M>(o: MonoOrder<M>, A: seq<Term<M>>, B: seq<Term<M>>,
                                 w: Window, m: M, n: nat): int
    requires n <= |A| && n <= |w.start| && n <= |w.stop|
  {
    if n == 0 then 0
    else WinCoeffRows(o, A, B, w, m, n - 1) + RowCoeff(o, A, B, n - 1, w.start[n - 1], w.stop[n - 1], m, |B|)
  }

  /** The coefficient of `m` in the product of `A` and `B` restricted to `w`. */
  ghost function WinCoeff<M>(o: MonoOrder<M>, A: seq<Term<M>>, B: seq<Term<M>>, w: Window, m: M): int
    requires WindowFits(w, |A|, |B|)
  {
    WinCoeffRows(o, A, B, w, m, |A|)
  }

  /**
   * `out` is the normalised product of `A` and `B` over `w`: sorted, zero
   * free, each coefficient the windowed sum, and every monomial with a
   * nonzero windowed sum present.
   */
  ghost predicate IsProduct<M>(o: MonoOrder<M>, A: seq<Term<M>>, B: seq<Term<M>>, w: Window, out: seq<Term<M>>) {
    && WindowFits(w, |A|, |B|)
    && Normalised(o, out)
    && (forall k :: 0 <= k < |out| ==> out[k].coeff == WinCoeff(o, A, B, w, out[k].mono))
    && (forall i, j ::
          (0 <= i < |A| && 0 <= j < |B| && InWindow(w, i, j) && WinCoeff(o, A, B, w, Key(o, A, B, i, j)) != 0)
          ==> Key(o, A, B, i, j) in Monos(out))
  }

  // ---------------------------------------------------------------------------
  // Row sums

  /** Row sums only depend on which columns carrying `m` are selected. */
  lemma {:induction false} RowCongruence<M>(o: MonoOrder<M>, A: seq<Term<M>>, B: seq<Term<M>>,
                                            i: nat, lo1: nat, hi1: nat, lo2: nat, hi2: nat, m: M, J: nat)
    requires i < |A| && J <= |B|
    requires forall j :: 0 <= j < J && Key(o, A, B, i, j) == m ==> (lo1 <= j < hi1 <==> lo2 <= j < hi2)
    ensures RowCoeff(o, A, B, i, lo1, hi1, m, J) == RowCoeff(o, A, B, i, lo2, hi2, m, J)
    decreases J
  {
    if J > 0 {
      RowCongruence(o, A, B, i, lo1, hi1, lo2, hi2, m, J - 1);
    }
  }

  /** A one-column range contributes that column's product when its monomial is `m`. */
  lemma {:induction false} RowSingle<M>(o: MonoOrder<M>, A: seq<Term<M>>, B: seq<Term<M>>,
                                        i: nat, c: nat, m: M, J: nat)
    requires i < |A| && c < J <= |B|
    ensures RowCoeff(o, A, B, i, c, c + 1, m, J) == (if Key(o, A, B, i, c) == m then Prod(A, B, i, c) else 0)
    decreases J
  {
    if J - 1 > c {
      RowSingle(o, A, B, i, c, m, J - 1);
    } else {
      RowEmptyBelow(o, A, B, i, c, c + 1, m, J - 1);
    }
  }

  /** Columns below `lo` contribute nothing. */
  lemma {:induction false} RowEmptyBelow<M>(o: MonoOrder<M>, A: seq<Term<M>>, B: seq<Term<M>>,
                                            i: nat, lo: nat, hi: nat, m: M, J: nat)
    requires i < |A| && J <= |B| && J <= lo
    ensures RowCoeff(o, A, B, i, lo, hi, m, J) == 0
    decreases J
  {
    if J > 0 {
      RowEmptyBelow(o, A, B, i, lo, hi, m, J - 1);
    }
  }

  // ---------------------------------------------------------------------------
  // Window sums

  /** Window sums only depend on which pairs carrying `m` are selected. */
  lemma {:induction false} WinCongruenceRows<M>(o: MonoOrder<M>, A: seq<Term<M>>, B: seq<Term<M>>,
                                                w1: Window, w2: Window, m: M, n: nat)
    requires WindowFits(w1, |A|, |B|) && WindowFits(w2, |A|, |B|) && n <= |A|
    requires forall i, j :: 0 <= i < n && 0 <= j < |B| && Key(o, A, B, i, j) == m ==>
               (InWindow(w1, i, j) <==> InWindow(w2, i, j))
    ensures WinCoeffRows(o, A, B, w1, m, n) == WinCoeffRows(o, A, B, w2, m, n)
    decreases n
  {
    if n > 0 {
      WinCongruenceRows(o, A, B, w1, w2, m, n - 1);
      var i := n - 1;
      forall j | 0 <= j < |B| && Key(o, A, B, i, j) == m
        ensures w1.start[i] <= j < w1.stop[i] <==> w2.start[i] <= j < w2.stop[i]
      {
        assert InWindow(w1, i, j) <==> InWindow(w2, i, j);
      }
      RowCongruence(o, A, B, i, w1.start[i], w1.stop[i], w2.start[i], w2.stop[i], m, |B|);
    }
  }

  lemma WinCongruence<M>(o: MonoOrder<M>, A: seq<Term<M>>, B: seq<Term<M>>, w1: Window, w2: Window, m: M)
    requires WindowFits(w1, |A|, |B|) && WindowFits(w2, |A|, |B|)
    requires forall i, j :: 0 <= i < |A| && 0 <= j < |B| && Key(o, A, B, i, j) == m ==>
               (InWindow(w1, i, j) <==> InWindow(w2, i, j))
    ensures WinCoeff(o, A, B, w1, m) == WinCoeff(o, A, B, w2, m)
  {
    WinCongruenceRows(o, A, B, w1, w2, m, |A|);
  }

  function EmptyWindow(len2: nat): (w: Window)
    ensures forall len3: nat :: WindowFits(w, len2, len3)
    ensures forall i, j :: !InWindow(w, i, j)
  {
    Window(Repeat(0, len2), Repeat(0, len2))
  }

  lemma {:induction false} EmptyWindowZero<M>(o: MonoOrder<M>, A: seq<Term<M>>, B: seq<Term<M>>, m: M, n: nat)
    requires n <= |A|
    ensures WinCoeffRows(o, A, B, EmptyWindow(|A|), m, n) == 0
    decreases n
  {
    if n > 0 {
      EmptyWindowZero(o, A, B, m, n - 1);
      RowEmptyBelow(o, A, B, n - 1, |B|, 0, m, |B|);
      var w := EmptyWindow(|A|);
      RowCongruence(o, A, B, n - 1, w.start[n - 1], w.stop[n - 1], |B|, 0, m, |B|);
    }
  }

  /** A monomial that no window pair produces has coefficient zero. */
  lemma NoPairZero<M>(o: MonoOrder<M>, A: seq<Term<M>>, B: seq<Term<M>>, w: Window, m: M)
    requires WindowFits(w, |A|, |B|)
    ensures (forall i, j :: 0 <= i < |A| && 0 <= j < |B| && InWindow(w, i, j) ==> Key(o, A, B, i, j) != m)
            ==> WinCoeff(o, A, B, w, m) == 0
  {
    if forall i, j :: 0 <= i < |A| && 0 <= j < |B| && InWindow(w, i, j) ==> Key(o, A, B, i, j) != m {
      WinCongruence(o, A, B, w, EmptyWindow(|A|), m);
      EmptyWindowZero(o, A, B, m, |A|);
    }
  }

  /** A nonzero windowed coefficient is produced by some window pair. */
  lemma PairOfNonZero<M>(o: MonoOrder<M>, A: seq<Term<M>>, B: seq<Term<M>>, w: Window, m: M)
    returns (i: nat, j: nat)
    requires WindowFits(w, |A|, |B|)
    requires WinCoeff(o, A, B, w, m) != 0
    ensures i < |A| && j < |B| && InWindow(w, i, j) && Key(o, A, B, i, j) == m
  {
    NoPairZero(o, A, B, w, m);
    i, j :| 0 <= i < |A| && 0 <= j < |B| && InWindow(w, i, j) && Key(o, A, B, i, j) == m;
  }

  /** Every monomial of a windowed product is the monomial of some window pair. */
  lemma ProductMonoHasPair<M>(o: MonoOrder<M>, A: seq<Term<M>>, B: seq<Term<M>>, w: Window,
                              out: seq<Term<M>>, k: nat)
    returns (i: nat, j: nat)
    requires IsProduct(o, A, B, w, out)
    requires k < |out|
    ensures i < |A| && j < |B| && InWindow(w, i, j) && Key(o, A, B, i, j) == out[k].mono
  {
    i, j := PairOfNonZero(o, A, B, w, out[k].mono);
  }

  // ---------------------------------------------------------------------------
  // Uniqueness and commutativity

  /** The normalised windowed product is unique. */
  lemma ProductUnique<M(!new)>(o: MonoOrder<M>, A: seq<Term<M>>, B: seq<Term<M>>, w: Window,
                               s: seq<Term<M>>, t: seq<Term<M>>)
    requires StrictTotal(o)
    requires IsProduct(o, A, B, w, s) && IsProduct(o, A, B, w, t)
    ensures s == t
  {
    forall m
      ensures m in Monos(s) <==> m in Monos(t)
    {
      ProductMonoListed(o, A, B, w, s, t, m);
      ProductMonoListed(o, A, B, w, t, s, m);
    }
    SortedSameMonos(o, s, t);
    assert forall k :: 0 <= k < |s| ==> s[k] == t[k] by {
      forall k | 0 <= k < |s|
        ensures s[k] == t[k]
      {
        assert s[k].mono == Monos(s)[k] == Monos(t)[k] == t[k].mono;
      }
    }
  }

  lemma ProductMonoListed<M>(o: MonoOrder<M>, A: seq<Term<M>>, B: seq<Term<M>>, w: Window,
                             s: seq<Term<M>>, t: seq<Term<M>>, m: M)
    requires IsProduct(o, A, B, w, s) && IsProduct(o, A, B, w, t)
    ensures m in Monos(s) ==> m in Monos(t)
  {
    if m in Monos(s) {
      var k :| 0 <= k < |s| && Monos(s)[k] == m;
      var i, j := ProductMonoHasPair(o, A, B, w, s, k);
    }
  }

  /** Sum over rows `i < n` of the product with column `j` when its monomial is `m`. */
  ghost function ColCoeff<M>(o: MonoOrder<M>, A: seq<Term<M>>, B: seq<Term<M>>, j: nat, m: M, n: nat): int
    requires n <= |A| && j < |B|
  {
    if n == 0 then 0
    else ColCoeff(o, A, B, j, m, n - 1) + (if Key(o, A, B, n - 1, j) == m then Prod(A, B, n - 1, j) else 0)
  }

  /** Sum over the first `J` columns of the column sums. */
  ghost function ColsCoeff<M>(o: MonoOrder<M>, A: seq<Term<M>>, B: seq<Term<M>>, m: M, n: nat, J: nat): int
    requires n <= |A| && J <= |B|
  {
    if J == 0 then 0 else ColsCoeff(o, A, B, m, n, J - 1) + ColCoeff(o, A, B, J - 1, m, n)
  }

  lemma {:induction false} RowsAddColumn<M>(o: MonoOrder<M>, A: seq<Term<M>>, B: seq<Term<M>>, m: M, n: nat, J: nat)
    requires n <= |A| && J < |B|
    ensures FullRows(o, A, B, m, n, J + 1) == FullRows(o, A, B, m, n, J) + ColCoeff(o, A, B, J, m, n)
    decreases n
  {
    if n > 0 {
      RowsAddColumn(o, A, B, m, n - 1, J);
    }
  }

  /** The first `n` rows of the full window, restricted to columns below `J`. */
  ghost function FullRows<M>(o: MonoOrder<M>, A: seq<Term<M>>, B: seq<Term<M>>, m: M, n: nat, J: nat): int
    requires n <= |A| && J <= |B|
  {
    if n == 0 then 0 else FullRows(o, A, B, m, n - 1, J) + RowCoeff(o, A, B, n - 1, 0, |B|, m, J)
  }

  lemma {:induction false} FullRowsByColumns<M>(o: MonoOrder<M>, A: seq<Term<M>>, B: seq<Term<M>>, m: M, n: nat, J: nat)
    requires n <= |A| && J <= |B|
    ensures FullRows(o, A, B, m, n, J) == ColsCoeff(o, A, B, m, n, J)
    decreases J
  {
    if J == 0 {
      FullRowsNoColumns(o, A, B, m, n);
    } else {
      FullRowsByColumns(o, A, B, m, n, J - 1);
      RowsAddColumn(o, A, B, m, n, J - 1);
    }
  }

  lemma {:induction false} FullRowsNoColumns<M>(o: MonoOrder<M>, A: seq<Term<M>>, B: seq<Term<M>>, m: M, n: nat)
    requires n <= |A|
    ensures FullRows(o, A, B, m, n, 0) == 0
    decreases n
  {
    if n > 0 {
      FullRowsNoColumns(o, A, B, m, n - 1);
    }
  }

  lemma {:induction false} FullRowsIsWinCoeff<M>(o: MonoOrder<M>, A: seq<Term<M>>, B: seq<Term<M>>, m: M, n: nat)
    requires n <= |A|
    ensures FullRows(o, A, B, m, n, |B|) == WinCoeffRows(o, A, B, FullWindow(|A|, |B|), m, n)
    decreases n
  {
    if n > 0 {
      FullRowsIsWinCoeff(o, A, B, m, n - 1);
    }
  }

  /** A column sum of `A * B` is the corresponding row sum of `B * A`. */
  lemma {:induction false} ColumnIsSwappedRow<M(!new)>(o: MonoOrder<M>, A: seq<Term<M>>, B: seq<Term<M>>, j: nat, m: M, n: nat)
    requires Commutative(o)
    requires n <= |A| && j < |B|
    ensures ColCoeff(o, A, B, j, m, n) == RowCoeff(o, B, A, j, 0, |A|, m, n)
    decreases n
  {
    if n > 0 {
      ColumnIsSwappedRow(o, A, B, j, m, n - 1);
      assert Key(o, A, B, n - 1, j) == Key(o, B, A, j, n - 1);
      assert Prod(A, B, n - 1, j) == Prod(B, A, j, n - 1);
    }
  }

  lemma {:induction false} ColumnsAreSwappedRows<M(!new)>(o: MonoOrder<M>, A: seq<Term<M>>, B: seq<Term<M>>, m: M, J: nat)
    requires Commutative(o)
    requires J <= |B|
    ensures ColsCoeff(o, A, B, m, |A|, J) == WinCoeffRows(o, B, A, FullWindow(|B|, |A|), m, J)
    decreases J
  {
    if J > 0 {
      ColumnsAreSwappedRows(o, A, B, m, J - 1);
      ColumnIsSwappedRow(o, A, B, J - 1, m, |A|);
    }
  }

  /** Coefficients of the full product do not depend on the operand order. */
  lemma FullCoeffCommutes<M(!new)>(o: MonoOrder<M>, A: seq<Term<M>>, B: seq<Term<M>>, m: M)
    requires Commutative(o)
    ensures WinCoeff(o, A, B, FullWindow(|A|, |B|), m) == WinCoeff(o, B, A, FullWindow(|B|, |A|), m)
  {
    FullRowsIsWinCoeff(o, A, B, m, |A|);
    FullRowsByColumns(o, A, B, m, |A|, |B|);
    ColumnsAreSwappedRows(o, A, B, m, |B|);
  }

  /** The normalised full product of `A` and `B` is the one of `B` and `A`. */
  lemma ProductCommutes<M(!new)>(o: MonoOrder<M>, A: seq<Term<M>>, B: seq<Term<M>>, out: seq<Term<M>>)
    requires Commutative(o)
    requires IsProduct(o, A, B, FullWindow(|A|, |B|), out)
    ensures IsProduct(o, B, A, FullWindow(|B|, |A|), out)
  {
    forall m {
      FullCoeffCommutes(o, A, B, m);
    }
    forall j, i | 0 <= j < |B| && 0 <= i < |A|
      ensures Key(o, B, A, j, i) == Key(o, A, B, i, j)
    {
    }
  }
}

=== FILE: search.dfy ===
/**
 * The monomial-rank search that places the division boundaries.
 *
 * For a candidate monomial `e`, `Ind(e)[i]` is the number of leading columns
 * of row `i` whose product comes before `e`, and the score of `e` is the
 * number of product pairs that do not come before it,
 * `sum_i (len_g - Ind(e)[i])`.  A search for the window `[lower, upper]`
 * returns a product monomial whose score is in the window when one exists,
 * and otherwise one whose score is as close to the window as any.  The search
 * routine itself is not part of this model; `BruteSearch` meets its contract
 * by trying every product monomial, and breaks ties in distance towards the
 * larger score.  With that tie-break the boundaries of the divisions nest
 * (`SearchNests`).
 */
module Search {
  import opened Monomials
  import opened Products
  import opened HeapKernel

  /** One plus the last column `j < n` of row `i` whose product comes before `e`, or 0. */
  function RowInd<M>(o: MonoOrder<M>, F: seq<Term<M>>, G: seq<Term<M>>, i: nat, e: M, n: nat): (x: nat)
    requires i < |F| && n <= |G|
    ensures x <= n
  {
    if n == 0 then 0
    else if o.lt(Key(o, F, G, i, n - 1), e) then n
    else RowInd(o, F, G, i, e, n - 1)
  }

  /** The per-row boundary `e_ind` of a monomial. */
  function Ind<M>(o: MonoOrder<M>, F: seq<Term<M>>, G: seq<Term<M>>, e: M): (ind: seq<nat>)
    ensures |ind| == |F|
    ensures forall i :: 0 <= i < |F| ==> ind[i] == RowInd(o, F, G, i, e, |G|) <= |G|
  {
    IndFrom(o, F, G, e, |F|)
  }

  /** The boundaries of the first `n` rows. */
  function IndFrom<M>(o: MonoOrder<M>, F: seq<Term<M>>, G: seq<Term<M>>, e: M, n: nat): (ind: seq<nat>)
    requires n <= |F|
    ensures |ind| == n
    ensures forall i :: 0 <= i < n ==> ind[i] == RowInd(o, F, G, i, e, |G|) <= |G|
  {
    if n == 0 then [] else IndFrom(o, F, G, e, n - 1) + [RowInd(o, F, G, n - 1, e, |G|)]
  }

  /** Pairs of the first `n` rows at or beyond the boundary `ind`. */
  function ScoreRows(len: nat, ind: seq<nat>, n: nat): nat
    requires n <= |ind|
    requires forall i :: 0 <= i < |ind| ==> ind[i] <= len
  {
    if n == 0 then 0 else ScoreRows(len, ind, n - 1) + (len - ind[n - 1])
  }

  /** `e_score`: the number of product pairs that do not come before `e`. */
  function Score<M>(o: MonoOrder<M>, F: seq<Term<M>>, G: seq<Term<M>>, e: M): nat {
    ScoreRows(|G|, Ind(o, F, G, e), |F|)
  }

  /** How far a score lies outside the window `[lower, upper]`. */
  function Dist(s: int, lower: int, upper: int): nat {
    if s < lower then lower - s else if s > upper then s - upper else 0
  }

  /** `s` is strictly preferable to `t`: closer to the window, or as close and larger. */
  predicate Better(s: int, t: int, lower: int, upper: int) {
    Dist(s, lower, upper) < Dist(t, lower, upper)
    || (Dist(s, lower, upper) == Dist(t, lower, upper) && s > t)
  }

  ghost predicate IsProductMono<M>(o: MonoOrder<M>, F: seq<Term<M>>, G: seq<Term<M>>, m: M) {
    exists i, j :: 0 <= i < |F| && 0 <= j < |G| && Key(o, F, G, i, j) == m
  }

  /**
   * The contract of a search for `[lower, upper]`: `ind` and `score` are the
   * boundary and score of the returned product monomial `e`, no product
   * monomial is closer to the window, and none equally close has a larger
   * score.
   */
  ghost predicate SearchOk<M>(o: MonoOrder<M>, F: seq<Term<M>>, G: seq<Term<M>>, lower: int, upper: int,
                              e: M, ind: seq<nat>, score: nat) {
    && ind == Ind(o, F, G, e)
    && score == Score(o, F, G, e)
    && IsProductMono(o, F, G, e)
    && (forall i, j :: 0 <= i < |F| && 0 <= j < |G| ==>
          !Better(Score(o, F, G, Key(o, F, G, i, j)), score, lower, upper))
  }

  /** Try every product monomial and keep the best score seen. */
  method BruteSearch<M>(o: MonoOrder<M>, F: seq<Term<M>>, G: seq<Term<M>>, lower: int, upper: int)
    returns (e: M, ind: seq<nat>, score: nat)
    requires |F| > 0 && |G| > 0
    ensures SearchOk(o, F, G, lower, upper, e, ind, score)
    ensures forall i, j :: 0 <= i < |F| && 0 <= j < |G| ==>
              Dist(score, lower, upper) <= Dist(Score(o, F, G, Key(o, F, G, i, j)), lower, upper)
    ensures (score < lower || score > upper) ==>
              forall i, j :: 0 <= i < |F| && 0 <= j < |G| ==>
                var s := Score(o, F, G, Key(o, F, G, i, j)); s < lower || s > upper
  {
    e := Key(o, F, G, 0, 0);
    score := Score(o, F, G, e);
    ghost var bi, bj := 0, 0;
    var i := 0;
    while i < |F|
      invariant 0 <= i <= |F|
      invariant bi < |F| && bj < |G| && e == Key(o, F, G, bi, bj)
      invariant score == Score(o, F, G, e)
      invariant forall i', j' :: 0 <= i' < i && 0 <= j' < |G| ==>
                  !Better(Score(o, F, G, Key(o, F, G, i', j')), score, lower, upper)
    {
      var j := 0;
      while j < |G|
        invariant 0 <= j <= |G|
        invariant bi < |F| && bj < |G| && e == Key(o, F, G, bi, bj)
        invariant score == Score(o, F, G, e)
        invariant forall i', j' :: 0 <= i' < i && 0 <= j' < |G| ==>
                    !Better(Score(o, F, G, Key(o, F, G, i', j')), score, lower, upper)
        invariant forall j' :: 0 <= j' < j ==>
                    !Better(Score(o, F, G, Key(o, F, G, i, j')), score, lower, upper)
      {
        var m := Key(o, F, G, i, j);
        var s := Score(o, F, G, m);
        if Better(s, score, lower, upper) {
          e, score := m, s;
          bi, bj := i, j;
        }
        j := j + 1;
      }
      i := i + 1;
    }
    ind := Ind(o, F, G, e);
  }

  // ---------------------------------------------------------------------------
  // Boundaries and scores

  /** The boundary of a row splits it into the products before `e` and the rest. */
  lemma {:induction false} RowIndPrefix<M(!new)>(o: MonoOrder<M>, F: seq<Term<M>>, G: seq<Term<M>>,
                                                 i: nat, e: M, n: nat)
    requires StrictTotal(o) && RowsIncreasing(o, F, G)
    requires i < |F| && n <= |G|
    ensures forall j :: 0 <= j < n ==> (j < RowInd(o, F, G, i, e, n) <==> o.lt(Key(o, F, G, i, j), e))
    decreases n
  {
    if n > 0 {
      RowIndPrefix(o, F, G, i, e, n - 1);
      if o.lt(Key(o, F, G, i, n - 1), e) {
        forall j | 0 <= j < n - 1
          ensures o.lt(Key(o, F, G, i, j), e)
        {
          assert o.lt(Key(o, F, G, i, j), Key(o, F, G, i, n - 1));
        }
      }
    }
  }

  lemma IndPrefix<M(!new)>(o: MonoOrder<M>, F: seq<Term<M>>, G: seq<Term<M>>, e: M, i: nat, j: nat)
    requires StrictTotal(o) && RowsIncreasing(o, F, G)
    requires i < |F| && j < |G|
    ensures j < Ind(o, F, G, e)[i] <==> o.lt(Key(o, F, G, i, j), e)
  {
    RowIndPrefix(o, F, G, i, e, |G|);
  }

  /** A later monomial has every boundary at least as far along. */
  lemma IndMonotone<M(!new)>(o: MonoOrder<M>, F: seq<Term<M>>, G: seq<Term<M>>, e: M, e': M, i: nat)
    requires StrictTotal(o) && RowsIncreasing(o, F, G)
    requires Le(o, e, e') && i < |F|
    ensures Ind(o, F, G, e)[i] <= Ind(o, F, G, e')[i]
  {
    var x := Ind(o, F, G, e)[i];
    if x > 0 {
      IndPrefix(o, F, G, e, i, x - 1);
      IndPrefix(o, F, G, e', i, x - 1);
    }
  }

  /** Boundaries that are pointwise no further give a score at least as large. */
  lemma {:induction false} ScoreRowsAntitone(len: nat, ind: seq<nat>, ind': seq<nat>, n: nat)
    requires n <= |ind| == |ind'|
    requires forall i :: 0 <= i < |ind| ==> ind[i] <= ind'[i] <= len
    ensures ScoreRows(len, ind', n) <= ScoreRows(len, ind, n)
    ensures ScoreRows(len, ind', n) == ScoreRows(len, ind, n) ==> ind[..n] == ind'[..n]
    decreases n
  {
    if n > 0 {
      ScoreRowsAntitone(len, ind, ind', n - 1);
      assert ind[..n] == ind[..n - 1] + [ind[n - 1]];
      assert ind'[..n] == ind'[..n - 1] + [ind'[n - 1]];
    }
  }

  /** Later monomials have smaller scores; equal scores mean equal boundaries. */
  lemma ScoreAntitone<M(!new)>(o: MonoOrder<M>, F: seq<Term<M>>, G: seq<Term<M>>, e: M, e': M)
    requires StrictTotal(o) && RowsIncreasing(o, F, G)
    requires Le(o, e, e')
    ensures Score(o, F, G, e') <= Score(o, F, G, e)
    ensures Score(o, F, G, e') == Score(o, F, G, e) ==> Ind(o, F, G, e) == Ind(o, F, G, e')
  {
    var ind, ind' := Ind(o, F, G, e), Ind(o, F, G, e');
    forall i | 0 <= i < |F|
      ensures ind[i] <= ind'[i]
    {
      IndMonotone(o, F, G, e, e', i);
    }
    ScoreRowsAntitone(|G|, ind, ind', |F|);
    assert ind[..|F|] == ind;
    assert ind'[..|F|] == ind';
  }

  /** The score is at most the number of pairs, and reaches it only with every boundary at 0. */
  lemma {:induction false} ScoreRowsFull(len: nat, ind: seq<nat>, n: nat)
    requires n <= |ind|
    requires forall i :: 0 <= i < |ind| ==> ind[i] <= len
    ensures ScoreRows(len, ind, n) <= n * len
    ensures ScoreRows(len, ind, n) == n * len ==> forall i :: 0 <= i < n ==> ind[i] == 0
    decreases n
  {
    if n > 0 {
      ScoreRowsFull(len, ind, n - 1);
      assert n * len == (n - 1) * len + len;
    }
  }

  /** The boundary of the first product monomial is 0 in every row. */
  lemma FirstMonoScore<M(!new)>(o: MonoOrder<M>, F: seq<Term<M>>, G: seq<Term<M>>, m: M)
    requires forall i, j :: 0 <= i < |F| && 0 <= j < |G| ==> !o.lt(Key(o, F, G, i, j), m)
    ensures forall i :: 0 <= i < |F| ==> Ind(o, F, G, m)[i] == 0
    ensures Score(o, F, G, m) == |F| * |G|
  {
    var ind := Ind(o, F, G, m);
    forall i | 0 <= i < |F|
      ensures ind[i] == 0
    {
      RowIndZero(o, F, G, i, m, |G|);
    }
    ScoreRowsZero(|G|, ind, |F|);
  }

  lemma {:induction false} RowIndZero<M>(o: MonoOrder<M>, F: seq<Term<M>>, G: seq<Term<M>>, i: nat, m: M, n: nat)
    requires i < |F| && n <= |G|
    requires forall j :: 0 <= j < n ==> !o.lt(Key(o, F, G, i, j), m)
    ensures RowInd(o, F, G, i, m, n) == 0
    decreases n
  {
    if n > 0 {
      RowIndZero(o, F, G, i, m, n - 1);
    }
  }

  lemma {:induction false} ScoreRowsZero(len: nat, ind: seq<nat>, n: nat)
    requires n <= |ind|
    requires forall i :: 0 <= i < |ind| ==> ind[i] == 0 <= len
    ensures ScoreRows(len, ind, n) == n * len
    decreases n
  {
    if n > 0 {
      ScoreRowsZero(len, ind, n - 1);
      assert n * len == (n - 1) * len + len;
    }
  }

  /** The product monomial that comes first. */
  lemma FirstPair<M(!new)>(o: MonoOrder<M>, F: seq<Term<M>>, G: seq<Term<M>>) returns (i0: nat, j0: nat)
    requires StrictTotal(o)
    requires |F| > 0 && |G| > 0
    ensures i0 < |F| && j0 < |G|
    ensures forall i, j :: 0 <= i < |F| && 0 <= j < |G| ==> !o.lt(Key(o, F, G, i, j), Key(o, F, G, i0, j0))
  {
    var keys := set i, j | 0 <= i < |F| && 0 <= j < |G| :: Key(o, F, G, i, j);
    assert Key(o, F, G, 0, 0) in keys;
    var m := FirstExists(o, keys);
    i0, j0 :| 0 <= i0 < |F| && 0 <= j0 < |G| && Key(o, F, G, i0, j0) == m;
  }

  // ---------------------------------------------------------------------------
  // What the driver needs from the search

  /**
   * A search whose window holds only the total number of pairs returns the
   * boundary 0 in every row: the first product monomial scores exactly that.
   */
  lemma TopSearch<M(!new)>(o: MonoOrder<M>, F: seq<Term<M>>, G: seq<Term<M>>, e: M, ind: seq<nat>, score: nat)
    requires StrictTotal(o)
    requires |F| > 0 && |G| > 0
    requires SearchOk(o, F, G, |F| * |G|, |F| * |G|, e, ind, score)
    ensures forall i :: 0 <= i < |F| ==> ind[i] == 0
  {
    var i0, j0 := FirstPair(o, F, G);
    FirstMonoScore(o, F, G, Key(o, F, G, i0, j0));
    ScoreRowsFull(|G|, ind, |F|);
  }

  /**
   * Searches for single-point windows `t' <= t` return boundaries that nest:
   * the boundary for the larger target is nowhere further along.
   */
  lemma SearchNests<M(!new)>(o: MonoOrder<M>, F: seq<Term<M>>, G: seq<Term<M>>,
                             t: int, e: M, ind: seq<nat>, score: nat,
                             t': int, e': M, ind': seq<nat>, score': nat)
    requires StrictTotal(o) && RowsIncreasing(o, F, G)
    requires t' <= t
    requires SearchOk(o, F, G, t, t, e, ind, score)
    requires SearchOk(o, F, G, t', t', e', ind', score')
    ensures score' <= score
    ensures forall i :: 0 <= i < |F| ==> ind[i] <= ind'[i]
  {
    var i1, j1 :| 0 <= i1 < |F| && 0 <= j1 < |G| && Key(o, F, G, i1, j1) == e';
    var i2, j2 :| 0 <= i2 < |F| && 0 <= j2 < |G| && Key(o, F, G, i2, j2) == e;
    assert !Better(score', score, t, t);
    assert !Better(score, score', t', t');
    if Le(o, e, e') {
      forall i | 0 <= i < |F|
        ensures ind[i] <= ind'[i]
      {
        IndMonotone(o, F, G, e, e', i);
      }
    } else {
      assert o.lt(e', e);
      ScoreAntitone(o, F, G, e', e);
    }
  }
}

=== FILE: sieve.dfy ===
/**
 * The sieving loops of the self-initialising quadratic sieve.
 *
 * For each prime `p` of the factor base, with the two roots `soln1` and
 * `soln2` of the sieving polynomial modulo `p`, the byte at every position of
 * the two progressions `soln1 + k*p` and `soln2 + k*p` gets the prime's
 * logarithmic weight `size` added, modulo 256.  Primes below `small_primes`
 * are not sieved with, and neither are the factors of A, marked by
 * `soln2 == 0`.  `qsieve_do_sieving` walks each prime over the whole array;
 * `qsieve_do_sieving2` walks the array block by block and keeps, per prime,
 * the next position and the gap to the position after it.
 * `qsieve_evaluate_sieve` then reports the positions whose byte exceeds the
 * threshold `sieve_bits`.
 */
module Sieve {
  import opened Wrappers

  /** `sizeof(ulong)` on a 64-bit machine: the bytes past the end that are filled too. */
  const WordBytes: nat := 8

  /** A factor base entry: the prime and its weight. */
  datatype Prime = Prime(p: nat, size: int)

  predicate Bytes(sv: seq<int>) {
    forall x :: 0 <= x < |sv| ==> 0 <= sv[x] < 256
  }

  /** `(*pos) += size` on an unsigned char: the sum modulo 256. */
  function AddByte(b: int, w: int): (r: int)
    ensures 0 <= r < 256
  {
    (b + w) % 256
  }

  lemma AddTwice(b: int, w1: int, w2: int)
    ensures AddByte(AddByte(b, w1), w2) == AddByte(b, w1 + w2)
  {
    var q1, r1 := (b + w1) / 256, (b + w1) % 256;
    var q2, r2 := (r1 + w2) / 256, (r1 + w2) % 256;
    assert b + w1 + w2 == (q1 + q2) * 256 + r2;
    ModUnique(b + w1 + w2, 256, q1 + q2, r2);
  }

  lemma AddNothing(b: int)
    requires 0 <= b < 256
    ensures AddByte(b, 0) == b
  {
  }

  // ---------------------------------------------------------------------------
  // Progressions

  /** `t` is a term of the progression `s, s + p, s + 2p, ...`. */
  predicate OnProg(t: int, s: nat, p: nat)
    requires p > 0
  {
    s <= t && (t - s) % p == 0
  }

  /** 1 when `x` is a term of `s, s + p, ...` below `n`. */
  function Hits(x: int, s: nat, p: nat, n: int): int
    requires p > 0
  {
    if OnProg(x, s, p) && x < n then 1 else 0
  }

  /** 1 when `x` is a term before the term `next`: the terms already sieved when `next` is due. */
  function Covered(x: int, s: nat, p: nat, next: int): int
    requires p > 0
  {
    if OnProg(x, s, p) && x < next then 1 else 0
  }

  /** The sign of a product with a positive factor. */
  lemma MulSign(d: int, p: int)
    requires p > 0
    ensures d >= 1 ==> d * p >= p
    ensures d <= 0 ==> d * p <= 0
    ensures d <= -1 ==> d * p <= -p
  {
    if d >= 1 {
      assert (d - 1) * p >= 0;
    } else if d <= -1 {
      assert (-d - 1) * p >= 0;
    }
  }

  lemma ModUnique(a: int, p: int, q: int, r: int)
    requires p > 0 && a == q * p + r && 0 <= r < p
    ensures a % p == r && a / p == q
  {
    var q', r' := a / p, a % p;
    var d := q - q';
    assert d * p == q * p - q' * p;
    assert d * p == r' - r;
    MulSign(d, p);
  }

  /** The term after a term. */
  lemma OnProgNext(t: int, s: nat, p: nat)
    requires p > 0 && OnProg(t, s, p)
    ensures OnProg(t + p, s, p)
  {
    ModUnique(t - s + p, p, (t - s) / p + 1, 0);
  }

  /** Two terms differ by at least `p`. */
  lemma SameClass(x: int, t: int, s: nat, p: nat)
    requires p > 0 && OnProg(x, s, p) && OnProg(t, s, p) && x < t
    ensures x <= t - p
  {
    var qx, qt := (x - s) / p, (t - s) / p;
    assert x - s == qx * p && t - s == qt * p;
    assert (qt - qx) * p == (t - s) - (x - s);
    MulSign(qt - qx, p);
  }

  /** Moving `next` on by one term covers exactly that term. */
  lemma CoveredStep(x: int, s: nat, p: nat, next: int)
    requires p > 0 && OnProg(next, s, p)
    ensures OnProg(next + p, s, p)
    ensures Covered(x, s, p, next + p) == Covered(x, s, p, next) + (if x == next then 1 else 0)
  {
    OnProgNext(next, s, p);
    if OnProg(x, s, p) && next < x {
      SameClass(next, x, s, p);
    }
  }

  /** The terms before the first term at or after `n` are the terms below `n`. */
  lemma CoveredAll(x: int, s: nat, p: nat, next: int, n: int)
    requires p > 0 && OnProg(next, s, p)
    requires next >= n && (next == s || next - p < n)
    ensures Covered(x, s, p, next) == Hits(x, s, p, n)
  {
    if OnProg(x, s, p) && x < next {
      SameClass(x, next, s, p);
    }
  }

  /** The hits at `x` from both progressions before their next terms `n1` and `n2`. */
  function Count(x: int, s1: nat, n1: int, s2: nat, n2: int, p: nat): int
    requires p > 0
  {
    Covered(x, s1, p, n1) + Covered(x, s2, p, n2)
  }

  lemma CountStart(x: int, s1: nat, s2: nat, p: nat)
    requires p > 0
    ensures Count(x, s1, s1, s2, s2, p) == 0
  {
  }

  /**
   * `sv` is `sv0` with `size` added at every term from `a1` up to `n1` and
   * from `a2` up to `n2` of the two progressions.
   */
  ghost predicate Advanced(sv0: seq<int>, sv: seq<int>, size: int, s1: nat, s2: nat, p: nat,
                           a1: int, a2: int, n1: int, n2: int) {
    && p > 0
    && |sv| == |sv0|
    && forall x :: 0 <= x < |sv| ==>
         sv[x] == AddByte(sv0[x], size * (Count(x, s1, n1, s2, n2, p) - Count(x, s1, a1, s2, a2, p)))
  }

  lemma AdvanceStart(sv0: seq<int>, size: int, s1: nat, s2: nat, p: nat, a1: int, a2: int)
    requires p > 0 && Bytes(sv0)
    ensures Advanced(sv0, sv0, size, s1, s2, p, a1, a2, a1, a2)
  {
    forall x | 0 <= x < |sv0|
      ensures sv0[x] == AddByte(sv0[x], size * (Count(x, s1, a1, s2, a2, p) - Count(x, s1, a1, s2, a2, p)))
    {
      AddNothing(sv0[x]);
    }
  }

  /** `(*pos1) += size` at the next term of the first progression, which then moves on. */
  lemma BumpFirst(sv0: seq<int>, sv: seq<int>, size: int, s1: nat, s2: nat, p: nat,
                  a1: int, a2: int, n1: int, n2: int)
    requires Advanced(sv0, sv, size, s1, s2, p, a1, a2, n1, n2)
    requires OnProg(n1, s1, p) && n1 < |sv|
    ensures OnProg(n1 + p, s1, p)
    ensures Advanced(sv0, sv[n1 := AddByte(sv[n1], size)], size, s1, s2, p, a1, a2, n1 + p, n2)
  {
    OnProgNext(n1, s1, p);
    var sv' := sv[n1 := AddByte(sv[n1], size)];
    forall x | 0 <= x < |sv'|
      ensures sv'[x] == AddByte(sv0[x], size * (Count(x, s1, n1 + p, s2, n2, p) - Count(x, s1, a1, s2, a2, p)))
    {
      CoveredStep(x, s1, p, n1);
      if x == n1 {
        AddTwice(sv0[x], size * (Count(x, s1, n1, s2, n2, p) - Count(x, s1, a1, s2, a2, p)), size);
      }
    }
  }

  /** `(*pos2) += size` at the next term of the second progression, which then moves on. */
  lemma BumpSecond(sv0: seq<int>, sv: seq<int>, size: int, s1: nat, s2: nat, p: nat,
                   a1: int, a2: int, n1: int, n2: int)
    requires Advanced(sv0, sv, size, s1, s2, p, a1, a2, n1, n2)
    requires OnProg(n2, s2, p) && n2 < |sv|
    ensures OnProg(n2 + p, s2, p)
    ensures Advanced(sv0, sv[n2 := AddByte(sv[n2], size)], size, s1, s2, p, a1, a2, n1, n2 + p)
  {
    OnProgNext(n2, s2, p);
    var sv' := sv[n2 := AddByte(sv[n2], size)];
    forall x | 0 <= x < |sv'|
      ensures sv'[x] == AddByte(sv0[x], size * (Count(x, s1, n1, s2, n2 + p, p) - Count(x, s1, a1, s2, a2, p)))
    {
      CoveredStep(x, s2, p, n2);
      if x == n2 {
        AddTwice(sv0[x], size * (Count(x, s1, n1, s2, n2, p) - Count(x, s1, a1, s2, a2, p)), size);
      }
    }
  }

  // ---------------------------------------------------------------------------
  // `qsieve_do_sieving`

  /** Both positions are terms, and each is its progression's first term or follows one below `end`. */
  ghost predicate Walking(pos1: int, pos2: int, s1: nat, s2: nat, p: nat, end: int) {
    && p > 0
    && OnProg(pos1, s1, p) && OnProg(pos2, s2, p)
    && (pos1 == s1 || pos1 - p < end)
    && (pos2 == s2 || pos2 - p < end)
  }

  /** One round of the loops of `qsieve_do_sieving`: a hit at `pos1` and one at `pos1 + diff`. */
  method HitBoth(ghost sv0: seq<int>, sv: seq<int>, size: int, s1: nat, s2: nat, p: nat,
                 pos1: int, diff: int, ghost end: int)
    returns (sv': seq<int>, pos1': int)
    requires Advanced(sv0, sv, size, s1, s2, p, s1, s2, pos1, pos1 + diff)
    requires Walking(pos1, pos1 + diff, s1, s2, p, end)
    requires pos1 < end && pos1 + diff < end && end <= |sv|
    ensures pos1' == pos1 + p
    ensures Advanced(sv0, sv', size, s1, s2, p, s1, s2, pos1', pos1' + diff)
    ensures Walking(pos1', pos1' + diff, s1, s2, p, end)
  {
    BumpFirst(sv0, sv, size, s1, s2, p, s1, s2, pos1, pos1 + diff);
    sv' := sv[pos1 := AddByte(sv[pos1], size)];
    BumpSecond(sv0, sv', size, s1, s2, p, s1, s2, pos1 + p, pos1 + diff);
    sv' := sv'[pos1 + diff := AddByte(sv'[pos1 + diff], size)];
    pos1' := pos1 + p;
  }

  /**
   * One prime of `qsieve_do_sieving`: two steps of `p` at a time while both
   * positions stay below `end - 2p`, then single steps while both are below
   * `end`, then whichever of the two is still below `end`.
   */
  method SievePrime(sv0: seq<int>, end: nat, p: nat, size: int, s1: nat, s2: nat) returns (sv: seq<int>)
    requires Bytes(sv0) && end <= |sv0|
    requires 0 < p && s1 < p && s2 < p
    ensures |sv| == |sv0| && Bytes(sv)
    ensures forall x :: 0 <= x < |sv| ==> sv[x] == AddByte(sv0[x], size * (Hits(x, s1, p, end) + Hits(x, s2, p, end)))
    ensures forall x :: end <= x < |sv| ==> sv[x] == sv0[x]
  {
    sv := sv0;
    AdvanceStart(sv0, size, s1, s2, p, s1, s2);
    var pos1: int := s1;
    var diff: int := s2 - s1;
    while end - 2 * p - pos1 > 0
      invariant Advanced(sv0, sv, size, s1, s2, p, s1, s2, pos1, pos1 + diff)
      invariant Walking(pos1, pos1 + diff, s1, s2, p, end)
      decreases end - pos1
    {
      sv, pos1 := HitBoth(sv0, sv, size, s1, s2, p, pos1, diff, end);
      sv, pos1 := HitBoth(sv0, sv, size, s1, s2, p, pos1, diff, end);
    }
    while end - pos1 > 0 && end - pos1 - diff > 0
      invariant Advanced(sv0, sv, size, s1, s2, p, s1, s2, pos1, pos1 + diff)
      invariant Walking(pos1, pos1 + diff, s1, s2, p, end)
      decreases end - pos1
    {
      sv, pos1 := HitBoth(sv0, sv, size, s1, s2, p, pos1, diff, end);
    }
    var pos2 := pos1 + diff;
    ghost var n1, n2 := pos1, pos2;
    if end - pos2 > 0 {
      BumpSecond(sv0, sv, size, s1, s2, p, s1, s2, n1, n2);
      sv := sv[pos2 := AddByte(sv[pos2], size)];
      n2 := n2 + p;
    }
    if end - pos1 > 0 {
      BumpFirst(sv0, sv, size, s1, s2, p, s1, s2, n1, n2);
      sv := sv[pos1 := AddByte(sv[pos1], size)];
      n1 := n1 + p;
    }
    forall x | 0 <= x < |sv|
      ensures sv[x] == AddByte(sv0[x], size * (Hits(x, s1, p, end) + Hits(x, s2, p, end)))
    {
      CoveredAll(x, s1, p, n1, end);
      CoveredAll(x, s2, p, n2, end);
      CountStart(x, s1, s2, p);
    }
    forall x | end <= x < |sv|
      ensures sv[x] == sv0[x]
    {
      AddNothing(sv0[x]);
    }
  }

  /** The primes sieved with from `lo` on have positive `p` and roots below `p`. */
  predicate Sievable(fb: seq<Prime>, soln1: seq<nat>, soln2: seq<nat>, lo: nat) {
    && |soln1| == |fb| && |soln2| == |fb|
    && forall i :: lo <= i < |fb| && soln2[i] != 0 ==> 0 < fb[i].p && soln1[i] < fb[i].p && soln2[i] < fb[i].p
  }

  /** The total weight added at `x` by the primes `lo <= i < hi`, sieving below `n`. */
  function TotalHits(fb: seq<Prime>, soln1: seq<nat>, soln2: seq<nat>, lo: nat, hi: nat, n: int, x: int): int
    requires Sievable(fb, soln1, soln2, lo) && hi <= |fb|
    decreases hi
  {
    if hi <= lo then 0
    else
      TotalHits(fb, soln1, soln2, lo, hi - 1, n, x)
      + (if soln2[hi - 1] == 0 then 0
         else fb[hi - 1].size * (Hits(x, soln1[hi - 1], fb[hi - 1].p, n) + Hits(x, soln2[hi - 1], fb[hi - 1].p, n)))
  }

  /** The total at `x` does not depend on where sieving stops, as long as it stops past `x`. */
  lemma {:induction false} TotalHitsBelow(fb: seq<Prime>, soln1: seq<nat>, soln2: seq<nat>, lo: nat, hi: nat,
                                          n: int, n': int, x: int)
    requires Sievable(fb, soln1, soln2, lo) && hi <= |fb| && x < n && x < n'
    ensures TotalHits(fb, soln1, soln2, lo, hi, n, x) == TotalHits(fb, soln1, soln2, lo, hi, n', x)
    decreases hi
  {
    if hi > lo {
      TotalHitsBelow(fb, soln1, soln2, lo, hi - 1, n, n', x);
    }
  }

  /** Nothing is added at or past where sieving stops. */
  lemma {:induction false} TotalHitsBeyond(fb: seq<Prime>, soln1: seq<nat>, soln2: seq<nat>, lo: nat, hi: nat,
                                           n: int, x: int)
    requires Sievable(fb, soln1, soln2, lo) && hi <= |fb| && x >= n
    ensures TotalHits(fb, soln1, soln2, lo, hi, n, x) == 0
    decreases hi
  {
    if hi > lo {
      TotalHitsBeyond(fb, soln1, soln2, lo, hi - 1, n, x);
    }
  }

  /**
   * `qsieve_do_sieving`: the array of `sieve_size` bytes plus one word is
   * filled, a 255 sentinel is stored at `sieve_size`, and every prime from
   * `small_primes` on that is not a factor of A adds its weight along both
   * progressions below `sieve_size`; nothing is written from the sentinel on.
   */
  method DoSieving(fb: seq<Prime>, soln1: seq<nat>, soln2: seq<nat>, small: nat, sieveSize: nat, fill: int)
    returns (sv: seq<int>)
    requires Sievable(fb, soln1, soln2, small) && 0 <= fill < 256
    ensures |sv| == sieveSize + WordBytes && Bytes(sv)
    ensures sv[sieveSize] == 255
    ensures forall x :: 0 <= x < sieveSize ==> sv[x] == AddByte(fill, TotalHits(fb, soln1, soln2, small, |fb|, sieveSize, x))
    ensures forall x :: sieveSize < x < |sv| ==> sv[x] == fill
  {
    sv := Repeat(fill, sieveSize + WordBytes);
    sv := sv[sieveSize := 255];
    var pind := small;
    while pind < |fb|
      invariant small <= pind && (pind <= |fb| || pind == small)
      invariant |sv| == sieveSize + WordBytes && Bytes(sv) && sv[sieveSize] == 255
      invariant forall x :: 0 <= x < sieveSize ==>
                  sv[x] == AddByte(fill, TotalHits(fb, soln1, soln2, small, if pind <= |fb| then pind else |fb|, sieveSize, x))
      invariant forall x :: sieveSize < x < |sv| ==> sv[x] == fill
    {
      if soln2[pind] != 0 {
        sv := SieveOnce(fb, soln1, soln2, small, pind, sieveSize, fill, sv);
      }
      pind := pind + 1;
    }
  }

  /** One prime of `qsieve_do_sieving` added to the running total. */
  method SieveOnce(fb: seq<Prime>, soln1: seq<nat>, soln2: seq<nat>, small: nat, pind: nat,
                   sieveSize: nat, ghost fill: int, sv0: seq<int>)
    returns (sv: seq<int>)
    requires Sievable(fb, soln1, soln2, small) && small <= pind < |fb| && soln2[pind] != 0
    requires |sv0| == sieveSize + WordBytes && Bytes(sv0)
    requires forall x :: 0 <= x < sieveSize ==> sv0[x] == AddByte(fill, TotalHits(fb, soln1, soln2, small, pind, sieveSize, x))
    ensures |sv| == |sv0| && Bytes(sv)
    ensures forall x :: 0 <= x < sieveSize ==> sv[x] == AddByte(fill, TotalHits(fb, soln1, soln2, small, pind + 1, sieveSize, x))
    ensures forall x :: sieveSize <= x < |sv| ==> sv[x] == sv0[x]
  {
    var p, size := fb[pind].p, fb[pind].size;
    sv := SievePrime(sv0, sieveSize, p, size, soln1[pind], soln2[pind]);
    forall x | 0 <= x < sieveSize
      ensures sv[x] == AddByte(fill, TotalHits(fb, soln1, soln2, small, pind + 1, sieveSize, x))
    {
      AddTwice(fill, TotalHits(fb, soln1, soln2, small, pind, sieveSize, x),
               size * (Hits(x, soln1[pind], p, sieveSize) + Hits(x, soln2[pind], p, sieveSize)));
    }
  }

  // ---------------------------------------------------------------------------
  // `qsieve_do_sieving2`

  /**
   * The sieving state of one prime with roots `s1 <= s2`: the next terms of
   * both progressions, and whether the next hit is on the second.  The hits
   * alternate `s1, s2, s1 + p, s2 + p, ...`.
   */
  datatype Track = Track(n1: int, n2: int, odd: bool)

  function Start(s1: nat, s2: nat): Track {
    Track(s1, s2, false)
  }

  /** `posn1`: the next hit. */
  function Next(t: Track): int {
    if t.odd then t.n2 else t.n1
  }

  /** `posn2`: the gap from the next hit to the one after it. */
  function Gap(t: Track): int {
    if t.odd then t.n1 - t.n2 else t.n2 - t.n1
  }

  /** The state after the next hit is written. */
  function Advance(t: Track, p: nat): Track {
    if t.odd then Track(t.n1, t.n2 + p, false) else Track(t.n1 + p, t.n2, true)
  }

  /** Both next terms are terms, in the alternating order. */
  ghost predicate Valid(t: Track, s1: nat, s2: nat, p: nat) {
    && p > 0
    && OnProg(t.n1, s1, p) && OnProg(t.n2, s2, p)
    && if t.odd then t.n2 < t.n1 <= t.n2 + p else t.n1 <= t.n2 < t.n1 + p
  }

  lemma StartValid(s1: nat, s2: nat, p: nat)
    requires 0 < p && s1 <= s2 < p
    ensures Valid(Start(s1, s2), s1, s2, p)
  {
  }

  /**
   * Writing the next hit: the state stays valid, the hit after it is `gap`
   * further on, and the gap after that is `p - gap`.
   */
  lemma AdvanceStep(sv0: seq<int>, sv: seq<int>, size: int, s1: nat, s2: nat, p: nat, t0: Track, t: Track)
    requires Advanced(sv0, sv, size, s1, s2, p, t0.n1, t0.n2, t.n1, t.n2)
    requires Valid(t, s1, s2, p) && Next(t) < |sv|
    ensures Valid(Advance(t, p), s1, s2, p)
    ensures Next(Advance(t, p)) == Next(t) + Gap(t) && Gap(Advance(t, p)) == p - Gap(t)
    ensures 0 <= Gap(t) <= p
    ensures Advanced(sv0, sv[Next(t) := AddByte(sv[Next(t)], size)], size, s1, s2, p,
                     t0.n1, t0.n2, Advance(t, p).n1, Advance(t, p).n2)
  {
    if t.odd {
      BumpSecond(sv0, sv, size, s1, s2, p, t0.n1, t0.n2, t.n1, t.n2);
    } else {
      BumpFirst(sv0, sv, size, s1, s2, p, t0.n1, t0.n2, t.n1, t.n2);
    }
  }

  /** Each progression's last hit, if any since `t0`, is within `reach`. */
  ghost predicate WrittenWithin(t0: Track, t: Track, p: nat, reach: int) {
    && (t.n1 == t0.n1 || t.n1 - p <= reach)
    && (t.n2 == t0.n2 || t.n2 - p <= reach)
  }

  /** A write at `Next(t)` within `B`, then `Advance`. */
  method HitNext(ghost sv0: seq<int>, sv: seq<int>, B: nat, p: nat, size: int, s1: nat, s2: nat,
                 pos: int, ghost t0: Track, ghost t: Track)
    returns (sv': seq<int>, ghost t': Track)
    requires Advanced(sv0, sv, size, s1, s2, p, t0.n1, t0.n2, t.n1, t.n2)
    requires Valid(t, s1, s2, p) && pos == Next(t) && pos <= B < |sv|
    requires WrittenWithin(t0, t, p, B)
    ensures t' == Advance(t, p) && Valid(t', s1, s2, p)
    ensures Next(t') == Next(t) + Gap(t) && Gap(t') == p - Gap(t) && 0 <= Gap(t) <= p
    ensures Advanced(sv0, sv', size, s1, s2, p, t0.n1, t0.n2, t'.n1, t'.n2)
    ensures WrittenWithin(t0, t', p, B)
    ensures |sv'| == |sv| && forall x :: 0 <= x < |sv| && x != pos ==> sv'[x] == sv[x]
  {
    AdvanceStep(sv0, sv, size, s1, s2, p, t0, t);
    sv' := sv[pos := AddByte(sv[pos], size)];
    t' := Advance(t, p);
  }

  /**
   * One prime below `second_prime` in block `B`: four hits at a time while
   * the fourth stays within the block, then two at a time, then a last one;
   * every hit up to `B` is written, and the next hit and the gap after it
   * are handed on.
   */
  method SmallPrimeBlock(sv0: seq<int>, B: nat, p: nat, size: int, s1: nat, s2: nat,
                         pos0: int, gap0: int, ghost t0: Track)
    returns (sv: seq<int>, pos: int, gap: int, ghost t: Track)
    requires B < |sv0| && Bytes(sv0)
    requires Valid(t0, s1, s2, p) && pos0 == Next(t0) && gap0 == Gap(t0)
    ensures Advanced(sv0, sv, size, s1, s2, p, t0.n1, t0.n2, t.n1, t.n2)
    ensures Valid(t, s1, s2, p) && pos == Next(t) && gap == Gap(t)
    ensures WrittenWithin(t0, t, p, B)
    ensures t.n1 > B && t.n2 > B
    ensures |sv| == |sv0| && Bytes(sv)
    ensures B < pos && 0 <= gap <= p
    ensures (OnProg(pos, s1, p) && OnProg(pos + gap, s2, p)) || (OnProg(pos, s2, p) && OnProg(pos + gap, s1, p))
  {
    sv := sv0;
    t := t0;
    AdvanceStart(sv0, size, s1, s2, p, t0.n1, t0.n2);
    var d1 := gap0;
    var d2 := p - d1;
    pos := pos0;
    var bp := B - 2 * (d1 + d2);
    while pos <= bp
      invariant pos == Next(t) && d1 == Gap(t) && d2 == p - d1
      invariant Valid(t, s1, s2, p) && WrittenWithin(t0, t, p, B)
      invariant Advanced(sv0, sv, size, s1, s2, p, t0.n1, t0.n2, t.n1, t.n2)
      decreases B - pos
    {
      sv, t := HitNext(sv0, sv, B, p, size, s1, s2, pos, t0, t);
      pos := pos + d1;
      sv, t := HitNext(sv0, sv, B, p, size, s1, s2, pos, t0, t);
      pos := pos + d2;
      sv, t := HitNext(sv0, sv, B, p, size, s1, s2, pos, t0, t);
      pos := pos + d1;
      sv, t := HitNext(sv0, sv, B, p, size, s1, s2, pos, t0, t);
      pos := pos + d2;
    }
    bp := B - d1;
    while pos <= bp
      invariant pos == Next(t) && d1 == Gap(t) && d2 == p - d1
      invariant Valid(t, s1, s2, p) && WrittenWithin(t0, t, p, B)
      invariant Advanced(sv0, sv, size, s1, s2, p, t0.n1, t0.n2, t.n1, t.n2)
      decreases B - pos
    {
      sv, t := HitNext(sv0, sv, B, p, size, s1, s2, pos, t0, t);
      pos := pos + d1;
      sv, t := HitNext(sv0, sv, B, p, size, s1, s2, pos, t0, t);
      pos := pos + d2;
    }
    if pos <= B {
      sv, t := HitNext(sv0, sv, B, p, size, s1, s2, pos, t0, t);
      pos := pos + d1;
      gap := d2;
    } else {
      gap := d1;
    }
  }

  /**
   * One prime from `second_prime` on in block `B`: at most two hits, the
   * second only if the first was within the block.  After two hits both
   * progressions have moved on by exactly one term.
   */
  method LargePrimeBlock(sv0: seq<int>, B: nat, p: nat, size: int, s1: nat, s2: nat,
                         pos0: int, gap0: int, ghost t0: Track)
    returns (sv: seq<int>, pos: int, gap: int, ghost t: Track)
    requires B < |sv0| && Bytes(sv0)
    requires Valid(t0, s1, s2, p) && pos0 == Next(t0) && gap0 == Gap(t0)
    ensures Advanced(sv0, sv, size, s1, s2, p, t0.n1, t0.n2, t.n1, t.n2)
    ensures Valid(t, s1, s2, p) && pos == Next(t) && gap == Gap(t)
    ensures WrittenWithin(t0, t, p, B)
    ensures pos > B || (t.n1 == t0.n1 + p && t.n2 == t0.n2 + p)
    ensures |sv| == |sv0| && Bytes(sv)
    ensures pos > B || (pos == pos0 + p && gap == gap0)
    ensures 0 <= gap <= p
    ensures (OnProg(pos, s1, p) && OnProg(pos + gap, s2, p)) || (OnProg(pos, s2, p) && OnProg(pos + gap, s1, p))
    ensures t == t0 || t == Advance(t0, p) || t == Advance(Advance(t0, p), p)
    ensures forall x :: 0 <= x < |sv| && x != pos0 && x != pos0 + gap0 ==> sv[x] == sv0[x]
  {
    sv := sv0;
    t := t0;
    AdvanceStart(sv0, size, s1, s2, p, t0.n1, t0.n2);
    pos := pos0;
    gap := gap0;
    if pos <= B {
      sv, t := HitNext(sv0, sv, B, p, size, s1, s2, pos, t0, t);
      pos := pos + gap;
      if pos <= B {
        sv, t := HitNext(sv0, sv, B, p, size, s1, s2, pos, t0, t);
        pos := pos + p - gap;
      } else {
        gap := p - gap;
      }
    }
  }

  /** The roots of every sieved prime are ordered, as the unsigned difference `soln2 - soln1` needs. */
  predicate Ordered(fb: seq<Prime>, soln1: seq<nat>, soln2: seq<nat>, small: nat) {
    && |soln1| == |fb| && |soln2| == |fb|
    && forall i :: small <= i < |fb| && soln2[i] != 0 ==> soln1[i] <= soln2[i]
  }

  /** The weight added at `x` by primes `lo <= i < hi` in the states `ts`. */
  function Weight(fb: seq<Prime>, soln1: seq<nat>, soln2: seq<nat>, ts: seq<Track>, lo: nat, hi: nat, x: int): int
    requires Sievable(fb, soln1, soln2, lo) && hi <= |fb| && |ts| == |fb|
    decreases hi
  {
    if hi <= lo then 0
    else
      Weight(fb, soln1, soln2, ts, lo, hi - 1, x)
      + (if soln2[hi - 1] == 0 then 0
         else fb[hi - 1].size * Count(x, soln1[hi - 1], ts[hi - 1].n1, soln2[hi - 1], ts[hi - 1].n2, fb[hi - 1].p))
  }

  /** Moving one prime to a new state changes the weight by that prime's new hits. */
  lemma {:induction false} WeightSet(fb: seq<Prime>, soln1: seq<nat>, soln2: seq<nat>, ts: seq<Track>,
                                     lo: nat, hi: nat, i: nat, t: Track, x: int)
    requires Sievable(fb, soln1, soln2, lo) && hi <= |fb| && |ts| == |fb|
    requires lo <= i < hi && soln2[i] != 0
    ensures Weight(fb, soln1, soln2, ts[i := t], lo, hi, x)
            == Weight(fb, soln1, soln2, ts, lo, hi, x)
               + fb[i].size * (Count(x, soln1[i], t.n1, soln2[i], t.n2, fb[i].p)
                               - Count(x, soln1[i], ts[i].n1, soln2[i], ts[i].n2, fb[i].p))
    decreases hi
  {
    if hi - 1 > i {
      WeightSet(fb, soln1, soln2, ts, lo, hi - 1, i, t, x);
    } else {
      WeightSame(fb, soln1, soln2, ts, ts[i := t], lo, hi - 1, x);
    }
  }

  /** The weight of primes below `hi` depends only on their own states. */
  lemma {:induction false} WeightSame(fb: seq<Prime>, soln1: seq<nat>, soln2: seq<nat>, ts: seq<Track>, us: seq<Track>,
                                      lo: nat, hi: nat, x: int)
    requires Sievable(fb, soln1, soln2, lo) && hi <= |fb| && |ts| == |fb| && |us| == |fb|
    requires forall i :: lo <= i < hi ==> ts[i] == us[i]
    ensures Weight(fb, soln1, soln2, ts, lo, hi, x) == Weight(fb, soln1, soln2, us, lo, hi, x)
    decreases hi
  {
    if hi > lo {
      WeightSame(fb, soln1, soln2, ts, us, lo, hi - 1, x);
    }
  }

  /** In the start states nothing has been added. */
  lemma {:induction false} WeightZero(fb: seq<Prime>, soln1: seq<nat>, soln2: seq<nat>, ts: seq<Track>, lo: nat, hi: nat, x: int)
    requires Sievable(fb, soln1, soln2, lo) && hi <= |fb| && |ts| == |fb|
    requires forall i :: 0 <= i < |ts| ==> ts[i] == Start(soln1[i], soln2[i])
    ensures Weight(fb, soln1, soln2, ts, lo, hi, x) == 0
    decreases hi
  {
    if hi > lo {
      WeightZero(fb, soln1, soln2, ts, lo, hi - 1, x);
    }
  }

  /** When every prime's states have passed `n` exactly, the weight is the full sieve below `n`. */
  lemma {:induction false} WeightAll(fb: seq<Prime>, soln1: seq<nat>, soln2: seq<nat>, ts: seq<Track>,
                                     lo: nat, hi: nat, n: int, x: int)
    requires Sievable(fb, soln1, soln2, lo) && hi <= |fb| && |ts| == |fb|
    requires forall i :: lo <= i < hi && soln2[i] != 0 ==>
               Valid(ts[i], soln1[i], soln2[i], fb[i].p)
               && ts[i].n1 >= n && ts[i].n2 >= n
               && WrittenWithin(Start(soln1[i], soln2[i]), ts[i], fb[i].p, n - 1)
    ensures Weight(fb, soln1, soln2, ts, lo, hi, x) == TotalHits(fb, soln1, soln2, lo, hi, n, x)
    decreases hi
  {
    if hi > lo {
      WeightAll(fb, soln1, soln2, ts, lo, hi - 1, n, x);
      var i := hi - 1;
      if soln2[i] != 0 {
        CoveredAll(x, soln1[i], fb[i].p, ts[i].n1, n);
        CoveredAll(x, soln2[i], fb[i].p, ts[i].n2, n);
      }
    }
  }

  /** The last position written once `b` blocks are done: `b * BLOCK_SIZE`, or none. */
  function Reach(b: nat, blockSize: nat): int {
    if b == 0 then -1 else b * blockSize
  }

  /**
   * The state of prime `i` after the blocks up to `reach`: valid, every hit
   * written is within `reach`, and for a small prime, or a large one longer
   * than a block, every hit within `reach` is written.
   */
  ghost predicate Progress(fb: seq<Prime>, soln1: seq<nat>, soln2: seq<nat>, ts: seq<Track>, i: nat,
                           second: nat, blockSize: nat, reach: int)
    requires |soln1| == |fb| && |soln2| == |fb| && |ts| == |fb| && i < |fb|
  {
    var s1, s2, p := soln1[i], soln2[i], fb[i].p;
    && Valid(ts[i], s1, s2, p)
    && WrittenWithin(Start(s1, s2), ts[i], p, reach)
    && (i < second || p > blockSize ==> ts[i].n1 > reach && ts[i].n2 > reach)
  }

  /**
   * The state of `qsieve_do_sieving2` once every prime has written its hits up
   * to `reach`: the array holds the fill plus the weights written so far, and
   * `posn1`, `posn2` let each prime resume.
   */
  ghost predicate SievedTo(fb: seq<Prime>, soln1: seq<nat>, soln2: seq<nat>, small: nat, second: nat,
                           sieveSize: nat, blockSize: nat, fill: int,
                           sv: seq<int>, posn1: seq<int>, posn2: seq<int>, ts: seq<Track>, reach: int)
    requires Sievable(fb, soln1, soln2, small)
  {
    && |sv| == sieveSize + WordBytes && Bytes(sv)
    && Resumable(fb, ts, posn1, posn2)
    && (forall x :: 0 <= x < |sv| ==> sv[x] == AddByte(fill, Weight(fb, soln1, soln2, ts, small, |fb|, x)))
    && (forall i :: small <= i < |fb| && soln2[i] != 0 ==> Progress(fb, soln1, soln2, ts, i, second, blockSize, reach))
  }

  /** `posn1` and `posn2` hold each prime's next hit and the gap after it. */
  ghost predicate Resumable(fb: seq<Prime>, ts: seq<Track>, posn1: seq<int>, posn2: seq<int>) {
    && |ts| == |fb| && |posn1| == |fb| && |posn2| == |fb|
    && forall i :: 0 <= i < |fb| ==> posn1[i] == Next(ts[i]) && posn2[i] == Gap(ts[i])
  }

  /**
   * `qsieve_do_sieving2`: the array is filled, then for each block
   * `b = 1 .. sieve_size / BLOCK_SIZE` every sieving prime writes its hits up
   * to `b * BLOCK_SIZE`, the large ones at most two per block.  When the large
   * primes exceed the block size, the result is the sieve of every prime over
   * the positions up to the last block boundary, that boundary included.
   */
  method DoSieving2(fb: seq<Prime>, soln1: seq<nat>, soln2: seq<nat>, small: nat, second: nat,
                    sieveSize: nat, blockSize: nat, fill: int)
    returns (sv: seq<int>, posn1: seq<int>, posn2: seq<int>)
    requires Sievable(fb, soln1, soln2, small) && Ordered(fb, soln1, soln2, small)
    requires small <= second <= |fb| && blockSize > 0 && 0 <= fill < 256
    ensures |sv| == sieveSize + WordBytes && Bytes(sv)
    ensures (forall i :: second <= i < |fb| && soln2[i] != 0 ==> fb[i].p > blockSize) ==>
              forall x :: 0 <= x < |sv| ==>
                sv[x] == AddByte(fill, TotalHits(fb, soln1, soln2, small, |fb|, Reach(sieveSize / blockSize, blockSize) + 1, x))
  {
    ghost var ts;
    sv, posn1, posn2, ts := StartSieving2(fb, soln1, soln2, small, second, sieveSize, blockSize, fill);
    var blocks := sieveSize / blockSize;
    var b := 1;
    while b <= blocks
      invariant 1 <= b <= blocks + 1
      invariant SievedTo(fb, soln1, soln2, small, second, sieveSize, blockSize, fill, sv, posn1, posn2, ts, Reach(b - 1, blockSize))
    {
      BlockWithin(b, blockSize, sieveSize);
      sv, posn1, posn2, ts := SieveBlock(fb, soln1, soln2, small, second, sieveSize, blockSize, fill, b, sv, posn1, posn2, ts);
      b := b + 1;
    }
    FinishSieving2(fb, soln1, soln2, small, second, sieveSize, blockSize, fill, sv, posn1, posn2, ts, Reach(blocks, blockSize));
  }

  /** Block `b` of `sieve_size / BLOCK_SIZE` ends inside the array. */
  lemma BlockWithin(b: nat, blockSize: nat, sieveSize: nat)
    requires blockSize > 0 && b <= sieveSize / blockSize
    ensures b * blockSize <= sieveSize
  {
    assert b * blockSize <= (sieveSize / blockSize) * blockSize;
  }

  /** The fill and the initial state of every prime: its first root, and the gap `soln2 - soln1`. */
  method StartSieving2(fb: seq<Prime>, soln1: seq<nat>, soln2: seq<nat>, small: nat, second: nat,
                       sieveSize: nat, blockSize: nat, fill: int)
    returns (sv: seq<int>, posn1: seq<int>, posn2: seq<int>, ghost ts: seq<Track>)
    requires Sievable(fb, soln1, soln2, small) && Ordered(fb, soln1, soln2, small) && 0 <= fill < 256
    ensures |sv| == sieveSize + WordBytes && Bytes(sv)
    ensures forall x :: 0 <= x < |sv| ==> sv[x] == fill
    ensures SievedTo(fb, soln1, soln2, small, second, sieveSize, blockSize, fill, sv, posn1, posn2, ts, Reach(0, blockSize))
    ensures forall i :: 0 <= i < |fb| ==> posn1[i] == soln1[i] && posn2[i] == soln2[i] as int - soln1[i]
  {
    sv := Repeat(fill, sieveSize + WordBytes);
    ts := Starts(soln1, soln2);
    posn1 := soln1;
    posn2 := Gaps(soln1, soln2);
    forall x | 0 <= x < |sv|
      ensures sv[x] == AddByte(fill, Weight(fb, soln1, soln2, ts, small, |fb|, x))
    {
      WeightZero(fb, soln1, soln2, ts, small, |fb|, x);
    }
    forall i | small <= i < |fb| && soln2[i] != 0
      ensures Progress(fb, soln1, soln2, ts, i, second, blockSize, Reach(0, blockSize))
    {
      StartValid(soln1[i], soln2[i], fb[i].p);
    }
  }

  /** The starting state of every prime. */
  ghost function Starts(s1: seq<nat>, s2: seq<nat>): (ts: seq<Track>)
    requires |s1| == |s2|
    ensures |ts| == |s1|
    ensures forall i :: 0 <= i < |s1| ==> ts[i] == Start(s1[i], s2[i])
  {
    if |s1| == 0 then [] else Starts(s1[..|s1| - 1], s2[..|s2| - 1]) + [Start(s1[|s1| - 1], s2[|s2| - 1])]
  }

  /** The initial `posn2`: each prime's second root minus its first. */
  function Gaps(s1: seq<nat>, s2: seq<nat>): (g: seq<int>)
    requires |s1| == |s2|
    ensures |g| == |s1|
    ensures forall i :: 0 <= i < |s1| ==> g[i] == s2[i] as int - s1[i]
  {
    if |s1| == 0 then [] else Gaps(s1[..|s1| - 1], s2[..|s2| - 1]) + [s2[|s2| - 1] as int - s1[|s1| - 1]]
  }

  /** Once every prime has caught up with `reach`, the sieve is complete up to `reach`. */
  lemma FinishSieving2(fb: seq<Prime>, soln1: seq<nat>, soln2: seq<nat>, small: nat, second: nat,
                       sieveSize: nat, blockSize: nat, fill: int,
                       sv: seq<int>, posn1: seq<int>, posn2: seq<int>, ts: seq<Track>, reach: int)
    requires Sievable(fb, soln1, soln2, small)
    requires SievedTo(fb, soln1, soln2, small, second, sieveSize, blockSize, fill, sv, posn1, posn2, ts, reach)
    ensures (forall i :: second <= i < |fb| && soln2[i] != 0 ==> fb[i].p > blockSize) ==>
              forall x :: 0 <= x < |sv| ==> sv[x] == AddByte(fill, TotalHits(fb, soln1, soln2, small, |fb|, reach + 1, x))
  {
    if forall i :: second <= i < |fb| && soln2[i] != 0 ==> fb[i].p > blockSize {
      forall x | 0 <= x < |sv|
        ensures sv[x] == AddByte(fill, TotalHits(fb, soln1, soln2, small, |fb|, reach + 1, x))
      {
        WeightAll(fb, soln1, soln2, ts, small, |fb|, reach + 1, x);
      }
    }
  }

  /** Block `b` of `qsieve_do_sieving2`: the small primes, then the large ones. */
  method SieveBlock(fb: seq<Prime>, soln1: seq<nat>, soln2: seq<nat>, small: nat, second: nat,
                    sieveSize: nat, blockSize: nat, ghost fill: int, b: nat,
                    sv0: seq<int>, posn10: seq<int>, posn20: seq<int>, ghost ts0: seq<Track>)
    returns (sv: seq<int>, posn1: seq<int>, posn2: seq<int>, ghost ts: seq<Track>)
    requires Sievable(fb, soln1, soln2, small) && Ordered(fb, soln1, soln2, small)
    requires small <= second <= |fb| && blockSize > 0 && 1 <= b && b * blockSize <= sieveSize
    requires SievedTo(fb, soln1, soln2, small, second, sieveSize, blockSize, fill, sv0, posn10, posn20, ts0, Reach(b - 1, blockSize))
    ensures SievedTo(fb, soln1, soln2, small, second, sieveSize, blockSize, fill, sv, posn1, posn2, ts, Reach(b, blockSize))
    ensures |sv| == sieveSize + WordBytes && Bytes(sv) && |posn1| == |fb| && |posn2| == |fb|
    ensures forall i :: small <= i < |fb| && soln2[i] != 0 && (i < second || fb[i].p > blockSize) ==>
              posn1[i] > b * blockSize
    ensures forall i :: 0 <= i < |fb| && (i < small || soln2[i] == 0) ==> posn1[i] == posn10[i] && posn2[i] == posn20[i]
  {
    sv, posn1, posn2, ts := sv0, posn10, posn20, ts0;
    var pind := small;
    while pind < |fb|
      invariant small <= pind <= |fb|
      invariant |sv| == sieveSize + WordBytes && Bytes(sv)
      invariant Resumable(fb, ts, posn1, posn2)
      invariant forall x :: 0 <= x < |sv| ==> sv[x] == AddByte(fill, Weight(fb, soln1, soln2, ts, small, |fb|, x))
      invariant forall i :: small <= i < pind && soln2[i] != 0 ==>
                  Progress(fb, soln1, soln2, ts, i, second, blockSize, Reach(b, blockSize))
      invariant forall i :: pind <= i < |fb| ==> ts[i] == ts0[i]
      invariant forall i :: 0 <= i < |fb| && (i < small || soln2[i] == 0) ==> ts[i] == ts0[i]
    {
      if soln2[pind] != 0 {
        assert Progress(fb, soln1, soln2, ts0, pind, second, blockSize, Reach(b - 1, blockSize));
        ghost var before := ts;
        sv, posn1, posn2, ts := SieveOne(fb, soln1, soln2, small, second, blockSize, fill, b, pind, sv, posn1, posn2, ts);
        assert forall i :: small <= i < pind && soln2[i] != 0 ==>
          Progress(fb, soln1, soln2, before, i, second, blockSize, Reach(b, blockSize));
      }
      pind := pind + 1;
    }
  }

  /** One prime of block `b`, its state stored back. */
  method SieveOne(fb: seq<Prime>, soln1: seq<nat>, soln2: seq<nat>, small: nat, second: nat,
                  blockSize: nat, ghost fill: int, b: nat, pind: nat,
                  sv0: seq<int>, posn10: seq<int>, posn20: seq<int>, ghost ts0: seq<Track>)
    returns (sv: seq<int>, posn1: seq<int>, posn2: seq<int>, ghost ts: seq<Track>)
    requires Sievable(fb, soln1, soln2, small) && Ordered(fb, soln1, soln2, small)
    requires small <= pind < |fb| && soln2[pind] != 0 && blockSize > 0 && 1 <= b
    requires b * blockSize < |sv0| && Bytes(sv0)
    requires Resumable(fb, ts0, posn10, posn20)
    requires forall x :: 0 <= x < |sv0| ==> sv0[x] == AddByte(fill, Weight(fb, soln1, soln2, ts0, small, |fb|, x))
    requires Progress(fb, soln1, soln2, ts0, pind, second, blockSize, Reach(b - 1, blockSize))
    ensures |sv| == |sv0| && Bytes(sv)
    ensures Resumable(fb, ts, posn1, posn2)
    ensures forall x :: 0 <= x < |sv| ==> sv[x] == AddByte(fill, Weight(fb, soln1, soln2, ts, small, |fb|, x))
    ensures Progress(fb, soln1, soln2, ts, pind, second, blockSize, Reach(b, blockSize))
    ensures ts == ts0[pind := ts[pind]]
  {
    var B := b * blockSize;
    var p, size, s1, s2 := fb[pind].p, fb[pind].size, soln1[pind], soln2[pind];
    ghost var t0 := ts0[pind];
    var pos, gap;
    ghost var t;
    if pind < second {
      sv, pos, gap, t := SmallPrimeBlock(sv0, B, p, size, s1, s2, posn10[pind], posn20[pind], t0);
    } else {
      sv, pos, gap, t := LargePrimeBlock(sv0, B, p, size, s1, s2, posn10[pind], posn20[pind], t0);
      if p > blockSize {
        LargeCatchesUp(t0, t, p, blockSize, b);
      }
    }
    posn1, posn2 := posn10[pind := pos], posn20[pind := gap];
    ts := ts0[pind := t];
    Reweigh(fb, soln1, soln2, small, fill, pind, sv0, sv, ts0, t);
  }

  /** The writes of one prime move the array from the old weights to the new ones. */
  lemma {:induction false} Reweigh(fb: seq<Prime>, soln1: seq<nat>, soln2: seq<nat>, small: nat, fill: int, pind: nat,
                sv0: seq<int>, sv: seq<int>, ts0: seq<Track>, t: Track)
    requires Sievable(fb, soln1, soln2, small) && |ts0| == |fb|
    requires small <= pind < |fb| && soln2[pind] != 0
    requires Advanced(sv0, sv, fb[pind].size, soln1[pind], soln2[pind], fb[pind].p, ts0[pind].n1, ts0[pind].n2, t.n1, t.n2)
    requires forall x :: 0 <= x < |sv0| ==> sv0[x] == AddByte(fill, Weight(fb, soln1, soln2, ts0, small, |fb|, x))
    ensures forall x :: 0 <= x < |sv| ==> sv[x] == AddByte(fill, Weight(fb, soln1, soln2, ts0[pind := t], small, |fb|, x))
  {
    var p, size, s1, s2, t0 := fb[pind].p, fb[pind].size, soln1[pind], soln2[pind], ts0[pind];
    forall x | 0 <= x < |sv|
      ensures sv[x] == AddByte(fill, Weight(fb, soln1, soln2, ts0[pind := t], small, |fb|, x))
    {
      WeightSet(fb, soln1, soln2, ts0, small, |fb|, pind, t, x);
      AddTwice(fill, Weight(fb, soln1, soln2, ts0, small, |fb|, x),
               size * (Count(x, s1, t.n1, s2, t.n2, p) - Count(x, s1, t0.n1, s2, t0.n2, p)));
    }
  }

  /**
   * A prime longer than the block has at most one term of each progression
   * in the block, so two hits per block leave none behind.
   */
  lemma LargeCatchesUp(t0: Track, t: Track, p: nat, blockSize: nat, b: nat)
    requires 1 <= b && blockSize < p
    requires t0.n1 > Reach(b - 1, blockSize) && t0.n2 > Reach(b - 1, blockSize)
    requires (Next(t) > b * blockSize && (if t.odd then t.n2 < t.n1 else t.n1 <= t.n2))
             || (t.n1 == t0.n1 + p && t.n2 == t0.n2 + p)
    ensures t.n1 > Reach(b, blockSize) && t.n2 > Reach(b, blockSize)
  {
    if b > 1 {
      assert b * blockSize == (b - 1) * blockSize + blockSize;
    }
  }

  /**
   * The two sieving routines agree on every position below `sieve_size` up
   * to the last block boundary, when the large primes exceed the block size.
   */
  lemma SievesAgree(fb: seq<Prime>, soln1: seq<nat>, soln2: seq<nat>, small: nat, second: nat,
                    sieveSize: nat, blockSize: nat, fill: int, sv1: seq<int>, sv2: seq<int>, x: int)
    requires Sievable(fb, soln1, soln2, small) && blockSize > 0
    requires |sv1| == |sv2| == sieveSize + WordBytes
    requires forall y :: 0 <= y < sieveSize ==> sv1[y] == AddByte(fill, TotalHits(fb, soln1, soln2, small, |fb|, sieveSize, y))
    requires forall y :: 0 <= y < |sv2| ==>
               sv2[y] == AddByte(fill, TotalHits(fb, soln1, soln2, small, |fb|, Reach(sieveSize / blockSize, blockSize) + 1, y))
    requires 0 <= x < sieveSize && x <= Reach(sieveSize / blockSize, blockSize)
    ensures sv1[x] == sv2[x]
  {
    TotalHitsBelow(fb, soln1, soln2, small, |fb|, sieveSize, Reach(sieveSize / blockSize, blockSize) + 1, x);
  }

  // ---------------------------------------------------------------------------
  // `qsieve_evaluate_sieve`

  /** Word `j` has a byte with one of its top two bits set: `sieve2[j] & 0xC0C0C0C0C0C0C0C0` is nonzero. */
  predicate WordHigh(sv: seq<int>, j: nat)
    requires WordBytes * (j + 1) <= |sv|
  {
    exists k :: WordBytes * j <= k < WordBytes * (j + 1) && sv[k] >= 64
  }

  /**
   * The skip stops inside the array: it can only run past word
   * `sieve_size / 8 - 1`, and only when that word has no high byte, and then
   * word `sieve_size / 8` must stop it.  The 255 sentinel of
   * `qsieve_do_sieving` guarantees this.
   */
  predicate SkipStops(sv: seq<int>, sieveSize: nat)
    requires sieveSize + WordBytes <= |sv|
  {
    var W := sieveSize / WordBytes;
    W == 0 || WordHigh(sv, W - 1) || WordHigh(sv, W)
  }

  /**
   * The bytes the byte loop looks at: those of a full word that has a high
   * byte, and those of the trailing partial word when the skip ran into it,
   * which it does exactly when the last full word has no high byte.
   */
  predicate Examined(sv: seq<int>, sieveSize: nat, i: nat)
    requires sieveSize + WordBytes <= |sv| && i < sieveSize
  {
    var W := sieveSize / WordBytes;
    if i < WordBytes * W then WordHigh(sv, i / WordBytes) else W > 0 && !WordHigh(sv, W - 1)
  }

  /** The candidates among the bytes below `n`. */
  ghost predicate CandsBelow(sv: seq<int>, sieveSize: nat, b: int, n: nat, cands: seq<nat>)
    requires sieveSize + WordBytes <= |sv|
  {
    && (forall i: nat :: i in cands <==> i < n && i < sieveSize && Examined(sv, sieveSize, i) && sv[i] > b)
    && (forall a, c :: 0 <= a < c < |cands| ==> cands[a] < cands[c])
    && (forall a :: 0 <= a < |cands| ==> cands[a] < n)
  }

  /**
   * The positions handed to `qsieve_evaluate_candidate`, in increasing order:
   * the examined bytes that exceed the threshold `bits`, which the C stores in
   * an `unsigned char`.
   */
  method EvaluateSieve(sv: seq<int>, sieveSize: nat, bits: int) returns (cands: seq<nat>)
    requires sieveSize + WordBytes <= |sv| && Bytes(sv)
    requires SkipStops(sv, sieveSize)
    ensures forall i: nat :: i in cands <==> i < sieveSize && Examined(sv, sieveSize, i) && sv[i] > bits % 256
    ensures forall a, c :: 0 <= a < c < |cands| ==> cands[a] < cands[c]
  {
    var b := bits % 256;
    cands := [];
    var words := sieveSize / WordBytes;
    var j := 0;
    while j < words
      invariant 0 <= j <= words + 1 && WordBytes * words <= sieveSize
      invariant 0 < j <= words ==> WordHigh(sv, j - 1)
      invariant CandsBelow(sv, sieveSize, b, WordBytes * j, cands)
    {
      var j0 := j;
      j := SkipWords(sv, sieveSize, j0);
      ghost var cands0 := cands;
      cands := ScanWord(sv, sieveSize, b, j, cands);
      ScanStep(sv, sieveSize, b, j0, j, cands0, cands);
      j := j + 1;
    }
    EvaluateDone(sv, sieveSize, b, j, cands);
  }

  /** The skip at lines 398-404: on to the next word with a high byte. */
  method SkipWords(sv: seq<int>, sieveSize: nat, j0: nat) returns (j: nat)
    requires sieveSize + WordBytes <= |sv| && SkipStops(sv, sieveSize)
    requires j0 < sieveSize / WordBytes
    requires 0 < j0 ==> WordHigh(sv, j0 - 1)
    ensures j0 <= j <= sieveSize / WordBytes && WordHigh(sv, j)
    ensures forall k :: j0 <= k < j ==> !WordHigh(sv, k)
  {
    var words := sieveSize / WordBytes;
    SentinelWord(sv, sieveSize);
    j := j0;
    while !WordHigh(sv, j)
      invariant j0 <= j <= words
      invariant forall k :: j0 <= k < j ==> !WordHigh(sv, k)
      decreases words - j
    {
      j := j + 1;
    }
  }

  /** The byte loop at lines 406-416 over word `j`. */
  method ScanWord(sv: seq<int>, sieveSize: nat, b: int, j: nat, cands0: seq<nat>) returns (cands: seq<nat>)
    requires sieveSize + WordBytes <= |sv| && j <= sieveSize / WordBytes
    ensures forall k: nat :: k in cands <==> k in cands0 || (j * WordBytes <= k < (j + 1) * WordBytes && k < sieveSize && sv[k] > b)
    ensures forall a :: |cands0| <= a < |cands| ==> j * WordBytes <= cands[a]
    ensures forall a, c :: |cands0| <= a < c < |cands| ==> cands[a] < cands[c]
    ensures |cands0| <= |cands| && forall a :: 0 <= a < |cands0| ==> cands[a] == cands0[a]
    ensures forall a :: |cands0| <= a < |cands| ==> cands[a] < (j + 1) * WordBytes
  {
    cands := cands0;
    var i := j * WordBytes;
    while i < (j + 1) * WordBytes && i < sieveSize
      invariant j * WordBytes <= i <= (j + 1) * WordBytes && i <= sieveSize
      invariant forall k: nat :: k in cands <==> k in cands0 || (j * WordBytes <= k < i && sv[k] > b)
      invariant |cands0| <= |cands| && forall a :: 0 <= a < |cands0| ==> cands[a] == cands0[a]
      invariant forall a :: |cands0| <= a < |cands| ==> j * WordBytes <= cands[a] < i
      invariant forall a, c :: |cands0| <= a < c < |cands| ==> cands[a] < cands[c]
    {
      if sv[i] > b {
        cands := cands + [i];
      }
      i := i + 1;
    }
  }

  /** Skipping, then scanning word `j`, extends the candidates to the end of word `j`. */
  lemma ScanStep(sv: seq<int>, sieveSize: nat, b: int, j0: nat, j: nat, cands0: seq<nat>, cands: seq<nat>)
    requires sieveSize + WordBytes <= |sv|
    requires j0 < sieveSize / WordBytes && j0 <= j <= sieveSize / WordBytes
    requires forall k :: j0 <= k < j ==> !WordHigh(sv, k)
    requires WordHigh(sv, j)
    requires CandsBelow(sv, sieveSize, b, WordBytes * j0, cands0)
    requires forall k: nat :: k in cands <==> k in cands0 || (j * WordBytes <= k < (j + 1) * WordBytes && k < sieveSize && sv[k] > b)
    requires forall a :: |cands0| <= a < |cands| ==> j * WordBytes <= cands[a]
    requires forall a, c :: |cands0| <= a < c < |cands| ==> cands[a] < cands[c]
    requires |cands0| <= |cands| && forall a :: 0 <= a < |cands0| ==> cands[a] == cands0[a]
    requires forall a :: |cands0| <= a < |cands| ==> cands[a] < (j + 1) * WordBytes
    ensures CandsBelow(sv, sieveSize, b, WordBytes * (j + 1), cands)
  {
    SkippedUnexamined(sv, sieveSize, j0, j);
    forall i: nat | j * WordBytes <= i < (j + 1) * WordBytes && i < sieveSize
      ensures Examined(sv, sieveSize, i)
    {
      WordExamined(sv, sieveSize, j0, j, i);
    }
  }

  /** Leaving the loop at the last full word, after one with a high byte, examines nothing more. */
  lemma EvaluateDone(sv: seq<int>, sieveSize: nat, b: int, j: nat, cands: seq<nat>)
    requires sieveSize + WordBytes <= |sv|
    requires sieveSize / WordBytes <= j <= sieveSize / WordBytes + 1
    requires 0 < j <= sieveSize / WordBytes ==> WordHigh(sv, j - 1)
    requires CandsBelow(sv, sieveSize, b, WordBytes * j, cands)
    ensures forall i: nat :: i in cands <==> i < sieveSize && Examined(sv, sieveSize, i) && sv[i] > b
  {
  }

  /** While the skip is short of the last full word, it cannot run past the word after it. */
  lemma SentinelWord(sv: seq<int>, sieveSize: nat)
    requires sieveSize + WordBytes <= |sv| && SkipStops(sv, sieveSize)
    ensures var W := sieveSize / WordBytes; W > 0 && !WordHigh(sv, W - 1) ==> WordHigh(sv, W)
  {
  }

  /** The words the skip passed hold no examined byte. */
  lemma SkippedUnexamined(sv: seq<int>, sieveSize: nat, j0: nat, j: nat)
    requires sieveSize + WordBytes <= |sv| && j0 <= j <= sieveSize / WordBytes
    requires forall k :: j0 <= k < j ==> !WordHigh(sv, k)
    ensures forall i: nat :: WordBytes * j0 <= i < WordBytes * j && i < sieveSize ==> !Examined(sv, sieveSize, i)
  {
    forall i: nat | WordBytes * j0 <= i < WordBytes * j && i < sieveSize
      ensures !Examined(sv, sieveSize, i)
    {
      assert j0 <= i / WordBytes < j;
    }
  }

  /**
   * Every byte of the word the skip stopped at is examined: it has a high
   * byte, or it is the trailing word reached past a last full word without one.
   */
  lemma WordExamined(sv: seq<int>, sieveSize: nat, j0: nat, j: nat, i: nat)
    requires sieveSize + WordBytes <= |sv|
    requires j0 < sieveSize / WordBytes && j0 <= j <= sieveSize / WordBytes
    requires forall k :: j0 <= k < j ==> !WordHigh(sv, k)
    requires WordHigh(sv, j)
    requires j * WordBytes <= i < (j + 1) * WordBytes && i < sieveSize
    ensures Examined(sv, sieveSize, i)
  {
    var W := sieveSize / WordBytes;
    if j < W {
      assert i / WordBytes == j;
    } else {
      assert !WordHigh(sv, W - 1);
    }
  }

  /** `qsieve_do_sieving` leaves a sieve the skip stops in: the 255 sits in word `sieve_size / 8`. */
  lemma SentinelStops(sv: seq<int>, sieveSize: nat)
    requires sieveSize + WordBytes <= |sv| && sv[sieveSize] == 255
    ensures SkipStops(sv, sieveSize)
  {
  }

  /**
   * With a threshold of 63 or more and a sieve of whole words the skip loses
   * nothing: the candidates are exactly the bytes above the threshold.
   */
  lemma SkipLosesNothing(sv: seq<int>, sieveSize: nat, bits: int, i: nat)
    requires sieveSize + WordBytes <= |sv| && sieveSize % WordBytes == 0
    requires bits % 256 >= 63 && i < sieveSize
    ensures Examined(sv, sieveSize, i) || sv[i] <= bits % 256
  {
  }

  /**
   * Below 63 the skip can lose candidates: a word of bytes all below 64 is
   * never examined, even when a byte in it exceeds the threshold.
   */
  lemma SkipLosesSmallThreshold()
    ensures var sv := [0, 0, 0, 0, 0, 0, 0, 10] + [64, 0, 0, 0, 0, 0, 0, 0] + [255, 0, 0, 0, 0, 0, 0, 0];
            !Examined(sv, 16, 7) && sv[7] > 5
  {
  }

  /** The trailing partial word is examined when the last full word has no high byte. */
  lemma PartialWordExamined()
    ensures var sv := [0, 0, 0, 0, 0, 0, 0, 0] + [200, 0, 0, 0, 255, 0, 0, 0] + [0, 0, 0, 0];
            Examined(sv, 12, 8) && sv[8] > 191
  {
  }
}

=== FILE: threaded.dfy ===
/**
 * The threaded driver `_fmpz_mpoly_mul_heap_threaded` and its worker.
 *
 * The `len2 * len3` product pairs are cut into `D = 4 * nthreads` divisions.
 * Division `d` is placed by a search for the score
 * `(d + 1)^2 * len2 * len3 / D^2`, which gives a per-row boundary `line[d]`;
 * division `d > 0` covers the columns `line[d][i] <= j < line[d - 1][i]` of
 * row `i`, and division 0 covers `line[0][i] <= j < len3`.  Workers claim
 * divisions by decrementing a shared counter and run the heap kernel on each;
 * the outputs are then joined from division `D - 1` down to division 0.
 * Threads are not modelled: one worker claims every division in turn, which is
 * the order in which any set of workers claims them.
 */
module Threaded {
  import opened Wrappers
  import opened Monomials
  import opened Products
  import opened Accumulator
  import opened HeapKernel
  import opened Search

  /** The score division `d` of `D` is placed at: the cut sizes grow quadratically. */
  function Cut(d: nat, D: nat, len2: nat, len3: nat): nat
    requires D > 0
  {
    (d + 1) * (d + 1) * len2 * len3 / (D * D)
  }

  /** Cuts do not decrease, and the last one is the number of pairs. */
  lemma CutsGrow(d: nat, d': nat, D: nat, len2: nat, len3: nat)
    requires 0 < D && d <= d'
    ensures Cut(d, D, len2, len3) <= Cut(d', D, len2, len3)
    ensures Cut(D - 1, D, len2, len3) == len2 * len3
  {
    CutsMonotone(d, d', D, len2, len3);
    CutLast(D, len2, len3);
  }

  lemma CutsMonotone(d: nat, d': nat, D: nat, len2: nat, len3: nat)
    requires 0 < D && d <= d'
    ensures Cut(d, D, len2, len3) <= Cut(d', D, len2, len3)
  {
    var lam := len2 * len3;
    var a, b := (d + 1) * (d + 1), (d' + 1) * (d' + 1);
    assert a <= b by {
      MulLe(d + 1, d' + 1, d + 1);
      MulLe(d + 1, d' + 1, d' + 1);
    }
    MulLe(a, b, lam);
    Assoc(a, len2, len3);
    Assoc(b, len2, len3);
    DivLe(a * lam, b * lam, D * D);
  }

  lemma CutLast(D: nat, len2: nat, len3: nat)
    requires 0 < D
    ensures Cut(D - 1, D, len2, len3) == len2 * len3
  {
    Assoc(D * D, len2, len3);
    MulDivCancel(len2 * len3, D * D);
  }

  lemma Assoc(a: nat, b: nat, c: nat)
    ensures a * b * c == a * (b * c)
  {
  }

  lemma MulLe(a: nat, b: nat, c: nat)
    requires a <= b
    ensures a * c <= b * c
  {
  }

  lemma DivLe(a: nat, b: nat, c: nat)
    requires a <= b && 0 < c
    ensures a / c <= b / c
  {
    if a / c > b / c {
      MulLe(b / c + 1, a / c, c);
    }
  }

  lemma MulDivCancel(x: nat, c: nat)
    requires 0 < c
    ensures (c * x) / c == x
  {
    var q := (c * x) / c;
    assert c * x == c * q + (c * x) % c;
    if q < x {
      MulLe(q + 1, x, c);
    } else if q > x {
      MulLe(x + 1, q, c);
    }
  }

  // ---------------------------------------------------------------------------
  // Division windows

  /** The end of division `d` in every row: the previous boundary, or the last column. */
  function Top(lines: seq<seq<nat>>, d: nat, len2: nat, len3: nat): seq<nat>
    requires d < |lines|
  {
    if d > 0 then lines[d - 1] else Repeat(len3, len2)
  }

  /** The row window the worker passes to the kernel for division `d`. */
  function DivWindow(lines: seq<seq<nat>>, d: nat, len2: nat, len3: nat): Window
    requires d < |lines|
  {
    Window(lines[d], Top(lines, d, len2, len3))
  }

  /** `a` is nowhere beyond `b` in the first `n` rows. */
  ghost predicate Below(a: seq<nat>, b: seq<nat>, n: nat) {
    |a| >= n && |b| >= n && forall i :: 0 <= i < n ==> a[i] <= b[i]
  }

  /**
   * The boundaries of a driver run: each is the boundary of a monomial `es[d]`,
   * they nest, the last is 0 in every row, and none passes the last column.
   */
  ghost predicate LinesOk<M>(o: MonoOrder<M>, A: seq<Term<M>>, B: seq<Term<M>>,
                             lines: seq<seq<nat>>, es: seq<M>) {
    && |lines| == |es| > 0
    && (forall d :: 0 <= d < |lines| ==> lines[d] == Ind(o, A, B, es[d]))
    && (forall d, d' :: 0 <= d' < d < |lines| ==> Below(lines[d], lines[d'], |A|))
    && lines[|lines| - 1] == Repeat<nat>(0, |A|)
  }

  /** Searches placed at the cuts give boundaries that tile every row. */
  lemma CutLines<M(!new)>(o: MonoOrder<M>, A: seq<Term<M>>, B: seq<Term<M>>, D: nat,
                          lines: seq<seq<nat>>, es: seq<M>, scores: seq<nat>)
    requires StrictTotal(o) && RowsIncreasing(o, A, B)
    requires |A| > 0 && |B| > 0 && D > 0
    requires |lines| == |es| == |scores| == D
    requires forall d :: 0 <= d < D ==>
               SearchOk(o, A, B, Cut(d, D, |A|, |B|), Cut(d, D, |A|, |B|), es[d], lines[d], scores[d])
    ensures LinesOk(o, A, B, lines, es)
  {
    forall d, d' | 0 <= d' < d < D
      ensures Below(lines[d], lines[d'], |A|)
    {
      CutsGrow(d', d, D, |A|, |B|);
      SearchNests(o, A, B, Cut(d, D, |A|, |B|), es[d], lines[d], scores[d],
                  Cut(d', D, |A|, |B|), es[d'], lines[d'], scores[d']);
    }
    CutsGrow(D - 1, D - 1, D, |A|, |B|);
    TopSearch(o, A, B, es[D - 1], lines[D - 1], scores[D - 1]);
  }

  /** Every division window fits, and starts no later than it ends. */
  lemma DivWindowFits<M>(o: MonoOrder<M>, A: seq<Term<M>>, B: seq<Term<M>>,
                         lines: seq<seq<nat>>, es: seq<M>, d: nat)
    requires LinesOk(o, A, B, lines, es) && d < |lines|
    ensures WindowFits(DivWindow(lines, d, |A|, |B|), |A|, |B|)
    ensures forall i :: 0 <= i < |A| ==> lines[d][i] <= Top(lines, d, |A|, |B|)[i]
  {
    if d > 0 {
      assert Below(lines[d], lines[d - 1], |A|);
    }
  }

  // ---------------------------------------------------------------------------
  // Joining adjacent products

  /**
   * The product over the columns before `L` followed by the product over the
   * columns from `L` to `T` is the product over the columns before `T`, when
   * a monomial `e` separates the two: the first window's products all come
   * before it and the second's none.
   */
  lemma JoinAdjacent<M(!new)>(o: MonoOrder<M>, A: seq<Term<M>>, B: seq<Term<M>>,
                              L: seq<nat>, T: seq<nat>, e: M, s1: seq<Term<M>>, s2: seq<Term<M>>)
    requires StrictTotal(o)
    requires Separated(o, A, B, L, T, e)
    requires IsProduct(o, A, B, Window(Repeat<nat>(0, |A|), L), s1)
    requires IsProduct(o, A, B, Window(L, T), s2)
    ensures IsProduct(o, A, B, Window(Repeat<nat>(0, |A|), T), s1 + s2)
  {
    var w := Window(Repeat<nat>(0, |A|), T);
    var s := s1 + s2;
    LowerSide(o, A, B, L, T, e, s1);
    UpperSide(o, A, B, L, T, e, s2);
    JoinSorted(o, e, s1, s2);
    forall k | 0 <= k < |s|
      ensures s[k].coeff == WinCoeff(o, A, B, w, s[k].mono)
    {
      if k < |s1| {
        assert s[k] == s1[k];
      } else {
        assert s[k] == s2[k - |s1|];
      }
    }
    JoinComplete(o, A, B, L, T, e, s1, s2);
  }

  /** The two windows and the monomial `e` that separates them. */
  ghost predicate Separated<M>(o: MonoOrder<M>, A: seq<Term<M>>, B: seq<Term<M>>, L: seq<nat>, T: seq<nat>, e: M) {
    && |L| == |T| == |A|
    && (forall i :: 0 <= i < |A| ==> L[i] <= T[i] <= |B|)
    && (forall i, j :: 0 <= i < |A| && 0 <= j < |B| && j < L[i] ==> o.lt(Key(o, A, B, i, j), e))
    && (forall i, j :: 0 <= i < |A| && L[i] <= j < T[i] && j < |B| ==> !o.lt(Key(o, A, B, i, j), e))
  }

  lemma LowerSide<M(!new)>(o: MonoOrder<M>, A: seq<Term<M>>, B: seq<Term<M>>,
                           L: seq<nat>, T: seq<nat>, e: M, s1: seq<Term<M>>)
    requires StrictTotal(o) && Separated(o, A, B, L, T, e)
    requires IsProduct(o, A, B, Window(Repeat<nat>(0, |A|), L), s1)
    ensures forall k :: 0 <= k < |s1| ==>
              o.lt(s1[k].mono, e) && s1[k].coeff == WinCoeff(o, A, B, Window(Repeat<nat>(0, |A|), T), s1[k].mono)
  {
    forall k | 0 <= k < |s1|
      ensures o.lt(s1[k].mono, e) && s1[k].coeff == WinCoeff(o, A, B, Window(Repeat<nat>(0, |A|), T), s1[k].mono)
    {
      var i, j := ProductMonoHasPair(o, A, B, Window(Repeat<nat>(0, |A|), L), s1, k);
      SplitCoeff(o, A, B, L, T, e, s1[k].mono);
    }
  }

  lemma UpperSide<M(!new)>(o: MonoOrder<M>, A: seq<Term<M>>, B: seq<Term<M>>,
                           L: seq<nat>, T: seq<nat>, e: M, s2: seq<Term<M>>)
    requires StrictTotal(o) && Separated(o, A, B, L, T, e)
    requires IsProduct(o, A, B, Window(L, T), s2)
    ensures forall k :: 0 <= k < |s2| ==>
              !o.lt(s2[k].mono, e) && s2[k].coeff == WinCoeff(o, A, B, Window(Repeat<nat>(0, |A|), T), s2[k].mono)
  {
    forall k | 0 <= k < |s2|
      ensures !o.lt(s2[k].mono, e) && s2[k].coeff == WinCoeff(o, A, B, Window(Repeat<nat>(0, |A|), T), s2[k].mono)
    {
      var i, j := ProductMonoHasPair(o, A, B, Window(L, T), s2, k);
      SplitCoeff(o, A, B, L, T, e, s2[k].mono);
    }
  }

  /** Two normalised lists on either side of `e` join into a normalised list. */
  lemma JoinSorted<M(!new)>(o: MonoOrder<M>, e: M, s1: seq<Term<M>>, s2: seq<Term<M>>)
    requires StrictTotal(o)
    requires Normalised(o, s1) && Normalised(o, s2)
    requires forall k :: 0 <= k < |s1| ==> o.lt(s1[k].mono, e)
    requires forall k :: 0 <= k < |s2| ==> !o.lt(s2[k].mono, e)
    ensures Normalised(o, s1 + s2)
  {
    var s := s1 + s2;
    forall k, k' | 0 <= k < k' < |s|
      ensures o.lt(s[k].mono, s[k'].mono)
    {
      if k' < |s1| {
        assert s[k] == s1[k] && s[k'] == s1[k'];
      } else if k >= |s1| {
        assert s[k] == s2[k - |s1|] && s[k'] == s2[k' - |s1|];
      } else {
        assert s[k] == s1[k] && s[k'] == s2[k' - |s1|];
        assert s2[k' - |s1|].mono == e || o.lt(e, s2[k' - |s1|].mono);
      }
    }
  }

  lemma JoinComplete<M(!new)>(o: MonoOrder<M>, A: seq<Term<M>>, B: seq<Term<M>>,
                              L: seq<nat>, T: seq<nat>, e: M, s1: seq<Term<M>>, s2: seq<Term<M>>)
    requires StrictTotal(o) && Separated(o, A, B, L, T, e)
    requires IsProduct(o, A, B, Window(Repeat<nat>(0, |A|), L), s1)
    requires IsProduct(o, A, B, Window(L, T), s2)
    ensures forall i, j :: 0 <= i < |A| && 0 <= j < |B| && InWindow(Window(Repeat<nat>(0, |A|), T), i, j)
              && WinCoeff(o, A, B, Window(Repeat<nat>(0, |A|), T), Key(o, A, B, i, j)) != 0
              ==> Key(o, A, B, i, j) in Monos(s1 + s2)
  {
    var w1, w2, w := Window(Repeat<nat>(0, |A|), L), Window(L, T), Window(Repeat<nat>(0, |A|), T);
    assert Monos(s1 + s2) == Monos(s1) + Monos(s2);
    forall i, j | 0 <= i < |A| && 0 <= j < |B| && InWindow(w, i, j) && WinCoeff(o, A, B, w, Key(o, A, B, i, j)) != 0
      ensures Key(o, A, B, i, j) in Monos(s1 + s2)
    {
      SplitCoeff(o, A, B, L, T, e, Key(o, A, B, i, j));
      if j < L[i] {
        assert InWindow(w1, i, j);
      } else {
        assert InWindow(w2, i, j);
      }
    }
  }

  /** A coefficient over the joined window is the one over the side of `e` its monomial is on. */
  lemma SplitCoeff<M(!new)>(o: MonoOrder<M>, A: seq<Term<M>>, B: seq<Term<M>>,
                            L: seq<nat>, T: seq<nat>, e: M, m: M)
    requires StrictTotal(o) && Separated(o, A, B, L, T, e)
    ensures o.lt(m, e) ==>
              WinCoeff(o, A, B, Window(Repeat<nat>(0, |A|), T), m) == WinCoeff(o, A, B, Window(Repeat<nat>(0, |A|), L), m)
    ensures !o.lt(m, e) ==>
              WinCoeff(o, A, B, Window(Repeat<nat>(0, |A|), T), m) == WinCoeff(o, A, B, Window(L, T), m)
  {
    var w1, w2, w := Window(Repeat<nat>(0, |A|), L), Window(L, T), Window(Repeat<nat>(0, |A|), T);
    if o.lt(m, e) {
      WinCongruence(o, A, B, w, w1, m);
    } else {
      WinCongruence(o, A, B, w, w2, m);
    }
  }

  // ---------------------------------------------------------------------------
  // The driver

  /** The outputs joined from division `D - 1` down to division `lo`. */
  function Join<T>(outs: seq<seq<T>>, lo: nat): (r: seq<T>)
    decreases |outs| - lo
  {
    if lo >= |outs| then [] else Join(outs, lo + 1) + outs[lo]
  }

  /** The sum of the division lengths `len1` from division `lo` up. */
  function TotalLen<T>(outs: seq<seq<T>>, lo: nat): nat
    decreases |outs| - lo
  {
    if lo >= |outs| then 0 else TotalLen(outs, lo + 1) + |outs[lo]|
  }

  /** The target score of every division, computed from the top division down. */
  method Targets(len2: nat, len3: nat, D: nat) returns (lower: seq<nat>)
    requires D > 0
    ensures |lower| == D
    ensures forall d :: 0 <= d < D ==> lower[d] == Cut(d, D, len2, len3)
  {
    lower := Repeat(0, D);
    var d := D;
    while d > 0
      invariant 0 <= d <= D && |lower| == D
      invariant forall d' :: d <= d' < D ==> lower[d'] == Cut(d', D, len2, len3)
    {
      d := d - 1;
      lower := lower[d := Cut(d, D, len2, len3)];
    }
  }

  /** Place the divisions: targets from the top division down, then one search each. */
  method PlaceDivisions<M>(o: MonoOrder<M>, A: seq<Term<M>>, B: seq<Term<M>>, D: nat)
    returns (lines: seq<seq<nat>>, es: seq<M>, scores: seq<nat>)
    requires |A| > 0 && |B| > 0 && D > 0
    ensures |lines| == |es| == |scores| == D
    ensures forall d :: 0 <= d < D ==>
              SearchOk(o, A, B, Cut(d, D, |A|, |B|), Cut(d, D, |A|, |B|), es[d], lines[d], scores[d])
  {
    var lower := Targets(|A|, |B|, D);
    var d := 0;
    lines, es, scores := [], [], [];
    while d < D
      invariant 0 <= d <= D
      invariant |lines| == |es| == |scores| == d
      invariant forall d' :: 0 <= d' < d ==>
                  SearchOk(o, A, B, Cut(d', D, |A|, |B|), Cut(d', D, |A|, |B|), es[d'], lines[d'], scores[d'])
    {
      var e, ind, score := BruteSearch(o, A, B, lower[d], lower[d]);
      lines, es, scores := lines + [ind], es + [e], scores + [score];
      d := d + 1;
    }
  }

  /**
   * The worker loop, run by a single worker: claim a division by decrementing
   * the counter, multiply over its window, and stop once the counter is
   * negative.  `claimed` lists the divisions in the order they were claimed.
   */
  method ClaimDivisions<M(==, !new)>(o: MonoOrder<M>, A: seq<Term<M>>, B: seq<Term<M>>,
                                     lines: seq<seq<nat>>, ghost es: seq<M>)
    returns (outs: seq<seq<Term<M>>>, claimed: seq<int>)
    requires ValidOrder(o) && Sorted(o, B) && |A| < Half
    requires LinesOk(o, A, B, lines, es)
    ensures |outs| == |lines|
    ensures forall d :: 0 <= d < |lines| ==> IsProduct(o, A, B, DivWindow(lines, d, |A|, |B|), outs[d])
    ensures |claimed| == |lines| && forall k :: 0 <= k < |lines| ==> claimed[k] == |lines| - 1 - k
  {
    var D := |lines|;
    outs := Repeat([], D);
    claimed := [];
    var idx: int := D;
    var i := idx - 1;
    idx := i;
    while i >= 0
      invariant -1 <= i < D && idx == i
      invariant |outs| == D
      invariant |claimed| == D - 1 - i && forall k :: 0 <= k < |claimed| ==> claimed[k] == D - 1 - k
      invariant forall d :: i < d < D ==> IsProduct(o, A, B, DivWindow(lines, d, |A|, |B|), outs[d])
      decreases i + 1
    {
      DivWindowFits(o, A, B, lines, es, i);
      var p, _ := MulHeapPart(o, A, B, DivWindow(lines, i, |A|, |B|));
      outs := outs[i := p];
      claimed := claimed + [i];
      i := idx - 1;
      idx := i;
    }
  }

  /** Join the division outputs from the top division down. */
  method Assemble<M(!new)>(o: MonoOrder<M>, A: seq<Term<M>>, B: seq<Term<M>>,
                           lines: seq<seq<nat>>, ghost es: seq<M>, outs: seq<seq<Term<M>>>)
    returns (out: seq<Term<M>>)
    requires StrictTotal(o) && RowsIncreasing(o, A, B)
    requires LinesOk(o, A, B, lines, es) && |outs| == |lines|
    requires forall d :: 0 <= d < |lines| ==> IsProduct(o, A, B, DivWindow(lines, d, |A|, |B|), outs[d])
    ensures IsProduct(o, A, B, FullWindow(|A|, |B|), out)
    ensures |out| == TotalLen(outs, 0)
  {
    var D := |lines|;
    out := outs[D - 1];
    var i := D - 1;
    while i > 0
      invariant 0 <= i < D
      invariant out == Join(outs, i)
      invariant IsProduct(o, A, B, Window(Repeat<nat>(0, |A|), Top(lines, i, |A|, |B|)), out)
      decreases i
    {
      i := i - 1;
      AssembleStep(o, A, B, lines, es, i, out, outs[i]);
      out := out + outs[i];
    }
    assert Window(Repeat<nat>(0, |A|), Top(lines, 0, |A|, |B|)) == FullWindow(|A|, |B|);
    JoinLength(outs, 0);
  }

  /** Division `i` joins the divisions above it: they cover the window up to its top. */
  lemma AssembleStep<M(!new)>(o: MonoOrder<M>, A: seq<Term<M>>, B: seq<Term<M>>,
                              lines: seq<seq<nat>>, es: seq<M>, i: nat, above: seq<Term<M>>, div: seq<Term<M>>)
    requires StrictTotal(o) && RowsIncreasing(o, A, B)
    requires LinesOk(o, A, B, lines, es) && i + 1 < |lines|
    requires IsProduct(o, A, B, Window(Repeat<nat>(0, |A|), Top(lines, i + 1, |A|, |B|)), above)
    requires IsProduct(o, A, B, DivWindow(lines, i, |A|, |B|), div)
    ensures IsProduct(o, A, B, Window(Repeat<nat>(0, |A|), Top(lines, i, |A|, |B|)), above + div)
  {
    DivWindowFits(o, A, B, lines, es, i);
    forall r, j | 0 <= r < |A| && 0 <= j < |B|
      ensures j < lines[i][r] <==> o.lt(Key(o, A, B, r, j), es[i])
    {
      IndPrefix(o, A, B, es[i], r, j);
    }
    JoinAdjacent(o, A, B, lines[i], Top(lines, i, |A|, |B|), es[i], above, div);
  }

  lemma {:induction false} JoinLength<T>(outs: seq<seq<T>>, lo: nat)
    ensures |Join(outs, lo)| == TotalLen(outs, lo)
    decreases |outs| - lo
  {
    if lo < |outs| {
      JoinLength(outs, lo + 1);
    }
  }

  /**
   * `_fmpz_mpoly_mul_heap_threaded`: the joined division outputs are the
   * normalised product of `A` and `B`, whatever the number of threads.
   */
  method MulHeapThreaded<M(==, !new)>(o: MonoOrder<M>, A: seq<Term<M>>, B: seq<Term<M>>, nthreads: nat)
    returns (out: seq<Term<M>>)
    requires ValidOrder(o) && Sorted(o, B)
    requires 0 < |A| < Half && |B| > 0 && nthreads > 0
    ensures IsProduct(o, A, B, FullWindow(|A|, |B|), out)
  {
    var D := 4 * nthreads;
    var lines, es, scores := PlaceDivisions(o, A, B, D);
    SortedRowsIncrease(o, A, B);
    CutLines(o, A, B, D, lines, es, scores);
    var outs, claimed := ClaimDivisions(o, A, B, lines, es);
    out := Assemble(o, A, B, lines, es, outs);
  }
}

=== FILE: wrappers.dfy ===
/**
 * Optional values, used for "no such monomial yet" and for failed operations,
 * and sequences of one repeated value.
 */
module Wrappers {
  datatype Option<+T> = None | Some(value: T)

  /** `n` copies of `v`. */
  function Repeat<T>(v: T, n: nat): (r: seq<T>)
    ensures |r| == n
    ensures forall k :: 0 <= k < n ==> r[k] == v
  {
    if n == 0 then [] else Repeat(v, n - 1) + [v]
  }
}
